=== FILE: README.md ===
# Wanyne template engine — a Dafny model

This project models the core of the Wanyne front-end engine, the
`WanyneTemplateEngine` class of `src/engine.mjs`. The engine renders an HTML
template. It resolves `<if>/<elif>/<else>` chains. It expands `<repeat>`
elements. It substitutes `@{code}` and `#{code}` spans with evaluated values.
It inlines `<import>`ed templates, scripts and styles. Finally it rewrites the
`src`/`href` of scripts, stylesheets, images and other links to paths under the
views root. Those paths are kept in four memo tables, and `getPublicFile`
serves files back from them.

The model is functional. The engine's four private maps are one `Cache`
record, and the `scope` object is a `map<string, Value>`. Both are threaded
through every pass, and each pass returns the new state or a `Fault`. Four
things become parameters of an `Env` record:

- the JavaScript evaluator behind `eval`/`instantEval`, which gives a value or throws;
- the HTML parser (`HTML.parse(..).childNodes`). The `innerHTML` setter that ends the injection pass parses with it too, but markup that yields no node becomes one text node holding it;
- the serialiser (`innerHTML`/`toString`);
- the file system (a map from path to contents).

A `fuel` argument bounds the engine's recursion. Running out of fuel yields
`RecursionLimit`, which stands in for the stack overflow of a cyclic import.

Modules, one per file:

| module | file | contents |
|---|---|---|
| `Wrappers` | `wrappers.dfy` | `Option`, `Result` |
| `Text` | `text.dfy` | `indexOf`, first-occurrence `replace` with `$` patterns, `split`/`join`, `#trim` |
| `Values` | `values.dfy` | JavaScript values, truthiness, `v \|\| ''`, number-to-string, `ToNumber` |
| `Paths` | `paths.dfy` | `path.resolve`, the views-root rebase for a leading `/`, `rel`, `parse(..).dir` and `.ext` |
| `Nodes` | `nodes.dfy` | the element tree, attribute lookup |
| `Injection` | `injection.dfy` | `processInjection`: the scanner loop and the replacements |
| `Conditionals` | `conditionals.dfy` | `processIfTag` |
| `Patterns` | `patterns.dfy` | the three regular expressions of the content rewriters |
| `Resolvers` | `resolvers.dfy` | `getTemplate`, `resolveScript`, `resolveStyle`, their content rewriters, `resolveResource`, `getPublicFile` |
| `Engine` | `engine.dfy` | `processTemplate`, `processRepeatTag`, `processImportTag`, the tag rewriters, `render` |

## Model

| member | source | states |
|---|---|---|
| `Text.IndexOf` | src/engine.mjs:318-321 | finds the first occurrence of the pattern, and finds none exactly when the pattern does not occur |
| `Text.ReplaceFirstSpec` | src/engine.mjs:318-321 | `replace` with a string pattern leaves the text alone when the pattern is absent; otherwise it splices the (dollar-free) replacement in at the first occurrence, and only there |
| `Text.SubstitutePlain` | src/engine.mjs:318-321 | a replacement with no `$` is inserted literally |
| `Text.ReplaceFirstPatterns` | src/engine.mjs:318-321 | the replacement's `$` patterns act on the first occurrence: `$&` puts the match back, `$$` gives one dollar, `` $` `` and `$'` give the text before and after the match, and a lone `$` or `$1` stays literal |
| `Text.Split` | src/engine.mjs:91 | `split(';')` yields at least one part, no part holds the separator, and joining the parts gives back the text |
| `Text.SplitJoin` | src/engine.mjs:91-106 | splitting the join of separator-free parts gives the parts back, so split and join are inverse |
| `Text.Trim` | src/engine.mjs:464-466 | `#trim` removes all the whitespace at each end and nothing else: the result sits inside the input with only whitespace around it, and it neither starts nor ends with whitespace |
| `Values.OrEmpty` | src/engine.mjs:317-320 | `value \|\| ''` is empty for every falsy value (`0`, `false`, `''`, `null`, `undefined`) and is the value's JavaScript text for every truthy one, which is never empty unless the value is an object |
| `Values.DecimalRoundTrip` | src/engine.mjs:317-321 | the decimal text a natural number is spliced as reads back as that number, so distinct numbers splice as distinct text |
| `Paths.Normalize` | src/engine.mjs:68 | `path.resolve` output is canonical: absolute, with no empty, `.` or `..` segment and no trailing slash |
| `Paths.NormalizeCanonical` | src/engine.mjs:68 | normalising a canonical path changes nothing |
| `Paths.Resolve` | src/engine.mjs:68 | resolving a target against a base gives a canonical path; `Paths.ResolveIgnoresBase` and `Paths.ResolveAppends` state which one |
| `Paths.ResolveIgnoresBase` | src/engine.mjs:68 | an absolute target is resolved on its own: every base gives the same path |
| `Paths.ResolveAppends` | src/engine.mjs:68 | a relative target of ordinary segments is appended to a canonical base with one slash between them |
| `Paths.Locate` | src/engine.mjs:62-68 | the resolvers' target, with a leading `/` rebased on the views root, is a canonical path; `Paths.LocateRooted` and `Paths.LocateRelative` state which one |
| `Paths.LocateRooted` | src/engine.mjs:62-68 | a target starting with `/` is looked up under the views root whatever directory it came from, directly below the root |
| `Paths.LocateRelative` | src/engine.mjs:62-68 | any other target of ordinary segments lands directly below the referring directory |
| `Paths.RelLocatesBack` | src/engine.mjs:62-72 | for a file under the views root, `rel` is the path after the root: it starts with `/`, the root followed by it is the file, and resolving it again from any directory leads back to the file |
| `Paths.Dir` | src/engine.mjs:343 | `path.parse(p).dir` is no longer than the path; `Paths.DirBasename` states what it is |
| `Paths.DirBasename` | src/engine.mjs:74 | for a canonical path other than `/`, `dir` and the base name split it at its last slash (`dir + "/" + base`, or `"/" + base` directly under the root), and `dir` is canonical again |
| `Paths.Ext` | src/engine.mjs:350 | `path.parse(p).ext` is the base name's tail from its last dot, with no other dot in it; it is empty exactly when the base name is `..` or has no dot after its first character |
| `Paths.BasenameLast` | src/engine.mjs:350 | the base name of a path is the text after its last slash |
| `Paths.DottedDirectoryCountsAsExtension` | src/engine.mjs:340-350 | for every one-line `src` whose last dot has a `/` after it (`a.b/c`), the import's test sees an extension, so no `.html` is appended, while `path.parse` reports no extension for the file |
| `Injection.ProcessInjection` | src/engine.mjs:295-335 | the scanner loop with its nesting counter computes exactly the reference definition: the spans the scanner grammar yields, replaced first to last in the evolving text |
| `Injection.SpansBalanced` | src/engine.mjs:299-330 | every collected code has balanced braces: no prefix closes more than it opens |
| `Injection.BalancedSpanExtracted` | src/engine.mjs:299-330 | conversely, text with no opener followed by `@{code}` or `#{code}` with balanced code yields that span first and then the spans of what follows |
| `Injection.InjectIdentity` | src/engine.mjs:296-334 | text with no `@{` or `#{` is left as it is |
| `Injection.UnterminatedUnchanged` | src/engine.mjs:296-334 | a span whose closing brace never comes yields nothing and the text is kept as it was |
| `Injection.InjectThrowsIff` | src/engine.mjs:316-321 | the pass throws exactly when one of the collected spans' expressions throws, whatever the earlier replacements did to the text |
| `Injection.FailureStays` | src/engine.mjs:316-321 | once a replacement has thrown, no later span changes the outcome |
| `Injection.SingleSpanReplaced` | src/engine.mjs:316-321 | a single span is replaced by its value's text (`@{}` by `eval`, `#{}` by `instantEval`); when its expression throws, the pass throws |
| `Injection.SingleSpanFalsy` | src/engine.mjs:317-321 | a span whose value is falsy is removed |
| `Injection.DollarValueKeepsSpan` | src/engine.mjs:317-321 | a value whose text is `$&` leaves the span in place, because `replace` reads the value as a pattern |
| `Injection.ValueShadowsLaterSpan` | src/engine.mjs:316-321 | replacing the first occurrence in the evolving text lets an earlier value that itself reads `@{b}` take the later span's replacement. With `a` evaluating to `@{b}` and `b` to `X`, the text `@{a}@{b}` becomes `X@{b}` |
| `Conditionals.NextElement` | src/engine.mjs:233 | `nextElementSibling` is the first element after the given one, skipping only text |
| `Conditionals.ChainEnd` | src/engine.mjs:230-244 | the chain collected from an `IF` is one `IF`, then `ELIF`s, then at most one `ELSE` that ends it, and no further sibling could join it |
| `Conditionals.Winner` | src/engine.mjs:246-262 | the member the loop stops at is the first one that is an `ELSE` or whose condition is truthy or throws; no earlier member is one |
| `Conditionals.ResolveChain` | src/engine.mjs:246-262 | resolving a chain fails only by a throw and never makes the forest bigger |
| `Conditionals.ChainKeepsFirstTaken` | src/engine.mjs:223-262 | resolving a chain keeps the children of the first taken member in its place and removes every other member (the independent definition `Keep`); it throws when the member it stops at throws, or when an `IF` inside a removed member does |
| `Conditionals.LaterConditionsUnread` | src/engine.mjs:246-257 | conditions after the member the loop stops at are never evaluated: changing the attributes of any later member changes nothing |
| `Conditionals.TakenIfDropsElse` | src/engine.mjs:246-262 | `<if>` with a truthy condition followed by `<else>` becomes the `if`'s children, and the `else` branch is gone; the `else`'s own subtree is still processed |
| `Conditionals.DetachedIfStillEvaluated` | src/engine.mjs:223-257 | an `IF` inside a removed `ELSE` still has its condition evaluated, and its throw fails the pass |
| `Conditionals.IfPass` | src/engine.mjs:222-264 | after the pass no `IF` is left outside a `REPEAT`, a forest with none is returned unchanged, and a failure is a throw |
| `Conditionals.IfPassTotal` | src/engine.mjs:222-264 | with an evaluator that never throws, the pass never fails |
| `Conditionals.IfPassLacks` | src/engine.mjs:222-264 | the pass only unwraps and removes elements: a tag absent from the input is absent from the output |
| `Conditionals.IfPassIdempotent` | src/engine.mjs:222-264 | running the `if` pass twice is the same as running it once |
| `Patterns.LastOccurrence` | src/engine.mjs:96-97 | finds the last occurrence of the pattern in a range, or reports that it has none |
| `Patterns.ScriptImport` | src/engine.mjs:96-97 | the statement matches `^import (?:.*) from (.*)$` exactly when it starts with `import `, has a ` from ` after that and is one line; the capture is the text after the last ` from ` |
| `Patterns.ScriptImportCapture` | src/engine.mjs:96-97 | `import <names> from <path>` captures `<path>` verbatim, quotes included |
| `Patterns.UrlAt` | src/engine.mjs:150-151 | a `url(` match captures a non-empty path that has no quote and no `)` |
| `Patterns.UrlFrom` | src/engine.mjs:150-151 | finds the leftmost position at or after a start where `url(...)` matches, or reports that none does |
| `Patterns.Url` | src/engine.mjs:150-151 | the match is the leftmost one: none begins earlier, and there is no match exactly when no position matches |
| `Patterns.UrlCapture` | src/engine.mjs:150-151 | `url(p)`, `url('p')` and `url("p")` all capture `p` |
| `Patterns.AtImport` | src/engine.mjs:162-163 | an `@import` match starts with `@import ` and a quote, and captures a non-empty path with no quote and no space |
| `Patterns.AtImportCapture` | src/engine.mjs:162-163 | `@import '<path>'<rest>` captures `<path>`, whichever quote closes it |
| `Resolvers.StripQuery` | src/engine.mjs:187 | on a one-line path the result is the longest prefix without `?`: a path without `?` keeps its key, and one with a query loses it from the first `?` on |
| `Resolvers.QueryDropped` | src/engine.mjs:187 | `p?q` is keyed as `p`, so `a.png?x` and `a.png?y` share one record |
| `Resolvers.GetTemplate` | src/engine.mjs:45-52 | a non-empty cached template is returned as stored and nothing changes; otherwise the file is read and stored; it fails, with `NotFound` for that path, only for a missing file that has no non-empty cached copy |
| `Resolvers.TemplateCached` | src/engine.mjs:45-52 | a second read of a non-empty template comes from the cache and changes nothing |
| `Resolvers.ResolveResource` | src/engine.mjs:174-196 | the returned record is the one stored under the path without its query; only the resource table changes, and earlier records keep their values |
| `Resolvers.ResourceQueryShared` | src/engine.mjs:186-195 | two targets that differ only in their query share the first record stored, and the second resolve changes nothing |
| `Resolvers.ResolveScript` | src/engine.mjs:54-77 | a resolved script is stored under its resolved path, earlier records keep their values, and in a well-keyed cache the record carries that path and its `rel` |
| `Resolvers.ScriptResolvedOnce` | src/engine.mjs:67-77 | a second resolve that reaches the same file, from any directory, returns the stored record and changes no cache |
| `Resolvers.ScriptLines` | src/engine.mjs:90-107 | one output statement per input statement; a statement with no non-HTTP `import ... from` is kept as it is |
| `Resolvers.ScriptLine` | src/engine.mjs:94-103 | a statement the rewriter does not resolve is returned as it is, with the cache untouched |
| `Resolvers.ScriptTarget` | src/engine.mjs:96-98 | an HTTP import path is never resolved |
| `Resolvers.ScriptContentUntouched` | src/engine.mjs:90-107 | a script whose statements import nothing local comes back byte for byte, and nothing is cached |
| `Resolvers.ResolveStyle` | src/engine.mjs:108-131 | the same storage guarantees for styles |
| `Resolvers.StyleResolvedOnce` | src/engine.mjs:121-131 | a second resolve of the same stylesheet returns the stored record and changes no cache |
| `Resolvers.StyleLines` | src/engine.mjs:144-173 | one output statement per input statement; a statement with no non-HTTP reference is kept as it is |
| `Resolvers.StyleLine` | src/engine.mjs:148-169 | a statement the rewriter does not resolve is returned as it is, with the cache untouched |
| `Resolvers.StyleTarget` | src/engine.mjs:150-168 | HTTP references are never resolved, and `@import` is consulted only when the statement has no `url(...)` |
| `Resolvers.StyleContentUntouched` | src/engine.mjs:144-173 | a stylesheet with no local reference comes back byte for byte, and nothing is cached |
| `Resolvers.ScriptServedBack` | src/engine.mjs:197-211 | the `rel` a script was given leads `getPublicFile` back to the script's file, when that file lies under the views root and exists |
| `Resolvers.StyleServedBack` | src/engine.mjs:197-211 | the same for a stylesheet's `rel` |
| `Resolvers.ResourceServedBack` | src/engine.mjs:197-211 | the same for a resource's `rel`, when its path carries no query |
| `Engine.Bounds` | src/engine.mjs:273-279 | `times`, `from` and `to` are all evaluated, so the repeat throws exactly when one of them does, even when `times` is truthy; a truthy `times` starts the loop at 0 |
| `Engine.Range` | src/engine.mjs:284 | the inclusive loop visits `from, from+1, ..., to` and nothing when `to < from` |
| `Engine.TimesSchedule` | src/engine.mjs:273-284 | a truthy `times` whose number is `n` (`3`, `"3"`, `[3]` or `true`) runs exactly `n` iterations (none when `n` is negative), indexed `0..n-1`, whatever `from` and `to` are |
| `Engine.FromToSchedule` | src/engine.mjs:273-284 | a falsy `times` leaves numeric `from` and `to` as the bounds: `to - from + 1` iterations |
| `Engine.LoopFollowsRange` | src/engine.mjs:284-292 | the repeat loop equals the reference iteration over the index list: each index in increasing order, each fragment appended after the earlier ones, the scope carried from one to the next |
| `Engine.RepeatLoop` | src/engine.mjs:284-291 | the loop keeps every earlier cache record and keeps the cache well keyed; a loop whose start is past its end produces nothing and leaves the state as it was |
| `Engine.LoopLeavesLastIndex` | src/engine.mjs:284-291 | the index is never restored: after a loop of at least one iteration whose body writes nothing else, the scope holds the last index under the index key and every other entry as before |
| `Engine.ScopeKept` | src/engine.mjs:213-221 | only the repeat pass writes the scope: processing a template with no `REPEAT` leaves the scope as it was, when parsed markup never holds a `REPEAT` or an `IMPORT` |
| `Engine.Iteration` | src/engine.mjs:285-290 | one iteration keeps every earlier cache record and keeps the cache well keyed |
| `Engine.RepeatPass` | src/engine.mjs:265-294 | the repeat pass keeps every earlier cache record and keeps the cache well keyed |
| `Engine.RepeatPassIdentity` | src/engine.mjs:265-294 | a forest with no `REPEAT` comes back unchanged, with the state as it was |
| `Engine.RepeatPassSkipsGuarded` | src/engine.mjs:266-271 | a `REPEAT` with an `IF` ancestor is skipped: when every `REPEAT` has one, the pass returns the forest and the state unchanged |
| `Engine.RepeatBoundsThrow` | src/engine.mjs:273-275 | a `REPEAT` outside any `IF` whose `times`, `from` or `to` throws fails the pass with that throw |
| `Engine.RepeatExpands` | src/engine.mjs:273-292 | a `REPEAT` outside any `IF` is replaced by the fragments its loop produced over the evaluated bounds, followed by the processed siblings; its own subtree is then processed detached, so only the state it leaves is kept |
| `Engine.ProcessTemplate` | src/engine.mjs:213-221 | processing a template keeps every earlier cache record and keeps the cache well keyed |
| `Engine.ProcessTemplateIdentity` | src/engine.mjs:213-221 | a non-empty document with no directive, no `@{`/`#{` and only HTTP references comes back unchanged, with caches and scope as they were, when parsing its markup gives it back |
| `Engine.SetInner` | src/engine.mjs:334 | assigning `innerHTML` never leaves the document empty, and no tag appears in it that the parser's output lacks |
| `Engine.EmptyDocumentBecomesText` | src/engine.mjs:371-379 | a template that processes to nothing ends as one text node, so importing it with attributes besides `src` fails on `setAttribute` |
| `Engine.ImportSourceSettles` | src/engine.mjs:340-342 | after `.html` is appended the source has an extension, so the step is idempotent |
| `Engine.DoubleSlashImport` | src/engine.mjs:344-366 | a `src` of `//f` (`f` one ordinary segment with an extension, such as `x.js`) is rebased twice: the import dispatches on `/f` at the file-system root, while the script or style resolver reads `f` under the views root, another file |
| `Engine.ImportDocument` | src/engine.mjs:353-369 | an extension outside the three lists fails (the document stays `undefined`); a template import leaves the file in the template table, and a missing uncached template fails with `NotFound` for it; earlier records keep their values |
| `Engine.PassAttributes` | src/engine.mjs:373-379 | a lone element gains the import's attributes on top of its own, keeps its other attributes' values, its tag and its children; other fragments pass unchanged; it fails exactly for a lone text node when there are attributes to copy |
| `Engine.Import` | src/engine.mjs:339-381 | the file looked up is `src` (with `.html` when it has no extension) located from the template's directory or the views root: a template import leaves that file in the template table, a missing uncached one fails with `NotFound` for it, and an unknown extension fails; earlier cache records keep their values |
| `Engine.ImportPass` | src/engine.mjs:336-383 | the import pass keeps every earlier cache record and keeps the cache well keyed |
| `Engine.ImportPassIdentity` | src/engine.mjs:336-383 | a forest with no `IMPORT` comes back unchanged, with the state as it was |
| `Engine.RewriteOne` | src/engine.mjs:389-433 | an element the selector does not pick, or one with an HTTP target, is left as it was; otherwise only the selected attribute changes, to the `rel` recorded for the resolved target (for scripts and styles, the `rel` of the resolved path) |
| `Engine.RewriteTags` | src/engine.mjs:384-435 | a rewriter changes only attributes, never the tree's shape or text, and the caches only grow |
| `Engine.HttpTargetsUntouched` | src/engine.mjs:389-433 | a document whose selected targets are all HTTP comes back unchanged, with the cache untouched |
| `Engine.TagPasses` | src/engine.mjs:218-220 | the three tag passes together change only attributes, and earlier cache records keep their values |
| `Engine.Render` | src/engine.mjs:27-43 | a successful render leaves the template in the cache; with caching on, every earlier cache record keeps its value |
| `Engine.UncachedRenderIgnoresHistory` | src/engine.mjs:29-34 | with caching off, what earlier renders cached makes no difference to the output |

## Where the code and its description differ

The model follows the code in each case.

- Scripts and styles are memoised only after their content has been rewritten. A cycle of imports therefore recurses without bound instead of being cut short by the cache. The model bounds this with fuel.
- `^import (?:.*) from (.*)$` captures the path with its quotes. `import x from './b.js'` therefore resolves the file `'./b.js'`, quotes included, which does not normally exist.
- An `<elif>` or `<else>` with no `<if>` before it is kept in the document. It is not reported as an error.
- `<if>` is skipped under any `<repeat>` ancestor, not only a direct parent. `<repeat>` likewise skips any `<if>` ancestor.
- `0` and `false` are spliced as the empty string, like `null` and `undefined`.
- The collected code keeps the spaces around it. `@{ f({a:1}) }` evaluates ` f({a:1}) `.
- Templates are keyed by the path as given, not resolved. A template whose text is empty is read again on every request.
- The `if` pass collects every `IF` up front (line 223). An `<if>` inside a branch that was removed is still evaluated later, and its throw fails the render.
- A `<repeat>` evaluates `times`, `from` and `to` all three (lines 273-275), even when `times` alone decides the count. A throw in any of them fails the render.
- After injection the document is rebuilt through the `innerHTML` setter (line 334), not `HTML.parse`. Markup with no node becomes a single text node, so an imported template that ends empty is one text node: importing it with attributes besides `src` throws at line 377 instead of importing nothing.
- An import `src` with two leading slashes is rebased on the views root twice. `//x.js` is dispatched as the file `/x.js` at the file-system root (lines 344-350), but the script or style resolver strips the second slash too and reads `x.js` under the views root (lines 62-65).
- A spliced value is passed to `replace` as its replacement pattern, so a value holding `$&`, `` $` `` or `$'` does not appear literally.

## Left out

- The inline-content branches of `resolveScript` and `resolveStyle` (lines 78-86 and 132-140) are not modelled. No caller reaches them: their only callers are commented out at lines 385-388 and 399-402.
- The `minify` option is not modelled: the constructor sets it and nothing reads it. The `express` adapter (lines 484-507) only registers `render` and `getPublicFile` with the web framework, so it is not modelled either. The `#encode`/`#decode` helpers are never called.
- The evaluator is a function parameter that either gives a value or throws. Its side effects on `scope` are not modelled. Only the pass's own write of the loop index changes the scope.
- Values are integers, strings, booleans, `null`, `undefined` and opaque objects. JavaScript numbers are doubles, and the model does not follow them there. Non-integral numbers, NaN arithmetic and `Infinity` are not modelled, and neither are functions used as replacement values.
- Numbers of 10^21 and above are spliced as their full decimal digits; JavaScript writes them in exponent form (`1e+21`).
- Engine.RepeatLoop: the loop ends for every integer bound. In JavaScript, past 2^53 `i++` no longer changes `i`, so a loop with such a bound never ends; integers are unbounded here.
- Engine.Render: a fault carries no cache. In the source the four tables are updated in place, so records stored before a throw survive: the next cached render starts from them and `getPublicFile` serves them. The model returns only the fault, so it makes no promise about the tables after a failed render.
- Parsing and serialising markup are parameters, so no round trip between them is assumed. The output of repeat iterations is modelled as the concatenation of their fragments.
- Comment nodes are not modelled. Attribute names are taken as given, so HTML's case-insensitivity is not modelled.
- The file system is a map from path to contents for `readFileSync` and a set for `existsSync`. Directories and I/O errors other than a missing file are not modelled.
- `path.resolve` of a relative base would consult the working directory. The model resolves a relative base from `/`.
- The base64 keys of the memo tables are not modelled. Tables are keyed by the path itself. The UTF-8 base64 encoding is injective on well-formed text, so the same lookups hit. Lone surrogates, which the encoding merges, are not modelled.
- A stack overflow is modelled as `RecursionLimit` when the fuel runs out.
- Engine.Bounds: when `times` is falsy the model reads `from` and `to` as integers. It does not model the string comparison `i <= to` makes when both bounds are strings. It also does not model that the first iteration writes the raw `from` value (`null`, `true`, a string) into the index before `i++` turns it into a number.
- Values.ToNumber: hexadecimal, exponent and fractional numerals are read as NaN. An object is read through its text, which is right for arrays and plain objects but not for one with its own `valueOf`, such as a `Date`.
- Engine.LoopLeavesLastIndex: it assumes a parser whose output holds no `REPEAT` and no `IMPORT`, because a nested repeat with the same index key, or a repeat inside an imported template, writes the key again.
- Engine.ProcessTemplate: the contract states that the caches grow and stay well keyed. The order of the passes is given by its definition. Its output is stated only for particular documents: `Engine.ProcessTemplateIdentity` covers a document with nothing to process, and `Engine.ScopeKept` covers the scope of one without `REPEAT`.
- Engine.RepeatPass: the contract states only that the caches grow and stay well keyed. Its output is stated by `Engine.RepeatPassSkipsGuarded` (a `REPEAT` under an `IF` is skipped), `Engine.RepeatExpands` and `Engine.RepeatBoundsThrow` (a `REPEAT` outside any `IF` at the head of a sibling list); `Engine.LoopFollowsRange` describes the loop itself.
- Engine.Iteration: the contract states only that the caches grow.
- Engine.Import: for scripts and styles the contract states only that the caches grow; the record that is inlined is described by `Resolvers.ResolveScript` and `Resolvers.ResolveStyle`.
- Engine.ImportPass: the contract states only that the caches grow and stay well keyed; `Engine.ImportPassIdentity` states its output on a forest without imports.
- Engine.Render: the contract does not state the rendered text; it is the serialised result of `Engine.ProcessTemplate`.
- Resolvers.ScriptLines: the rewritten text of a resolved statement is not stated in the contract. It is the first occurrence of the captured path replaced by the resolved `rel`, as `Text.ReplaceFirstSpec` describes.
- Resolvers.StyleLines: the rewritten text of a resolved statement is not stated in the contract, for the same reason.
- Paths.Dir: its own contract states only a length bound, because the split at the last slash is proved from the canonical-path lemmas, which use `Dir`; `Paths.DirBasename` states it.

=== FILE: conditionals.dfy ===
/**
 * The `if` pass (`processIfTag`): every `IF` element that has no `REPEAT`
 * ancestor starts a chain of following sibling elements (`ELIF`s, then at
 * most one `ELSE`; text between them is skipped). The first member whose
 * condition holds, or the `ELSE`, is replaced by its children; every other
 * member is removed. The members' own conditions are read in order and
 * only until one is taken; a condition that throws ends the pass. The `IF`
 * elements inside a removed member are still in the list the pass walks,
 * so they are processed too, detached: their conditions are evaluated (and
 * may throw), their output is discarded.
 */
module Conditionals {
  import opened Wrappers
  import opened Faults
  import opened Values
  import opened Nodes
  import Injection

  /** The member's `condition` attribute, evaluated as `instantEval` does; None when it throws. */
  function Test(ev: Injection.Evaluator, scope: Scope, n: Node): (r: Option<bool>)
    ensures r.Some? <==> Injection.InstantEval(ev, AttrCode(n, "condition"), scope).Some?
    ensures r.Some? ==> r.value == Truthy(Injection.InstantEval(ev, AttrCode(n, "condition"), scope).value)
  {
    match Injection.InstantEval(ev, AttrCode(n, "condition"), scope)
    case None => None
    case Some(v) => Some(Truthy(v))
  }

  predicate Holds(ev: Injection.Evaluator, scope: Scope, n: Node) {
    Test(ev, scope, n) == Some(true)
  }

  /** A member that carries a condition. */
  predicate IsCondition(n: Node) {
    n.Element? && (n.tag == "IF" || n.tag == "ELIF")
  }

  /** The index of the first element at or after `k`, skipping text. */
  function NextElement(ns: seq<Node>, k: nat): (r: Option<nat>)
    requires k <= |ns|
    ensures r.Some? ==> k <= r.value < |ns| && ns[r.value].Element?
    ensures r.Some? ==> forall j :: k <= j < r.value ==> ns[j].Text?
    ensures r.None? ==> forall j :: k <= j < |ns| ==> ns[j].Text?
    decreases |ns| - k
  {
    if k == |ns| then None
    else if ns[k].Element? then Some(k)
    else NextElement(ns, k + 1)
  }

  /**
   * The shape of a chain: an `IF`, then only `ELIF` elements, the last
   * element possibly an `ELSE`; the chain ends with an element.
   */
  predicate ChainShape(region: seq<Node>) {
    |region| >= 1 && IsElement(region[0], "IF") && region[|region| - 1].Element?
    && forall j :: 0 < j < |region| && region[j].Element? ==>
         region[j].tag == "ELIF" || (region[j].tag == "ELSE" && j == |region| - 1)
  }

  /** No further sibling element could join the chain `ns[..end]`. */
  predicate Maximal(ns: seq<Node>, end: nat)
    requires 1 <= end <= |ns|
  {
    IsElement(ns[end - 1], "ELSE")
    || match NextElement(ns, end)
       case None => true
       case Some(j) => ns[j].tag != "ELIF" && ns[j].tag != "ELSE"
  }

  /**
   * What the collecting loop has seen at index `k`: an `IF` first, then
   * only `ELIF` elements, the last of them at `last - 1`.
   */
  predicate ChainPrefix(ns: seq<Node>, k: nat, last: nat) {
    1 <= last <= k <= |ns| && IsElement(ns[0], "IF") && ns[last - 1].Element?
    && (forall j :: 0 < j < k && ns[j].Element? ==> ns[j].tag == "ELIF")
    && (forall j :: last <= j < k ==> ns[j].Text?)
  }

  /**
   * The end (exclusive) of the chain starting with the `IF` at index 0,
   * collected by walking `nextElementSibling` from index `k`.
   */
  function ChainEnd(ns: seq<Node>, k: nat, last: nat): (e: nat)
    requires ChainPrefix(ns, k, last)
    ensures 1 <= e <= |ns|
    ensures ChainShape(ns[..e]) && Maximal(ns, e)
    decreases |ns| - k
  {
    if k == |ns| then
      ChainEndStop(ns, k, last);
      last
    else match ns[k]
      case Text(_) => ChainEnd(ns, k + 1, last)
      case Element(tag, _, _) =>
        if tag == "ELIF" then ChainEnd(ns, k + 1, k + 1)
        else if tag == "ELSE" then
          assert ns[..k + 1][k] == ns[k];
          k + 1
        else
          ChainEndStop(ns, k, last);
          last
  }

  /** Stopping at `k` without taking `ns[k]`: the chain so far is complete. */
  lemma ChainEndStop(ns: seq<Node>, k: nat, last: nat)
    requires ChainPrefix(ns, k, last)
    requires k == |ns| || (ns[k].Element? && ns[k].tag != "ELIF" && ns[k].tag != "ELSE")
    ensures ChainShape(ns[..last]) && Maximal(ns, last)
  {
    var region := ns[..last];
    assert region[0] == ns[0] && region[last - 1] == ns[last - 1];
    var n := NextElement(ns, last);
    if n.Some? {
      assert n.value == k;
    }
  }

  /**
   * The resolving loop over the chain's members from index `k`:
   * `checked` is set once a member has been taken. Text between members
   * is left in place; a removed member's children are run through the
   * pass detached, and only their failure is kept.
   */
  function ResolveChain(ev: Injection.Evaluator, scope: Scope, region: seq<Node>, k: nat, checked: bool): (r: Result<seq<Node>, Fault>)
    requires k <= |region|
    ensures r.Err? ==> r.error == Threw
    ensures r.Ok? ==> Size(r.value) <= Size(region[k..])
    ensures r.Ok? && k < |region| && region[k].Element? ==> Size(r.value) < Size(region[k..])
    decreases Size(region[k..]), 0, |region| - k
  {
    if k == |region| then Ok([])
    else
      assert region[k..] == [region[k]] + region[k + 1..];
      assert Size(region[k..]) == NodeSize(region[k]) + Size(region[k + 1..]);
      match region[k]
      case Text(_) =>
        (match ResolveChain(ev, scope, region, k + 1, checked)
         case Err(e) => Err(e)
         case Ok(rest) =>
           SizeConcat([region[k]], rest);
           assert Size([region[k]]) == NodeSize(region[k]) by {
             assert [region[k]][1..] == [];
           }
           Ok([region[k]] + rest))
      case Element(tag, _, kids) =>
        if checked then
          var detached :- IfPass(ev, scope, kids);
          ResolveChain(ev, scope, region, k + 1, true)
        else if tag == "IF" || tag == "ELIF" then
          match Test(ev, scope, region[k])
          case None => Err(Threw)
          case Some(taken) =>
            if taken then
              match ResolveChain(ev, scope, region, k + 1, true)
              case Err(e) => Err(e)
              case Ok(rest) =>
                SizeConcat(kids, rest);
                Ok(kids + rest)
            else
              var detached :- IfPass(ev, scope, kids);
              ResolveChain(ev, scope, region, k + 1, false)
        else
          match ResolveChain(ev, scope, region, k + 1, true)
          case Err(e) => Err(e)
          case Ok(rest) =>
            SizeConcat(kids, rest);
            Ok(kids + rest)
  }

  /** Every `IF` left in the forest lies under a `REPEAT`. */
  predicate NoLiveIf(ns: seq<Node>)
    decreases ns
  {
    forall i :: 0 <= i < |ns| ==> NodeNoLiveIf(ns[i])
  }

  predicate NodeNoLiveIf(n: Node)
    decreases n
  {
    match n
    case Text(_) => true
    case Element(tag, _, kids) => tag != "IF" && (tag == "REPEAT" || NoLiveIf(kids))
  }

  lemma NoLiveIfCons(n: Node, rest: seq<Node>)
    ensures NoLiveIf([n] + rest) <==> NodeNoLiveIf(n) && NoLiveIf(rest)
  {
    var s := [n] + rest;
    assert s[0] == n;
    assert forall i :: 0 <= i < |rest| ==> s[i + 1] == rest[i];
  }

  /**
   * The `if` pass over a sibling list, in document order. A resolved
   * chain is replaced in place, so the taken member's children (and any
   * `IF` among them) are processed next, against the siblings that follow.
   * `REPEAT` subtrees are left alone.
   */
  function IfPass(ev: Injection.Evaluator, scope: Scope, ns: seq<Node>): (r: Result<seq<Node>, Fault>)
    ensures r.Err? ==> r.error == Threw
    ensures r.Ok? ==> NoLiveIf(r.value)
    ensures NoLiveIf(ns) ==> r == Ok(ns)
    decreases Size(ns), 1, 0
  {
    if ns == [] then Ok([])
    else
      assert ns == [ns[0]] + ns[1..];
      assert Size(ns) == NodeSize(ns[0]) + Size(ns[1..]);
      NoLiveIfCons(ns[0], ns[1..]);
      match ns[0]
      case Text(_) =>
        (match IfPass(ev, scope, ns[1..])
         case Err(e) => Err(e)
         case Ok(rest) =>
           NoLiveIfCons(ns[0], rest);
           Ok([ns[0]] + rest))
      case Element(tag, attrs, kids) =>
        if tag == "REPEAT" then
          match IfPass(ev, scope, ns[1..])
          case Err(e) => Err(e)
          case Ok(rest) =>
            NoLiveIfCons(ns[0], rest);
            Ok([ns[0]] + rest)
        else if tag == "IF" then
          var end := ChainEnd(ns, 1, 1);
          assert Size(ns[..end]) + Size(ns[end..]) == Size(ns) && ns[..end][0..] == ns[..end] by {
            SizeConcat(ns[..end], ns[end..]);
            assert ns[..end] + ns[end..] == ns;
          }
          match ResolveChain(ev, scope, ns[..end], 0, false)
          case Err(e) => Err(e)
          case Ok(resolved) =>
            SizeConcat(resolved, ns[end..]);
            IfPass(ev, scope, resolved + ns[end..])
        else
          var kids' :- IfPass(ev, scope, kids);
          match IfPass(ev, scope, ns[1..])
          case Err(e) => Err(e)
          case Ok(rest) =>
            NoLiveIfCons(Element(tag, attrs, kids'), rest);
            Ok([Element(tag, attrs, kids')] + rest)
  }

  /** Running the pass again on its output changes nothing. */
  lemma IfPassIdempotent(ev: Injection.Evaluator, scope: Scope, ns: seq<Node>)
    requires IfPass(ev, scope, ns).Ok?
    ensures IfPass(ev, scope, IfPass(ev, scope, ns).value) == IfPass(ev, scope, ns)
  {
  }

  /** At an `IF`, the pass resolves its chain in place and carries on from there. */
  lemma IfPassAtChain(ev: Injection.Evaluator, scope: Scope, ns: seq<Node>)
    requires |ns| >= 1 && IsElement(ns[0], "IF")
    ensures var end := ChainEnd(ns, 1, 1);
            var resolved := ResolveChain(ev, scope, ns[..end], 0, false);
            IfPass(ev, scope, ns)
            == if resolved.Err? then Err(resolved.error) else IfPass(ev, scope, resolved.value + ns[end..])
  {
  }

  // ------------------------------------------------ the reference outcome

  /** A member at which the loop stops looking: taken, or its condition throws. */
  predicate Settles(ev: Injection.Evaluator, scope: Scope, n: Node) {
    n.Element? && (!IsCondition(n) || Test(ev, scope, n) != Some(false))
  }

  /** The index of the first member at or after `k` that settles the chain. */
  function Winner(ev: Injection.Evaluator, scope: Scope, region: seq<Node>, k: nat): (w: Option<nat>)
    requires k <= |region|
    ensures w.Some? ==> k <= w.value < |region| && Settles(ev, scope, region[w.value])
    ensures w.Some? ==> forall j :: k <= j < w.value ==> !Settles(ev, scope, region[j])
    ensures w.None? ==> forall j :: k <= j < |region| ==> !Settles(ev, scope, region[j])
    decreases |region| - k
  {
    if k == |region| then None
    else if Settles(ev, scope, region[k]) then Some(k)
    else Winner(ev, scope, region, k + 1)
  }

  /** The chain settles on a member whose condition throws. */
  predicate ThrowsAt(ev: Injection.Evaluator, scope: Scope, region: seq<Node>, w: Option<nat>) {
    w.Some? && w.value < |region| && IsCondition(region[w.value]) && Test(ev, scope, region[w.value]).None?
  }

  /** Every removed member from `k` on (all but `w`) passes, detached. */
  predicate DetachedPass(ev: Injection.Evaluator, scope: Scope, region: seq<Node>, w: Option<nat>, k: nat) {
    forall j :: k <= j < |region| && region[j].Element? && w != Some(j) ==>
      IfPass(ev, scope, region[j].children).Ok?
  }

  /**
   * The reference outcome: text stays, the member at `w` (if any) is
   * replaced by its children, every other member disappears.
   */
  function Keep(region: seq<Node>, w: Option<nat>, k: nat): seq<Node>
    requires k <= |region|
    decreases |region| - k
  {
    if k == |region| then []
    else
      (if region[k].Text? then [region[k]]
       else if w == Some(k) then region[k].children
       else [])
      + Keep(region, w, k + 1)
  }

  /** What resolving from `k` should give, when the chain settles at `w`. */
  function Expected(ev: Injection.Evaluator, scope: Scope, region: seq<Node>, w: Option<nat>, k: nat): Result<seq<Node>, Fault>
    requires k <= |region|
  {
    if (w.Some? && k <= w.value && ThrowsAt(ev, scope, region, w)) || !DetachedPass(ev, scope, region, w, k)
    then Err(Threw) else Ok(Keep(region, w, k))
  }

  lemma DetachedStep(ev: Injection.Evaluator, scope: Scope, region: seq<Node>, w: Option<nat>, k: nat)
    requires k < |region|
    ensures DetachedPass(ev, scope, region, w, k)
        <==> (region[k].Element? && w != Some(k) ==> IfPass(ev, scope, region[k].children).Ok?)
             && DetachedPass(ev, scope, region, w, k + 1)
  {
  }

  /** A text node between members is kept. */
  lemma TextStep(ev: Injection.Evaluator, scope: Scope, region: seq<Node>, k: nat, checked: bool, w: Option<nat>)
    requires k < |region| && region[k].Text? && w != Some(k)
    requires ResolveChain(ev, scope, region, k + 1, checked) == Expected(ev, scope, region, w, k + 1)
    ensures ResolveChain(ev, scope, region, k, checked) == Expected(ev, scope, region, w, k)
  {
    DetachedStep(ev, scope, region, w, k);
  }

  /** A member passed over (not taken) is removed, its subtree processed detached. */
  lemma SkipStep(ev: Injection.Evaluator, scope: Scope, region: seq<Node>, k: nat, checked: bool, w: Option<nat>)
    requires k < |region| && region[k].Element? && w != Some(k)
    requires checked || (IsCondition(region[k]) && Test(ev, scope, region[k]) == Some(false))
    requires ResolveChain(ev, scope, region, k + 1, checked) == Expected(ev, scope, region, w, k + 1)
    ensures ResolveChain(ev, scope, region, k, checked) == Expected(ev, scope, region, w, k)
  {
    DetachedStep(ev, scope, region, w, k);
    assert Keep(region, w, k) == [] + Keep(region, w, k + 1) == Keep(region, w, k + 1);
    assert DetachedPass(ev, scope, region, w, k)
       <==> IfPass(ev, scope, region[k].children).Ok? && DetachedPass(ev, scope, region, w, k + 1);
    var detached := IfPass(ev, scope, region[k].children);
    var next := ResolveChain(ev, scope, region, k + 1, checked);
    assert ResolveChain(ev, scope, region, k, checked) == if detached.Err? then Err(Threw) else next;
    assert (w.Some? && k <= w.value && ThrowsAt(ev, scope, region, w))
       <==> (w.Some? && k + 1 <= w.value && ThrowsAt(ev, scope, region, w));
    assert Expected(ev, scope, region, w, k) == if detached.Err? then Err(Threw) else Expected(ev, scope, region, w, k + 1);
  }

  /** The member the chain settles on: it throws, or its children replace it. */
  lemma SettleStep(ev: Injection.Evaluator, scope: Scope, region: seq<Node>, k: nat)
    requires k < |region| && Settles(ev, scope, region[k])
    requires ResolveChain(ev, scope, region, k + 1, true) == Expected(ev, scope, region, Some(k), k + 1)
    ensures ResolveChain(ev, scope, region, k, false) == Expected(ev, scope, region, Some(k), k)
  {
    DetachedStep(ev, scope, region, Some(k), k);
  }

  /**
   * Resolving a chain is the reference outcome of the member it settles
   * on: that member's children alone survive, unless its condition threw
   * or a removed member's subtree failed.
   */
  lemma {:induction false} ResolveMatchesKeep(ev: Injection.Evaluator, scope: Scope, region: seq<Node>, k: nat,
                                              checked: bool, w: Option<nat>)
    requires k <= |region|
    requires checked ==> (w.None? || w.value < k)
    requires !checked ==> w == Winner(ev, scope, region, k)
    ensures ResolveChain(ev, scope, region, k, checked) == Expected(ev, scope, region, w, k)
    decreases |region| - k
  {
    if k < |region| {
      if region[k].Text? {
        ResolveMatchesKeep(ev, scope, region, k + 1, checked, w);
        TextStep(ev, scope, region, k, checked, w);
      } else if checked || !Settles(ev, scope, region[k]) {
        ResolveMatchesKeep(ev, scope, region, k + 1, checked, w);
        SkipStep(ev, scope, region, k, checked, w);
      } else {
        ResolveMatchesKeep(ev, scope, region, k + 1, true, w);
        SettleStep(ev, scope, region, k);
      }
    }
  }

  /** The whole chain resolves to the reference outcome of the member it settles on. */
  lemma ChainKeepsFirstTaken(ev: Injection.Evaluator, scope: Scope, region: seq<Node>)
    ensures var w := Winner(ev, scope, region, 0);
            ResolveChain(ev, scope, region, 0, false)
            == if ThrowsAt(ev, scope, region, w) || !DetachedPass(ev, scope, region, w, 0)
               then Err(Threw) else Ok(Keep(region, w, 0))
  {
    ResolveMatchesKeep(ev, scope, region, 0, false, Winner(ev, scope, region, 0));
  }

  /**
   * A member's own condition is not read once an earlier member is taken:
   * rewriting the attributes of a member after the one the chain settles
   * on changes nothing.
   */
  lemma LaterConditionsUnread(ev: Injection.Evaluator, scope: Scope, region: seq<Node>, j: nat,
                              a: map<string, string>, k: nat)
    requires k <= |region| && j < |region| && region[j].Element?
    requires Winner(ev, scope, region, k).Some? && Winner(ev, scope, region, k).value < j
    ensures ResolveChain(ev, scope, region[j := region[j].(attrs := a)], k, false)
         == ResolveChain(ev, scope, region, k, false)
  {
    UnreadAfterWinner(ev, scope, region, region[j := region[j].(attrs := a)], j, k);
  }

  /** `region'` is `region` with only the attributes of the element at `j` changed. */
  predicate AttrsDifferAt(region: seq<Node>, region': seq<Node>, j: nat) {
    && |region'| == |region| && j < |region|
    && region[j].Element? && region'[j].Element?
    && region'[j].tag == region[j].tag && region'[j].children == region[j].children
    && forall i :: 0 <= i < |region| && i != j ==> region'[i] == region[i]
  }

  lemma {:induction false} UnreadAfterWinner(ev: Injection.Evaluator, scope: Scope, region: seq<Node>,
                                             region': seq<Node>, j: nat, k: nat)
    requires k <= |region| && AttrsDifferAt(region, region', j)
    requires Winner(ev, scope, region, k).Some? && Winner(ev, scope, region, k).value < j
    ensures ResolveChain(ev, scope, region', k, false) == ResolveChain(ev, scope, region, k, false)
    decreases |region| - k
  {
    WinnerStep(ev, scope, region, k);
    assert region'[k] == region[k];
    if !Settles(ev, scope, region[k]) {
      UnreadAfterWinner(ev, scope, region, region', j, k + 1);
    } else if !IsCondition(region[k]) || Test(ev, scope, region[k]) == Some(true) {
      CheckedIgnoresAttrs(ev, scope, region, region', j, k + 1);
    }
    SameHeadSameChain(ev, scope, region, region', k);
  }

  /** A member before the winner passes the search on to the next one. */
  lemma WinnerStep(ev: Injection.Evaluator, scope: Scope, region: seq<Node>, k: nat)
    requires k <= |region| && Winner(ev, scope, region, k).Some?
    ensures k <= Winner(ev, scope, region, k).value < |region|
    ensures !Settles(ev, scope, region[k]) ==> Winner(ev, scope, region, k + 1) == Winner(ev, scope, region, k)
  {
  }

  /**
   * The unchecked loop at `k` reads only the member at `k` and the loop
   * from `k + 1` on: the unchecked one if that member does not settle it,
   * the checked one if it is taken.
   */
  lemma SameHeadSameChain(ev: Injection.Evaluator, scope: Scope, region: seq<Node>, region': seq<Node>, k: nat)
    requires k < |region| == |region'| && region'[k] == region[k]
    requires !Settles(ev, scope, region[k])
             ==> ResolveChain(ev, scope, region', k + 1, false) == ResolveChain(ev, scope, region, k + 1, false)
    requires Settles(ev, scope, region[k]) && (!IsCondition(region[k]) || Test(ev, scope, region[k]) == Some(true))
             ==> ResolveChain(ev, scope, region', k + 1, true) == ResolveChain(ev, scope, region, k + 1, true)
    ensures ResolveChain(ev, scope, region', k, false) == ResolveChain(ev, scope, region, k, false)
  {
  }

  /** Once a member is taken, no member's attributes are read any more. */
  lemma {:induction false} CheckedIgnoresAttrs(ev: Injection.Evaluator, scope: Scope, region: seq<Node>,
                                               region': seq<Node>, j: nat, k: nat)
    requires k <= |region| && AttrsDifferAt(region, region', j)
    ensures ResolveChain(ev, scope, region', k, true) == ResolveChain(ev, scope, region, k, true)
    decreases |region| - k
  {
    if k < |region| {
      assert region'[k].Text? == region[k].Text?;
      assert region[k].Element? ==> region'[k].children == region[k].children;
      CheckedIgnoresAttrs(ev, scope, region, region', j, k + 1);
    }
  }

  /** An evaluator that never throws. */
  ghost predicate Total(ev: Injection.Evaluator) {
    forall code: string, scope: Scope :: ev(code, scope).Some?
  }

  /** The pass fails only through an expression that throws. */
  lemma {:induction false} IfPassTotal(ev: Injection.Evaluator, scope: Scope, ns: seq<Node>)
    requires Total(ev)
    ensures IfPass(ev, scope, ns).Ok?
    decreases Size(ns), 1, 0
  {
    if ns != [] {
      assert ns == [ns[0]] + ns[1..];
      assert Size(ns) == NodeSize(ns[0]) + Size(ns[1..]);
      match ns[0]
      case Text(_) =>
        IfPassTotal(ev, scope, ns[1..]);
      case Element(tag, attrs, kids) =>
        if tag == "REPEAT" {
          IfPassTotal(ev, scope, ns[1..]);
        } else if tag == "IF" {
          var end := ChainEnd(ns, 1, 1);
          assert Size(ns[..end]) + Size(ns[end..]) == Size(ns) && ns[..end][0..] == ns[..end] by {
            SizeConcat(ns[..end], ns[end..]);
            assert ns[..end] + ns[end..] == ns;
          }
          ResolveTotal(ev, scope, ns[..end], 0, false);
          var resolved := ResolveChain(ev, scope, ns[..end], 0, false).value;
          SizeConcat(resolved, ns[end..]);
          IfPassTotal(ev, scope, resolved + ns[end..]);
        } else {
          IfPassTotal(ev, scope, kids);
          IfPassTotal(ev, scope, ns[1..]);
        }
    }
  }

  lemma {:induction false} ResolveTotal(ev: Injection.Evaluator, scope: Scope, region: seq<Node>, k: nat, checked: bool)
    requires Total(ev) && k <= |region|
    ensures ResolveChain(ev, scope, region, k, checked).Ok?
    decreases Size(region[k..]), 0, |region| - k
  {
    if k < |region| {
      assert region[k..] == [region[k]] + region[k + 1..];
      assert Size(region[k..]) == NodeSize(region[k]) + Size(region[k + 1..]);
      match region[k]
      case Text(_) =>
        ResolveTotal(ev, scope, region, k + 1, checked);
      case Element(tag, _, kids) =>
        assert Injection.InstantEval(ev, AttrCode(region[k], "condition"), scope).Some?;
        IfPassTotal(ev, scope, kids);
        ResolveTotal(ev, scope, region, k + 1, true);
        ResolveTotal(ev, scope, region, k + 1, false);
    }
  }

  /**
   * An `IF` whose condition holds, followed by an `ELSE`: the `IF`'s
   * children replace the chain and the `ELSE` is gone, but the `ELSE`'s
   * own subtree is still processed and its failure is the pass's failure.
   */
  lemma TakenIfDropsElse(ev: Injection.Evaluator, scope: Scope, a: map<string, string>, yes: seq<Node>,
                         b: map<string, string>, no: seq<Node>, rest: seq<Node>)
    requires Holds(ev, scope, Element("IF", a, yes))
    requires NoLiveIf(yes) && NoLiveIf(rest)
    ensures IfPass(ev, scope, [Element("IF", a, yes), Element("ELSE", b, no)] + rest)
         == if IfPass(ev, scope, no).Ok? then Ok(yes + rest) else Err(Threw)
  {
    var ns := [Element("IF", a, yes), Element("ELSE", b, no)] + rest;
    IfElseRegion(ev, scope, a, yes, b, no, rest);
    IfPassAtChain(ev, scope, ns);
    NoLiveIfAppend(yes, rest);
  }

  lemma IfElseRegion(ev: Injection.Evaluator, scope: Scope, a: map<string, string>, yes: seq<Node>,
                     b: map<string, string>, no: seq<Node>, rest: seq<Node>)
    requires Holds(ev, scope, Element("IF", a, yes))
    ensures var ns := [Element("IF", a, yes), Element("ELSE", b, no)] + rest;
            ChainEnd(ns, 1, 1) == 2 && ns[2..] == rest
            && ResolveChain(ev, scope, ns[..2], 0, false)
               == if IfPass(ev, scope, no).Ok? then Ok(yes) else Err(Threw)
  {
    var ns := [Element("IF", a, yes), Element("ELSE", b, no)] + rest;
    var region := ns[..2];
    assert region == [Element("IF", a, yes), Element("ELSE", b, no)];
    assert ResolveChain(ev, scope, region, 2, true) == Ok([]);
    assert yes + [] == yes;
  }

  /**
   * The example of a detached condition: an `IF` nested in the removed
   * `ELSE` of a taken `IF` is still evaluated, and its throw fails the
   * pass although its output would have been discarded.
   */
  lemma DetachedIfStillEvaluated(ev: Injection.Evaluator, scope: Scope, a: map<string, string>, yes: seq<Node>,
                                 b: map<string, string>, c: map<string, string>, inner: seq<Node>, rest: seq<Node>)
    requires Holds(ev, scope, Element("IF", a, yes))
    requires NoLiveIf(yes) && NoLiveIf(rest)
    requires Test(ev, scope, Element("IF", c, inner)).None?
    ensures IfPass(ev, scope, [Element("IF", a, yes), Element("ELSE", b, [Element("IF", c, inner)])] + rest) == Err(Threw)
  {
    var no := [Element("IF", c, inner)];
    TakenIfDropsElse(ev, scope, a, yes, b, no, rest);
    IfPassAtChain(ev, scope, no);
    assert ChainEnd(no, 1, 1) == 1;
    assert no[..1] == no;
  }

  /** A forest with no `IF` at all has no live one. */
  lemma {:induction false} LacksIfNoLive(ns: seq<Node>)
    requires Lacks(ns, "IF")
    ensures NoLiveIf(ns)
    decreases ns
  {
    forall i | 0 <= i < |ns|
      ensures NodeNoLiveIf(ns[i])
    {
      assert NodeLacks(ns[i], "IF");
      if ns[i].Element? {
        LacksIfNoLive(ns[i].children);
      }
    }
  }

  /**
   * The pass only unwraps and removes: a tag absent from the input is
   * absent from the output.
   */
  lemma {:induction false} IfPassLacks(ev: Injection.Evaluator, scope: Scope, ns: seq<Node>, tag: string)
    requires Lacks(ns, tag) && IfPass(ev, scope, ns).Ok?
    ensures Lacks(IfPass(ev, scope, ns).value, tag)
    decreases Size(ns), 1, 1
  {
    if ns != [] {
      assert ns == [ns[0]] + ns[1..];
      assert Size(ns) == NodeSize(ns[0]) + Size(ns[1..]);
      LacksConcat([ns[0]], ns[1..], tag);
      match ns[0]
      case Text(_) =>
        IfPassLacks(ev, scope, ns[1..], tag);
        KeptHeadLacks(ev, scope, ns, tag);
      case Element(t, attrs, kids) =>
        if t == "REPEAT" {
          IfPassLacks(ev, scope, ns[1..], tag);
          KeptHeadLacks(ev, scope, ns, tag);
        } else if t == "IF" {
          ChainLacks(ev, scope, ns, tag);
        } else {
          assert NodeLacks(ns[0], tag);
          IfPassLacks(ev, scope, kids, tag);
          IfPassLacks(ev, scope, ns[1..], tag);
          RebuiltHeadLacks(ev, scope, ns, tag);
        }
    }
  }

  /** The step of `IfPassLacks` at an `IF`: the resolved chain lacks the tag, and so does the pass over it. */
  lemma {:induction false} ChainLacks(ev: Injection.Evaluator, scope: Scope, ns: seq<Node>, tag: string)
    requires |ns| >= 1 && IsElement(ns[0], "IF")
    requires Lacks(ns, tag) && IfPass(ev, scope, ns).Ok?
    ensures Lacks(IfPass(ev, scope, ns).value, tag)
    decreases Size(ns), 1, 0
  {
    var end := ChainEnd(ns, 1, 1);
    assert Size(ns[..end]) + Size(ns[end..]) == Size(ns) && ns[..end][0..] == ns[..end] by {
      SizeConcat(ns[..end], ns[end..]);
      assert ns[..end] + ns[end..] == ns;
    }
    LacksConcat(ns[..end], ns[end..], tag);
    IfPassAtChain(ev, scope, ns);
    ResolveLacks(ev, scope, ns[..end], 0, false, tag);
    var resolved := ResolveChain(ev, scope, ns[..end], 0, false).value;
    SizeConcat(resolved, ns[end..]);
    LacksConcat(resolved, ns[end..], tag);
    IfPassLacks(ev, scope, resolved + ns[end..], tag);
  }

  /** The step of `IfPassLacks` at a text node or a `REPEAT`, which the pass keeps as it is. */
  lemma KeptHeadLacks(ev: Injection.Evaluator, scope: Scope, ns: seq<Node>, tag: string)
    requires |ns| >= 1 && (ns[0].Text? || ns[0].tag == "REPEAT")
    requires NodeLacks(ns[0], tag) && IfPass(ev, scope, ns).Ok?
    requires IfPass(ev, scope, ns[1..]).Ok? ==> Lacks(IfPass(ev, scope, ns[1..]).value, tag)
    ensures Lacks(IfPass(ev, scope, ns).value, tag)
  {
    var rest := IfPass(ev, scope, ns[1..]);
    assert rest.Ok? && IfPass(ev, scope, ns) == Ok([ns[0]] + rest.value);
    assert Lacks([ns[0]], tag);
    LacksConcat([ns[0]], rest.value, tag);
  }

  /** The step of `IfPassLacks` at any other element, whose children the pass rewrites. */
  lemma RebuiltHeadLacks(ev: Injection.Evaluator, scope: Scope, ns: seq<Node>, tag: string)
    requires |ns| >= 1 && ns[0].Element? && ns[0].tag != "REPEAT" && ns[0].tag != "IF"
    requires NodeLacks(ns[0], tag) && IfPass(ev, scope, ns).Ok?
    requires IfPass(ev, scope, ns[0].children).Ok? ==> Lacks(IfPass(ev, scope, ns[0].children).value, tag)
    requires IfPass(ev, scope, ns[1..]).Ok? ==> Lacks(IfPass(ev, scope, ns[1..]).value, tag)
    ensures Lacks(IfPass(ev, scope, ns).value, tag)
  {
    var kids := IfPass(ev, scope, ns[0].children);
    var rest := IfPass(ev, scope, ns[1..]);
    var head := Element(ns[0].tag, ns[0].attrs, kids.value);
    assert kids.Ok? && rest.Ok? && IfPass(ev, scope, ns) == Ok([head] + rest.value);
    assert NodeLacks(head, tag);
    assert Lacks([head], tag);
    LacksConcat([head], rest.value, tag);
  }

  lemma {:induction false} ResolveLacks(ev: Injection.Evaluator, scope: Scope, region: seq<Node>, k: nat,
                                        checked: bool, tag: string)
    requires k <= |region| && Lacks(region, tag)
    requires ResolveChain(ev, scope, region, k, checked).Ok?
    ensures Lacks(ResolveChain(ev, scope, region, k, checked).value, tag)
    decreases Size(region[k..]), 0, |region| - k
  {
    if k < |region| {
      assert region[k..] == [region[k]] + region[k + 1..];
      assert Size(region[k..]) == NodeSize(region[k]) + Size(region[k + 1..]);
      assert NodeLacks(region[k], tag);
      match region[k]
      case Text(_) =>
        ResolveLacks(ev, scope, region, k + 1, checked, tag);
        LacksConcat([region[k]], ResolveChain(ev, scope, region, k + 1, checked).value, tag);
      case Element(t, _, kids) =>
        if checked || !Settles(ev, scope, region[k]) {
          ResolveLacks(ev, scope, region, k + 1, checked, tag);
        } else {
          ResolveLacks(ev, scope, region, k + 1, true, tag);
          if ResolveChain(ev, scope, region, k + 1, true).Ok? {
            LacksConcat(kids, ResolveChain(ev, scope, region, k + 1, true).value, tag);
          }
        }
    }
  }

  lemma NoLiveIfAppend(a: seq<Node>, b: seq<Node>)
    requires NoLiveIf(a) && NoLiveIf(b)
    ensures NoLiveIf(a + b)
  {
    assert forall i :: 0 <= i < |a + b| ==> (a + b)[i] == if i < |a| then a[i] else b[i - |a|];
  }
}

=== FILE: engine.dfy ===
/**
 * The template pipeline (`processTemplate`) and `render`: the `if` pass,
 * `repeat` expansion, inline injection, `import`, and the three tag
 * rewriters, run in that order over one document. The HTML parser and
 * serialiser, the evaluator and the file system are parameters.
 *
 * Elements are visited in document order, as the list
 * `querySelectorAll` returns before any of them is replaced. A `REPEAT`
 * or `IMPORT` element's own subtree stays in that list after the element
 * has been replaced, so it is still processed, detached from the
 * document: its effect on the caches and the scope (and its errors)
 * remain, its output is discarded.
 */
module Engine {
  import opened Wrappers
  import opened Faults
  import opened Values
  import opened Nodes
  import opened Text
  import opened Paths
  import opened Resolvers
  import Injection
  import Conditionals

  /**
   * What the engine is given: the site (views root and files), the
   * expression evaluator, and the parser (`HTML.parse(..).childNodes`) and
   * serialiser (`innerHTML`/`toString`) of markup. The `innerHTML` setter
   * parses with the same parser but never yields an empty list
   * (`SetInner`).
   */
  datatype Env = Env(
    site: Site,
    ev: Injection.Evaluator,
    parse: string -> seq<Node>,
    serialize: seq<Node> -> string)

  /** The engine's caches and the scope object the directives read and write. */
  datatype State = State(cache: Cache, scope: Scope)

  type Outcome = Result<(seq<Node>, State), Fault>

  /**
   * Every cache keeps every entry it had. A template cached as empty may
   * be read again (`!templates[key]` treats it as a miss), so only the
   * non-empty ones are sure to keep their text.
   */
  predicate Extends(c: Cache, c': Cache) {
    && (forall k :: k in c.templates ==> k in c'.templates && (c.templates[k] != [] ==> c'.templates[k] == c.templates[k]))
    && (forall k :: k in c.scripts ==> k in c'.scripts && c'.scripts[k] == c.scripts[k])
    && (forall k :: k in c.styles ==> k in c'.styles && c'.styles[k] == c.styles[k])
    && (forall k :: k in c.resources ==> k in c'.resources && c'.resources[k] == c.resources[k])
  }

  /** What every stage guarantees: caches only grow and stay well keyed. */
  predicate Keeps(views: string, st: State, r: Outcome) {
    r.Ok? ==> Extends(st.cache, r.value.1.cache)
              && (WellKeyed(views, st.cache) ==> WellKeyed(views, r.value.1.cache))
  }

  /** Resolving an asset extends the cache. */
  lemma GrowsExtends(c: Cache, c': Cache)
    requires Grows(c, c')
    ensures Extends(c, c')
  {
  }

  /** So does fetching a template, and the records stay well keyed. */
  lemma TemplateExtends(site: Site, c: Cache, path: string)
    requires GetTemplate(site, c, path).Ok?
    ensures Extends(c, GetTemplate(site, c, path).value.1)
    ensures WellKeyed(site.views, c) ==> WellKeyed(site.views, GetTemplate(site, c, path).value.1)
  {
  }

  lemma ExtendsTrans(a: Cache, b: Cache, c: Cache)
    requires Extends(a, b) && Extends(b, c)
    ensures Extends(a, c)
  {
  }

  // ---------------------------------------------------------------- repeat

  /** `scope[indexKey] = i` when the `index` attribute is present and non-empty. */
  function WriteIndex(st: State, key: Option<string>, i: int): State {
    match key
    case Some(k) => if k != [] then st.(scope := st.scope[k := Num(i)]) else st
    case None => st
  }

  /**
   * The loop bounds: `times`, `from` and `to` are all evaluated, in that
   * order, before a truthy `times` overrides the other two with
   * `0..times-1`. A bound that is not a number (NaN) makes `i <= to`
   * false at once: no iteration (None).
   */
  function Bounds(ev: Injection.Evaluator, scope: Scope, element: Node): (r: Result<Option<(int, int)>, Fault>)
    ensures r.Err? <==> Injection.InstantEval(ev, AttrCode(element, "times"), scope).None?
                        || Injection.InstantEval(ev, AttrCode(element, "from"), scope).None?
                        || Injection.InstantEval(ev, AttrCode(element, "to"), scope).None?
    ensures r.Err? ==> r.error == Threw
    ensures r.Ok? && r.value.Some? && Truthy(Injection.InstantEval(ev, AttrCode(element, "times"), scope).value) ==> r.value.value.0 == 0
  {
    var times :- Injection.Run(Injection.InstantEval(ev, AttrCode(element, "times"), scope));
    var from :- Injection.Run(Injection.InstantEval(ev, AttrCode(element, "from"), scope));
    var to :- Injection.Run(Injection.InstantEval(ev, AttrCode(element, "to"), scope));
    if Truthy(times) then
      Ok(match ToNumber(times)
         case None => None
         case Some(t) => Some((0, t - 1)))
    else
      Ok(if ToNumber(from).Some? && ToNumber(to).Some? then Some((ToNumber(from).value, ToNumber(to).value)) else None)
  }

  /** The indices `lo, lo+1, ..., hi` of an inclusive loop; empty when `hi < lo`. */
  function Range(lo: int, hi: int): (r: seq<int>)
    ensures |r| == if lo <= hi then hi - lo + 1 else 0
    ensures forall k :: 0 <= k < |r| ==> r[k] == lo + k
    decreases hi - lo + 1
  {
    if lo > hi then [] else [lo] + Range(lo + 1, hi)
  }

  /**
   * A truthy `times` worth the number `n` runs exactly `n` iterations (none
   * when `n` is negative), indexed `0..n-1`, whatever `from` and `to` say,
   * provided neither of them throws.
   */
  lemma TimesSchedule(ev: Injection.Evaluator, scope: Scope, element: Node, n: int)
    requires Injection.InstantEval(ev, AttrCode(element, "times"), scope).Some?
    requires Truthy(Injection.InstantEval(ev, AttrCode(element, "times"), scope).value)
    requires ToNumber(Injection.InstantEval(ev, AttrCode(element, "times"), scope).value) == Some(n)
    requires Injection.InstantEval(ev, AttrCode(element, "from"), scope).Some?
    requires Injection.InstantEval(ev, AttrCode(element, "to"), scope).Some?
    ensures Bounds(ev, scope, element) == Ok(Some((0, n - 1)))
    ensures |Range(0, n - 1)| == if n > 0 then n else 0
    ensures var idx := Range(0, n - 1); forall k :: 0 <= k < |idx| ==> idx[k] == k
  {
  }

  /** A falsy `times` leaves the loop to numeric `from` and `to`: `to - from + 1` iterations. */
  lemma FromToSchedule(ev: Injection.Evaluator, scope: Scope, element: Node, lo: int, hi: int)
    requires Injection.InstantEval(ev, AttrCode(element, "times"), scope).Some?
    requires !Truthy(Injection.InstantEval(ev, AttrCode(element, "times"), scope).value)
    requires Injection.InstantEval(ev, AttrCode(element, "from"), scope).Some?
    requires ToNumber(Injection.InstantEval(ev, AttrCode(element, "from"), scope).value) == Some(lo)
    requires Injection.InstantEval(ev, AttrCode(element, "to"), scope).Some?
    requires ToNumber(Injection.InstantEval(ev, AttrCode(element, "to"), scope).value) == Some(hi)
    ensures Bounds(ev, scope, element) == Ok(Some((lo, hi)))
    ensures |Range(lo, hi)| == if lo <= hi then hi - lo + 1 else 0
  {
  }

  /**
   * The `innerHTML` setter the injection pass ends with: the markup is
   * parsed, and markup that parses to no node at all becomes a single
   * text node holding it, so the document is never left empty.
   */
  function SetInner(env: Env, markup: string): (r: seq<Node>)
    ensures r != []
    ensures forall tag :: Lacks(env.parse(markup), tag) ==> Lacks(r, tag)
  {
    var nodes := env.parse(markup);
    if nodes == [] then [Text(markup)] else nodes
  }

  /**
   * `processTemplate` over one document: the passes in their fixed order.
   * Every pass sees the scope as the previous ones left it.
   */
  function ProcessTemplate(env: Env, fuel: nat, st: State, path: string, doc: seq<Node>): (r: Outcome)
    ensures Keeps(env.site.views, st, r)
    decreases fuel, 3, 0
  {
    var ifs :- Conditionals.IfPass(env.ev, st.scope, doc);
    var repeated :- RepeatPass(env, fuel, st, path, ifs);
    var injected :- Injection.Inject(env.ev, repeated.1.scope, env.serialize(repeated.0));
    var imported :- ImportPass(env, fuel, repeated.1, path, SetInner(env, injected));
    var tagged :- TagPasses(env, fuel, imported.1.cache, Dir(path), imported.0);
    ExtendsTrans(st.cache, repeated.1.cache, imported.1.cache);
    ExtendsTrans(st.cache, imported.1.cache, tagged.1);
    Ok((tagged.0, imported.1.(cache := tagged.1)))
  }

  /**
   * `processRepeatTag` over a sibling list. A `REPEAT` is replaced by its
   * iterations' output; `IF` subtrees are not entered (their `REPEAT`s
   * have an `IF` ancestor).
   */
  function RepeatPass(env: Env, fuel: nat, st: State, path: string, ns: seq<Node>): (r: Outcome)
    ensures Keeps(env.site.views, st, r)
    decreases fuel, 2, Size(ns)
  {
    if ns == [] then Ok(([], st))
    else
      assert ns == [ns[0]] + ns[1..];
      assert Size(ns) == NodeSize(ns[0]) + Size(ns[1..]);
      match ns[0]
      case Text(_) =>
        var rest :- RepeatPass(env, fuel, st, path, ns[1..]);
        Ok(([ns[0]] + rest.0, rest.1))
      case Element(tag, attrs, kids) =>
        if tag == "IF" then
          var rest :- RepeatPass(env, fuel, st, path, ns[1..]);
          Ok(([ns[0]] + rest.0, rest.1))
        else if tag == "REPEAT" then
          var bounds :- Bounds(env.ev, st.scope, ns[0]);
          var key := Attr(ns[0], "index");
          var expanded :-
            if bounds.None? then Ok(([], st))
            else RepeatLoop(env, fuel, st, path, kids, key, bounds.value.0, bounds.value.1);
          var detached :- RepeatPass(env, fuel, expanded.1, path, kids);
          var rest :- RepeatPass(env, fuel, detached.1, path, ns[1..]);
          ExtendsTrans(st.cache, expanded.1.cache, detached.1.cache);
          ExtendsTrans(st.cache, detached.1.cache, rest.1.cache);
          Ok((expanded.0 + rest.0, rest.1))
        else
          var inner :- RepeatPass(env, fuel, st, path, kids);
          var rest :- RepeatPass(env, fuel, inner.1, path, ns[1..]);
          ExtendsTrans(st.cache, inner.1.cache, rest.1.cache);
          Ok(([Element(tag, attrs, inner.0)] + rest.0, rest.1))
  }

  /**
   * `for (let i = from; i <= to; i++)`: the index is written into the
   * shared scope (never restored), the element's markup is parsed afresh
   * and processed as a template, and the fragments are concatenated.
   */
  function RepeatLoop(env: Env, fuel: nat, st: State, path: string, content: seq<Node>,
                      key: Option<string>, i: int, to: int): (r: Outcome)
    ensures Keeps(env.site.views, st, r)
    ensures i > to ==> r == Ok(([], st))
    decreases fuel, 1, if i <= to then to - i + 1 else 0
  {
    if i > to then Ok(([], st))
    else
      var one :- Iteration(env, fuel, st, path, content, key, i);
      var more :- RepeatLoop(env, fuel, one.1, path, content, key, i + 1, to);
      ExtendsTrans(st.cache, one.1.cache, more.1.cache);
      Ok((one.0 + more.0, more.1))
  }

  /** One iteration: write the index, parse `innerHTML` afresh, process it. */
  function Iteration(env: Env, fuel: nat, st: State, path: string, content: seq<Node>,
                     key: Option<string>, i: int): (r: Outcome)
    ensures Keeps(env.site.views, st, r)
    decreases fuel, 0, 0
  {
    if fuel == 0 then Err(RecursionLimit)
    else ProcessTemplate(env, fuel - 1, WriteIndex(st, key, i), path, env.parse(env.serialize(content)))
  }

  /** Runs one more iteration after `prev`, appending its fragment. */
  function Then(env: Env, fuel: nat, path: string, content: seq<Node>, key: Option<string>,
                i: int, prev: Outcome): Outcome
  {
    match prev
    case Err(e) => Err(e)
    case Ok((ns, st)) =>
      match Iteration(env, fuel, st, path, content, key, i)
      case Err(e) => Err(e)
      case Ok((more, st')) => Ok((ns + more, st'))
  }

  /**
   * The reference loop: iterations over an explicit index list, each one
   * appended after all earlier ones, the last index last.
   */
  function Iterate(env: Env, fuel: nat, st: State, path: string, content: seq<Node>,
                   key: Option<string>, idx: seq<int>): Outcome
    decreases |idx|
  {
    if idx == [] then Ok(([], st))
    else Then(env, fuel, path, content, key, idx[|idx| - 1], Iterate(env, fuel, st, path, content, key, idx[..|idx| - 1]))
  }

  /** Puts `prefix` in front of a successful outcome's fragment. */
  function Append(prefix: seq<Node>, r: Outcome): Outcome {
    match r
    case Err(e) => Err(e)
    case Ok((ns, st)) => Ok((prefix + ns, st))
  }

  lemma ThenAppend(env: Env, fuel: nat, path: string, content: seq<Node>, key: Option<string>,
                   j: int, prefix: seq<Node>, r: Outcome)
    ensures Then(env, fuel, path, content, key, j, Append(prefix, r))
         == Append(prefix, Then(env, fuel, path, content, key, j, r))
  {
    match r
    case Err(e) =>
    case Ok((ns, st)) =>
      match Iteration(env, fuel, st, path, content, key, j)
      case Err(e) =>
      case Ok((more, st')) =>
        assert prefix + ns + more == prefix + (ns + more);
  }

  /** Iterating over `[i] + rest` runs `i` first and the rest after it. */
  lemma {:induction false} IterateCons(env: Env, fuel: nat, st: State, path: string, content: seq<Node>,
                                       key: Option<string>, i: int, rest: seq<int>)
    ensures Iterate(env, fuel, st, path, content, key, [i] + rest)
         == match Iteration(env, fuel, st, path, content, key, i)
            case Err(e) => Err(e)
            case Ok((ns, st1)) => Append(ns, Iterate(env, fuel, st1, path, content, key, rest))
    decreases |rest|
  {
    var idx := [i] + rest;
    if rest == [] {
      assert idx[..|idx| - 1] == [];
      match Iteration(env, fuel, st, path, content, key, i)
      case Err(e) =>
      case Ok((ns, st1)) =>
        assert [] + ns == ns + [];
    } else {
      var last := rest[|rest| - 1];
      var init := rest[..|rest| - 1];
      assert idx[..|idx| - 1] == [i] + init;
      assert idx[|idx| - 1] == last;
      IterateCons(env, fuel, st, path, content, key, i, init);
      match Iteration(env, fuel, st, path, content, key, i)
      case Err(e) =>
      case Ok((ns, st1)) =>
        ThenAppend(env, fuel, path, content, key, last, ns, Iterate(env, fuel, st1, path, content, key, init));
    }
  }

  /**
   * The source's loop runs exactly the iterations of the index list
   * `from..to`, in increasing order, each fragment after the previous.
   */
  lemma {:induction false} LoopFollowsRange(env: Env, fuel: nat, st: State, path: string, content: seq<Node>,
                                            key: Option<string>, i: int, to: int)
    ensures RepeatLoop(env, fuel, st, path, content, key, i, to) == Iterate(env, fuel, st, path, content, key, Range(i, to))
    decreases if i <= to then to - i + 1 else 0
  {
    if i <= to {
      assert Range(i, to) == [i] + Range(i + 1, to);
      IterateCons(env, fuel, st, path, content, key, i, Range(i + 1, to));
      match Iteration(env, fuel, st, path, content, key, i)
      case Err(e) =>
      case Ok((ns, st1)) =>
        LoopFollowsRange(env, fuel, st1, path, content, key, i + 1, to);
    }
  }

  // ---------------------------------------------------------------- import

  /** `src` without an extension gets `.html` appended. */
  function ImportSource(src: string): string {
    if HasExtension(src) then src else src + ".html"
  }

  /** A one-line `src` is normalised once: the result already has an extension. */
  lemma ImportSourceSettles(src: string)
    requires forall i :: 0 <= i < |src| ==> !IsLineTerminator(src[i])
    ensures HasExtension(ImportSource(src))
    ensures ImportSource(ImportSource(src)) == ImportSource(src)
  {
    if !HasExtension(src) {
      var s := src + ".html";
      var k := |src|;
      assert s[k] == '.' && forall j :: k < j < |s| ==> s[j] != '.';
      var d := LastDot(s, |s|);
      assert d.Some? && d.value == k;
      assert forall j :: 0 <= j < k ==> s[j] == src[j];
    }
  }

  /** How an imported file is turned into a document. */
  datatype Dispatch = AsTemplate | AsScript | AsStyle | Unknown

  function DispatchOf(ext: string): Dispatch {
    if ext in {".html", ".htm", ".xml", ".svg"} then AsTemplate
    else if ext in {".js", ".mjs"} then AsScript
    else if ext == ".css" then AsStyle
    else Unknown
  }

  /**
   * The document an import brings in: a template is parsed as it is, a
   * script or style is resolved and wrapped in its tag. Any other
   * extension leaves the document `undefined`, which `processTemplate`
   * dereferences.
   */
  function ImportDocument(env: Env, fuel: nat, c: Cache, dir: string, src: string, target: string): (r: Result<(seq<Node>, Cache), Fault>)
    ensures r.Ok? ==> Extends(c, r.value.1) && (WellKeyed(env.site.views, c) ==> WellKeyed(env.site.views, r.value.1))
    ensures DispatchOf(Ext(target)) == Unknown ==> r.Err?
    ensures r.Ok? && DispatchOf(Ext(target)) == AsTemplate ==> target in r.value.1.templates
    ensures (&& DispatchOf(Ext(target)) == AsTemplate && target !in env.site.files
             && (target !in c.templates || c.templates[target] == [])) ==> r == Err(NotFound(target))
  {
    match DispatchOf(Ext(target))
    case AsTemplate =>
      var t :- GetTemplate(env.site, c, target);
      TemplateExtends(env.site, c, target);
      Ok((env.parse(t.0), t.1))
    case AsScript =>
      var s :- ResolveScript(env.site, fuel, c, dir, src);
      GrowsExtends(c, s.1);
      Ok((env.parse("<script>" + s.0.content + "</script>"), s.1))
    case AsStyle =>
      var s :- ResolveStyle(env.site, fuel, c, dir, src);
      GrowsExtends(c, s.1);
      Ok((env.parse("<style>" + s.0.content + "</style>"), s.1))
    case Unknown => Err(TypeError("processTemplate on an undefined document"))
  }

  /**
   * The import element's attributes other than `src` are copied onto the
   * imported fragment when it is exactly one node; onto a text node that
   * fails (it has no `setAttribute`) unless there is nothing to copy.
   */
  function PassAttributes(ns: seq<Node>, attrs: map<string, string>): (r: Result<seq<Node>, Fault>)
    ensures |ns| != 1 ==> r == Ok(ns)
    ensures r.Ok? ==> |r.value| == |ns|
    ensures r.Ok? && |ns| == 1 && ns[0].Element? ==>
              r.value[0].Element? && r.value[0].tag == ns[0].tag && r.value[0].children == ns[0].children
              && r.value[0].attrs.Keys == ns[0].attrs.Keys + attrs.Keys
              && (forall k :: k in attrs ==> r.value[0].attrs[k] == attrs[k])
              && (forall k :: k in ns[0].attrs && k !in attrs ==> r.value[0].attrs[k] == ns[0].attrs[k])
    ensures r.Err? <==> |ns| == 1 && ns[0].Text? && attrs != map[]
  {
    if |ns| != 1 then Ok(ns)
    else match ns[0]
      case Element(tag, own, kids) => Ok([Element(tag, own + attrs, kids)])
      case Text(_) => if attrs == map[] then Ok(ns) else Err(TypeError("setAttribute on a text node"))
  }

  /**
   * The file an `IMPORT` element brings in: `src` with `.html` appended
   * when it has no extension, a leading slash rebased on the views root,
   * anything else resolved against the template's directory.
   */
  function ImportTarget(views: string, path: string, element: Node): string {
    Locate(views, Dir(path), ImportSource(AttrCode(element, "src")))
  }

  /**
   * A `src` with two leading slashes is rebased twice. The import strips
   * one slash and resolves `/f` against the views root, which gives the
   * file-system path `/f`, and dispatches on its extension; the script or
   * style resolver, handed the views root and `/f`, strips the other
   * slash and reads `f` under the views root.
   */
  lemma DoubleSlashImport(views: string, path: string, f: string)
    requires IsCanonical(views) && views != "/"
    requires NormalSegment(f) && HasExtension("//" + f)
    ensures ImportTarget(views, path, Element("IMPORT", map["src" := "//" + f], [])) == "/" + f
    ensures Locate(views, views, "/" + f) == views + "/" + f
    ensures Locate(views, views, "/" + f) != "/" + f
  {
    DoubleSlashTarget(views, path, f);
    RebasedAgain(views, f);
  }

  /** The import's side: `//f` locates to `/f`. */
  lemma DoubleSlashTarget(views: string, path: string, f: string)
    requires NormalSegment(f) && HasExtension("//" + f)
    ensures ImportTarget(views, path, Element("IMPORT", map["src" := "//" + f], [])) == "/" + f
  {
    var element := Element("IMPORT", map["src" := "//" + f], []);
    assert AttrCode(element, "src") == "//" + f;
    LocateDoubleSlash(views, Dir(path), f);
  }

  /**
   * One `IMPORT` element: the file located, turned into a document,
   * processed as a template of its own (with the imported file as its
   * path), and the attributes passed through. Scripts and styles are
   * handed the directory and `src` the import computed, and the resolver
   * rebases a leading slash once more: for a `src` with two leading
   * slashes they read another file than the one the import dispatched on
   * (`DoubleSlashImport`).
   */
  function Import(env: Env, fuel: nat, st: State, path: string, element: Node): (r: Outcome)
    ensures Keeps(env.site.views, st, r)
    ensures var target := ImportTarget(env.site.views, path, element);
            r.Ok? && DispatchOf(Ext(target)) == AsTemplate ==> target in r.value.1.cache.templates
    ensures var target := ImportTarget(env.site.views, path, element);
            (&& DispatchOf(Ext(target)) == AsTemplate && target !in env.site.files
             && (target !in st.cache.templates || st.cache.templates[target] == [])) ==> r == Err(NotFound(target))
    ensures DispatchOf(Ext(ImportTarget(env.site.views, path, element))) == Unknown ==> r.Err?
    decreases fuel, 1, 0
  {
    var src1 := ImportSource(AttrCode(element, "src"));
    var dir := if IsAbsolute(src1) then env.site.views else Dir(path);
    var src := if IsAbsolute(src1) then src1[1..] else src1;
    var target := ImportTarget(env.site.views, path, element);
    var doc :- ImportDocument(env, fuel, st.cache, dir, src, target);
    if fuel == 0 then Err(RecursionLimit)
    else
      var processed :- ProcessTemplate(env, fuel - 1, st.(cache := doc.1), target, doc.0);
      ExtendsTrans(st.cache, doc.1, processed.1.cache);
      var attrs := if element.Element? then element.attrs - {"src"} else map[];
      var passed :- PassAttributes(processed.0, attrs);
      Ok((passed, processed.1))
  }

  /**
   * `processImportTag` over a sibling list: each `IMPORT` is replaced by
   * its processed fragment, which is not searched again; the element's
   * own subtree is then processed detached.
   */
  function ImportPass(env: Env, fuel: nat, st: State, path: string, ns: seq<Node>): (r: Outcome)
    ensures Keeps(env.site.views, st, r)
    decreases fuel, 2, Size(ns)
  {
    if ns == [] then Ok(([], st))
    else
      assert ns == [ns[0]] + ns[1..];
      assert Size(ns) == NodeSize(ns[0]) + Size(ns[1..]);
      match ns[0]
      case Text(_) =>
        var rest :- ImportPass(env, fuel, st, path, ns[1..]);
        Ok(([ns[0]] + rest.0, rest.1))
      case Element(tag, attrs, kids) =>
        if tag == "IMPORT" then
          var imported :- Import(env, fuel, st, path, ns[0]);
          var detached :- ImportPass(env, fuel, imported.1, path, kids);
          var rest :- ImportPass(env, fuel, detached.1, path, ns[1..]);
          ExtendsTrans(st.cache, imported.1.cache, detached.1.cache);
          ExtendsTrans(st.cache, detached.1.cache, rest.1.cache);
          Ok((imported.0 + rest.0, rest.1))
        else
          var inner :- ImportPass(env, fuel, st, path, kids);
          var rest :- ImportPass(env, fuel, inner.1, path, ns[1..]);
          ExtendsTrans(st.cache, inner.1.cache, rest.1.cache);
          Ok(([Element(tag, attrs, inner.0)] + rest.0, rest.1))
  }

  // ---------------------------------------------------------- tag rewriters

  /** The four selectors the tag rewriters walk, in the order they run. */
  datatype Selector = ScriptSrc | StylesheetHref | ImgSrc | OtherLinkHref

  function AttrName(sel: Selector): string {
    match sel
    case ScriptSrc => "src"
    case ImgSrc => "src"
    case StylesheetHref => "href"
    case OtherLinkHref => "href"
  }

  predicate IsStylesheet(attrs: map<string, string>) {
    "rel" in attrs && attrs["rel"] == "stylesheet"
  }

  /**
   * `script[src]`, `link[href][rel="stylesheet"]`, `img[src]` and
   * `link[href]:not([rel="stylesheet"])`.
   */
  predicate Selects(sel: Selector, n: Node) {
    n.Element? && AttrName(sel) in n.attrs &&
    match sel
    case ScriptSrc => n.tag == "SCRIPT"
    case StylesheetHref => n.tag == "LINK" && IsStylesheet(n.attrs)
    case ImgSrc => n.tag == "IMG"
    case OtherLinkHref => n.tag == "LINK" && !IsStylesheet(n.attrs)
  }

  /** Where a resolved target's record is kept. */
  predicate Recorded(views: string, c: Cache, sel: Selector, abs: string, rel: string) {
    match sel
    case ScriptSrc => abs in c.scripts && c.scripts[abs].rel == rel
    case StylesheetHref => abs in c.styles && c.styles[abs].rel == rel
    case _ => StripQuery(abs) in c.resources && c.resources[StripQuery(abs)].rel == rel
  }

  /**
   * One element: an HTTP target is left alone and nothing is resolved;
   * any other target is resolved from the template's directory and
   * replaced by the `rel` of the record kept for it.
   */
  function RewriteOne(env: Env, fuel: nat, c: Cache, dir: string, sel: Selector, n: Node): (r: Result<(map<string, string>, Cache), Fault>)
    requires n.Element?
    ensures r.Ok? ==> Grows(c, r.value.1) && (WellKeyed(env.site.views, c) ==> WellKeyed(env.site.views, r.value.1))
    ensures !Selects(sel, n) || IsHTTP(n.attrs[AttrName(sel)]) ==> r == Ok((n.attrs, c))
    ensures r.Ok? && Selects(sel, n) && !IsHTTP(n.attrs[AttrName(sel)]) ==>
              var name := AttrName(sel);
              r.value.0.Keys == n.attrs.Keys && name in r.value.0
              && Recorded(env.site.views, r.value.1, sel, Locate(env.site.views, dir, n.attrs[name]), r.value.0[name])
              && (forall k :: k in n.attrs && k != name ==> r.value.0[k] == n.attrs[k])
    ensures r.Ok? && Selects(sel, n) && !IsHTTP(n.attrs[AttrName(sel)]) && WellKeyed(env.site.views, c)
            && (sel.ScriptSrc? || sel.StylesheetHref?) ==>
              r.value.0[AttrName(sel)] == Rel(env.site.views, Locate(env.site.views, dir, n.attrs[AttrName(sel)]))
  {
    if !Selects(sel, n) then Ok((n.attrs, c))
    else
      var name := AttrName(sel);
      var target := n.attrs[name];
      if IsHTTP(target) then Ok((n.attrs, c))
      else match sel
        case ScriptSrc =>
          var res :- ResolveScript(env.site, fuel, c, dir, target);
          Ok((n.attrs[name := res.0.rel], res.1))
        case StylesheetHref =>
          var res :- ResolveStyle(env.site, fuel, c, dir, target);
          Ok((n.attrs[name := res.0.rel], res.1))
        case _ =>
          var res := ResolveResource(env.site.views, c, dir, target);
          Ok((n.attrs[name := res.0.rel], res.1))
  }

  /** Two forests that differ at most in their elements' attributes. */
  predicate SameShape(a: seq<Node>, b: seq<Node>)
    decreases a
  {
    |a| == |b| && forall i :: 0 <= i < |a| ==> NodeSameShape(a[i], b[i])
  }

  predicate NodeSameShape(a: Node, b: Node)
    decreases a
  {
    match a
    case Text(t) => b == Text(t)
    case Element(tag, _, kids) => b.Element? && b.tag == tag && SameShape(kids, b.children)
  }

  lemma SameShapeCons(a: Node, as_: seq<Node>, b: Node, bs: seq<Node>)
    requires NodeSameShape(a, b) && SameShape(as_, bs)
    ensures SameShape([a] + as_, [b] + bs)
  {
    assert forall i :: 1 <= i < 1 + |as_| ==> ([a] + as_)[i] == as_[i - 1] && ([b] + bs)[i] == bs[i - 1];
  }

  /** One rewriter over the whole forest, in document order. */
  function RewriteTags(env: Env, fuel: nat, c: Cache, dir: string, sel: Selector, ns: seq<Node>): (r: Result<(seq<Node>, Cache), Fault>)
    ensures r.Ok? ==> SameShape(ns, r.value.0) && Grows(c, r.value.1)
    ensures r.Ok? && WellKeyed(env.site.views, c) ==> WellKeyed(env.site.views, r.value.1)
    decreases Size(ns)
  {
    if ns == [] then Ok(([], c))
    else
      assert Size(ns) == NodeSize(ns[0]) + Size(ns[1..]);
      match ns[0]
      case Text(_) =>
        var rest :- RewriteTags(env, fuel, c, dir, sel, ns[1..]);
        SameShapeCons(ns[0], ns[1..], ns[0], rest.0);
        assert [ns[0]] + ns[1..] == ns;
        Ok(([ns[0]] + rest.0, rest.1))
      case Element(tag, attrs, kids) =>
        var own :- RewriteOne(env, fuel, c, dir, sel, ns[0]);
        var inner :- RewriteTags(env, fuel, own.1, dir, sel, kids);
        var rest :- RewriteTags(env, fuel, inner.1, dir, sel, ns[1..]);
        SameShapeCons(ns[0], ns[1..], Element(tag, own.0, inner.0), rest.0);
        assert [ns[0]] + ns[1..] == ns;
        Ok(([Element(tag, own.0, inner.0)] + rest.0, rest.1))
  }

  /** No element the selector picks has a non-HTTP target. */
  predicate OnlyHTTP(sel: Selector, ns: seq<Node>)
    decreases ns
  {
    forall i :: 0 <= i < |ns| ==> NodeOnlyHTTP(sel, ns[i])
  }

  predicate NodeOnlyHTTP(sel: Selector, n: Node)
    decreases n
  {
    match n
    case Text(_) => true
    case Element(_, attrs, kids) => (Selects(sel, n) ==> IsHTTP(attrs[AttrName(sel)])) && OnlyHTTP(sel, kids)
  }

  /**
   * The tag rewriters never resolve or cache an HTTP target: a forest
   * whose selected targets are all HTTP comes back as it was, with the
   * cache untouched.
   */
  lemma {:induction false} HttpTargetsUntouched(env: Env, fuel: nat, c: Cache, dir: string, sel: Selector, ns: seq<Node>)
    requires OnlyHTTP(sel, ns)
    ensures RewriteTags(env, fuel, c, dir, sel, ns) == Ok((ns, c))
    decreases Size(ns)
  {
    if ns != [] {
      assert Size(ns) == NodeSize(ns[0]) + Size(ns[1..]);
      assert NodeOnlyHTTP(sel, ns[0]);
      assert OnlyHTTP(sel, ns[1..]) by {
        assert forall i :: 0 <= i < |ns[1..]| ==> ns[1..][i] == ns[i + 1];
      }
      HttpTargetsUntouched(env, fuel, c, dir, sel, ns[1..]);
      match ns[0]
      case Text(_) =>
        assert [ns[0]] + ns[1..] == ns;
      case Element(tag, attrs, kids) =>
        HttpTargetsUntouched(env, fuel, c, dir, sel, kids);
        assert [Element(tag, attrs, kids)] + ns[1..] == ns;
    }
  }

  /** `processScriptTag`, `processStyleTag`, `processResourceTag`, each over the whole document. */
  function TagPasses(env: Env, fuel: nat, c: Cache, dir: string, ns: seq<Node>): (r: Result<(seq<Node>, Cache), Fault>)
    ensures r.Ok? ==> SameShape(ns, r.value.0) && Extends(c, r.value.1)
    ensures r.Ok? && WellKeyed(env.site.views, c) ==> WellKeyed(env.site.views, r.value.1)
  {
    var a :- RewriteTags(env, fuel, c, dir, ScriptSrc, ns);
    var b :- RewriteTags(env, fuel, a.1, dir, StylesheetHref, a.0);
    var d :- RewriteTags(env, fuel, b.1, dir, ImgSrc, b.0);
    var e :- RewriteTags(env, fuel, d.1, dir, OtherLinkHref, d.0);
    SameShapeTrans(ns, a.0, b.0);
    SameShapeTrans(ns, b.0, d.0);
    SameShapeTrans(ns, d.0, e.0);
    Ok(e)
  }

  lemma {:induction false} SameShapeTrans(a: seq<Node>, b: seq<Node>, c: seq<Node>)
    requires SameShape(a, b) && SameShape(b, c)
    ensures SameShape(a, c)
    decreases a
  {
    forall i | 0 <= i < |a|
      ensures NodeSameShape(a[i], c[i])
    {
      NodeSameShapeTrans(a[i], b[i], c[i]);
    }
  }

  lemma {:induction false} NodeSameShapeTrans(a: Node, b: Node, c: Node)
    requires NodeSameShape(a, b) && NodeSameShape(b, c)
    ensures NodeSameShape(a, c)
    decreases a
  {
    if a.Element? {
      SameShapeTrans(a.children, b.children, c.children);
    }
  }

  // ------------------------------------------------- documents left alone

  /** Without a `REPEAT` element the repeat pass changes nothing. */
  lemma {:induction false} RepeatPassIdentity(env: Env, fuel: nat, st: State, path: string, ns: seq<Node>)
    requires Lacks(ns, "REPEAT")
    ensures RepeatPass(env, fuel, st, path, ns) == Ok((ns, st))
    decreases Size(ns)
  {
    if ns != [] {
      assert ns == [ns[0]] + ns[1..];
      assert Size(ns) == NodeSize(ns[0]) + Size(ns[1..]);
      LacksConcat([ns[0]], ns[1..], "REPEAT");
      assert NodeLacks(ns[0], "REPEAT");
      RepeatPassIdentity(env, fuel, st, path, ns[1..]);
      if ns[0].Element? && ns[0].tag != "IF" {
        RepeatPassIdentity(env, fuel, st, path, ns[0].children);
      }
    }
  }

  /** Every `REPEAT` in the forest has an `IF` ancestor. */
  predicate NoLiveRepeat(ns: seq<Node>)
    decreases ns
  {
    forall i :: 0 <= i < |ns| ==> NodeNoLiveRepeat(ns[i])
  }

  predicate NodeNoLiveRepeat(n: Node)
    decreases n
  {
    match n
    case Text(_) => true
    case Element(tag, _, kids) => tag != "REPEAT" && (tag == "IF" || NoLiveRepeat(kids))
  }

  /**
   * A `REPEAT` with an `IF` ancestor is skipped: when every `REPEAT` sits
   * under an `IF`, the repeat pass changes nothing.
   */
  lemma {:induction false} RepeatPassSkipsGuarded(env: Env, fuel: nat, st: State, path: string, ns: seq<Node>)
    requires NoLiveRepeat(ns)
    ensures RepeatPass(env, fuel, st, path, ns) == Ok((ns, st))
    decreases Size(ns)
  {
    if ns != [] {
      assert ns == [ns[0]] + ns[1..];
      assert Size(ns) == NodeSize(ns[0]) + Size(ns[1..]);
      assert NodeNoLiveRepeat(ns[0]);
      assert forall i :: 0 <= i < |ns[1..]| ==> ns[1..][i] == ns[i + 1];
      RepeatPassSkipsGuarded(env, fuel, st, path, ns[1..]);
      if ns[0].Element? && ns[0].tag != "IF" {
        RepeatPassSkipsGuarded(env, fuel, st, path, ns[0].children);
      }
    }
  }

  /** A `REPEAT` outside any `IF` whose bounds throw fails the pass. */
  lemma RepeatBoundsThrow(env: Env, fuel: nat, st: State, path: string, a: map<string, string>,
                          kids: seq<Node>, rest: seq<Node>)
    requires Bounds(env.ev, st.scope, Element("REPEAT", a, kids)).Err?
    ensures RepeatPass(env, fuel, st, path, [Element("REPEAT", a, kids)] + rest) == Err(Threw)
  {
    var ns := [Element("REPEAT", a, kids)] + rest;
    assert ns[0] == Element("REPEAT", a, kids);
  }

  /**
   * A `REPEAT` outside any `IF` is replaced by the fragments its loop
   * produced over the evaluated bounds, followed by the rest of the
   * siblings. Its own subtree is then processed detached, after the loop:
   * the output is dropped, the state it leaves is kept.
   */
  lemma RepeatExpands(env: Env, fuel: nat, st: State, path: string, a: map<string, string>,
                      kids: seq<Node>, rest: seq<Node>, lo: int, hi: int,
                      frag: seq<Node>, looped: State, detached: State)
    requires Bounds(env.ev, st.scope, Element("REPEAT", a, kids)) == Ok(Some((lo, hi)))
    requires RepeatLoop(env, fuel, st, path, kids, Attr(Element("REPEAT", a, kids), "index"), lo, hi) == Ok((frag, looped))
    requires RepeatPass(env, fuel, looped, path, kids).Ok? && RepeatPass(env, fuel, looped, path, kids).value.1 == detached
    ensures var tail := RepeatPass(env, fuel, detached, path, rest);
            RepeatPass(env, fuel, st, path, [Element("REPEAT", a, kids)] + rest)
            == if tail.Ok? then Ok((frag + tail.value.0, tail.value.1)) else Err(tail.error)
  {
    var ns := [Element("REPEAT", a, kids)] + rest;
    assert ns[0] == Element("REPEAT", a, kids);
    assert ns[1..] == rest;
  }

  /** Without an `IMPORT` element the import pass changes nothing. */
  lemma {:induction false} ImportPassIdentity(env: Env, fuel: nat, st: State, path: string, ns: seq<Node>)
    requires Lacks(ns, "IMPORT")
    ensures ImportPass(env, fuel, st, path, ns) == Ok((ns, st))
    decreases Size(ns)
  {
    if ns != [] {
      assert ns == [ns[0]] + ns[1..];
      assert Size(ns) == NodeSize(ns[0]) + Size(ns[1..]);
      LacksConcat([ns[0]], ns[1..], "IMPORT");
      assert NodeLacks(ns[0], "IMPORT");
      ImportPassIdentity(env, fuel, st, path, ns[1..]);
      if ns[0].Element? {
        ImportPassIdentity(env, fuel, st, path, ns[0].children);
      }
    }
  }

  /**
   * A document with no directive, no injection and only HTTP references
   * comes back unchanged, with the caches and the scope as they were,
   * when parsing its markup gives it back.
   */
  lemma ProcessTemplateIdentity(env: Env, fuel: nat, st: State, path: string, doc: seq<Node>)
    requires Lacks(doc, "IF") && Lacks(doc, "REPEAT") && Lacks(doc, "IMPORT")
    requires doc != [] && env.parse(env.serialize(doc)) == doc
    requires Injection.NoOpener(env.serialize(doc))
    requires OnlyHTTP(ScriptSrc, doc) && OnlyHTTP(StylesheetHref, doc) && OnlyHTTP(ImgSrc, doc) && OnlyHTTP(OtherLinkHref, doc)
    ensures ProcessTemplate(env, fuel, st, path, doc) == Ok((doc, st))
  {
    Conditionals.LacksIfNoLive(doc);
    RepeatPassIdentity(env, fuel, st, path, doc);
    Injection.InjectIdentity(env.ev, st.scope, env.serialize(doc));
    ImportPassIdentity(env, fuel, st, path, doc);
    HttpTargetsUntouched(env, fuel, st.cache, Dir(path), ScriptSrc, doc);
    HttpTargetsUntouched(env, fuel, st.cache, Dir(path), StylesheetHref, doc);
    HttpTargetsUntouched(env, fuel, st.cache, Dir(path), ImgSrc, doc);
    HttpTargetsUntouched(env, fuel, st.cache, Dir(path), OtherLinkHref, doc);
  }

  /**
   * A document that processes to nothing still ends with one node: the
   * `innerHTML` setter turns its empty markup into a text node. So an
   * import of it that carries attributes besides `src` fails, calling
   * `setAttribute` on that text node.
   */
  lemma EmptyDocumentBecomesText(env: Env, fuel: nat, st: State, path: string, attrs: map<string, string>)
    requires env.parse(env.serialize([])) == []
    requires Injection.NoOpener(env.serialize([]))
    ensures ProcessTemplate(env, fuel, st, path, []) == Ok(([Text(env.serialize([]))], st))
    ensures attrs != map[] ==> PassAttributes(ProcessTemplate(env, fuel, st, path, []).value.0, attrs).Err?
  {
    var doc := [Text(env.serialize([]))];
    Injection.InjectIdentity(env.ev, st.scope, env.serialize([]));
    ImportPassIdentity(env, fuel, st, path, doc);
    HttpTargetsUntouched(env, fuel, st.cache, Dir(path), ScriptSrc, doc);
    HttpTargetsUntouched(env, fuel, st.cache, Dir(path), StylesheetHref, doc);
    HttpTargetsUntouched(env, fuel, st.cache, Dir(path), ImgSrc, doc);
    HttpTargetsUntouched(env, fuel, st.cache, Dir(path), OtherLinkHref, doc);
  }

  /** A parser whose output never holds a `REPEAT` or an `IMPORT`. */
  ghost predicate PlainParser(env: Env) {
    forall s: string :: Lacks(env.parse(s), "REPEAT") && Lacks(env.parse(s), "IMPORT")
  }

  /**
   * Only the repeat pass writes the scope: a template with no `REPEAT`
   * leaves it as it found it, when parsed markup never holds a `REPEAT`
   * or an `IMPORT`.
   */
  lemma ScopeKept(env: Env, fuel: nat, st: State, path: string, doc: seq<Node>)
    requires PlainParser(env) && Lacks(doc, "REPEAT")
    requires ProcessTemplate(env, fuel, st, path, doc).Ok?
    ensures ProcessTemplate(env, fuel, st, path, doc).value.1.scope == st.scope
  {
    var ifs := Conditionals.IfPass(env.ev, st.scope, doc).value;
    Conditionals.IfPassLacks(env.ev, st.scope, doc, "REPEAT");
    RepeatPassIdentity(env, fuel, st, path, ifs);
    var injected := Injection.Inject(env.ev, st.scope, env.serialize(ifs)).value;
    ImportPassIdentity(env, fuel, st, path, SetInner(env, injected));
  }

  /**
   * The index is never restored: after a loop of at least one iteration
   * whose body writes nothing else, the scope holds the last index, `to`,
   * under the index key, and every other entry as before.
   */
  lemma LoopLeavesLastIndex(env: Env, fuel: nat, st: State, path: string, content: seq<Node>,
                             k: string, i: int, last: int)
    requires PlainParser(env) && k != [] && i <= last
    requires RepeatLoop(env, fuel, st, path, content, Some(k), i, last).Ok?
    ensures RepeatLoop(env, fuel, st, path, content, Some(k), i, last).value.1.scope == st.scope[k := Num(last)]
  {
    forall s: State, j: int | Iteration(env, fuel, s, path, content, Some(k), j).Ok?
      ensures Iteration(env, fuel, s, path, content, Some(k), j).value.1.scope == s.scope[k := Num(j)]
    {
      IterationWritesIndex(env, fuel, s, path, content, k, j);
    }
    LoopLastIndex(env, fuel, st, path, content, k, i, last);
  }

  /** Every iteration leaves exactly its own index in the scope. */
  ghost predicate WritesOnlyIndex(env: Env, fuel: nat, path: string, content: seq<Node>, k: string) {
    forall s: State, j: int :: Iteration(env, fuel, s, path, content, Some(k), j).Ok? ==>
      Iteration(env, fuel, s, path, content, Some(k), j).value.1.scope == s.scope[k := Num(j)]
  }

  lemma {:induction false} LoopLastIndex(env: Env, fuel: nat, st: State, path: string, content: seq<Node>,
                                         k: string, i: int, last: int)
    requires WritesOnlyIndex(env, fuel, path, content, k) && i <= last
    requires RepeatLoop(env, fuel, st, path, content, Some(k), i, last).Ok?
    ensures RepeatLoop(env, fuel, st, path, content, Some(k), i, last).value.1.scope == st.scope[k := Num(last)]
    decreases last - i
  {
    LoopStep(env, fuel, st, path, content, Some(k), i, last);
    var one := Iteration(env, fuel, st, path, content, Some(k), i).value;
    assert one.1.scope == st.scope[k := Num(i)];
    if i < last {
      LoopLastIndex(env, fuel, one.1, path, content, k, i + 1, last);
      Overwrite(st.scope, k, Num(i), Num(last));
    } else {
      assert RepeatLoop(env, fuel, one.1, path, content, Some(k), i + 1, last) == Ok(([], one.1));
    }
  }

  /** A second write to a key hides the first. */
  lemma Overwrite(m: Scope, k: string, a: Value, b: Value)
    ensures m[k := a][k := b] == m[k := b]
  {
  }

  /** A successful loop is its first iteration followed by a successful rest. */
  lemma LoopStep(env: Env, fuel: nat, st: State, path: string, content: seq<Node>, key: Option<string>, i: int, to: int)
    requires i <= to && RepeatLoop(env, fuel, st, path, content, key, i, to).Ok?
    ensures Iteration(env, fuel, st, path, content, key, i).Ok?
    ensures var one := Iteration(env, fuel, st, path, content, key, i).value;
            && RepeatLoop(env, fuel, one.1, path, content, key, i + 1, to).Ok?
            && RepeatLoop(env, fuel, st, path, content, key, i, to).value.1
               == RepeatLoop(env, fuel, one.1, path, content, key, i + 1, to).value.1
  {
  }

  /** One iteration whose body writes nothing else leaves exactly its index in the scope. */
  lemma IterationWritesIndex(env: Env, fuel: nat, st: State, path: string, content: seq<Node>, k: string, i: int)
    requires PlainParser(env) && k != []
    requires Iteration(env, fuel, st, path, content, Some(k), i).Ok?
    ensures Iteration(env, fuel, st, path, content, Some(k), i).value.1.scope == st.scope[k := Num(i)]
  {
    var doc := env.parse(env.serialize(content));
    ScopeKept(env, fuel - 1, WriteIndex(st, Some(k), i), path, doc);
  }

  // ---------------------------------------------------------------- render

  /**
   * `render(file, scope)`: with caching off, the four caches are emptied
   * first; the template is read, parsed, processed and serialised.
   */
  function Render(env: Env, fuel: nat, c: Cache, cacheOn: bool, file: string, scope: Scope): (r: Result<(string, State), Fault>)
    ensures r.Ok? && cacheOn ==> Extends(c, r.value.1.cache)
    ensures r.Ok? ==> file in r.value.1.cache.templates
  {
    var start := if cacheOn then c else Empty;
    var t :- GetTemplate(env.site, start, file);
    var out :- ProcessTemplate(env, fuel, State(t.1, scope), file, env.parse(t.0));
    TemplateExtends(env.site, start, file);
    ExtendsTrans(start, t.1, out.1.cache);
    Ok((env.serialize(out.0), out.1))
  }

  /** With caching off, what earlier renders cached makes no difference. */
  lemma UncachedRenderIgnoresHistory(env: Env, fuel: nat, c: Cache, c': Cache, file: string, scope: Scope)
    ensures Render(env, fuel, c, false, file, scope) == Render(env, fuel, c', false, file, scope)
  {
  }
}

=== FILE: faults.dfy ===
/**
 * The exceptions `render` lets escape, shared by every stage.
 */
module Faults {

  /**
   * A missing file (`readFileSync`), a property read on `undefined`, an
   * expression that threw while it was evaluated (the thrown value is not
   * modelled), and the stand-in for a stack overflow.
   */
  datatype Fault = NotFound(path: string) | TypeError(what: string) | Threw | RecursionLimit
}

=== FILE: injection.dfy ===
/**
 * The inline-expression scanner (`processInjection`): a character-level
 * state machine over the serialised markup that finds `@{...}` and
 * `#{...}` spans, counting nested braces, evaluates each span's code and
 * replaces the first remaining occurrence of the span in a copy of the
 * text.
 */
module Injection {
  import opened Values
  import opened Wrappers
  import opened Faults
  import Text

  /** `@{...}` runs its code as a function body; `#{...}` returns its value. */
  datatype Kind = Injection | Instant

  datatype Span = Span(kind: Kind, code: string)

  /**
   * `eval(code, scope)`: the code is run as a function body against the
   * scope; `None` when it throws.
   */
  type Evaluator = (string, Scope) -> Option<Value>

  function Opener(k: Kind): string {
    match k
    case Injection => "@{"
    case Instant => "#{"
  }

  /** The text the span occupied, delimiters included. */
  function Delimited(sp: Span): string {
    Opener(sp.kind) + sp.code + "}"
  }

  /** `instantEval(code)` is `eval("return " + code)`. */
  function InstantEval(ev: Evaluator, code: string, scope: Scope): Option<Value> {
    ev("return " + code, scope)
  }

  /** An evaluation whose throw escapes as `Threw`. */
  function Run(v: Option<Value>): (r: Result<Value, Fault>)
    ensures r.Ok? <==> v.Some?
    ensures r.Ok? ==> r.value == v.value
    ensures r.Err? ==> r.error == Threw
  {
    match v
    case Some(x) => Ok(x)
    case None => Err(Threw)
  }

  function Evaluate(ev: Evaluator, scope: Scope, sp: Span): Option<Value> {
    match sp.kind
    case Injection => ev(sp.code, scope)
    case Instant => InstantEval(ev, sp.code, scope)
  }

  /** `{` counts +1 and `}` counts -1. */
  function Depth(code: string): int
    decreases |code|
  {
    if code == [] then 0
    else
      var last := code[|code| - 1];
      Depth(code[..|code| - 1]) + (if last == '{' then 1 else if last == '}' then -1 else 0)
  }

  predicate PrefixNonNegative(code: string) {
    forall k :: 0 <= k <= |code| ==> Depth(code[..k]) >= 0
  }

  /** Every prefix opens at least as many braces as it closes, and the whole closes all. */
  predicate Balanced(code: string) {
    Depth(code) == 0 && PrefixNonNegative(code)
  }

  /** Neither `@{` nor `#{` occurs in `s`. */
  predicate NoOpener(s: string) {
    forall j :: 0 <= j < |s| - 1 && s[j] in "@#" ==> s[j + 1] != '{'
  }

  /** The scanner outside a span. */
  function ScanIdle(rest: string): seq<Span>
    decreases |rest|, 1
  {
    if |rest| >= 2 && rest[0] == '@' && rest[1] == '{' then ScanCode(rest[2..], Injection, [], 0)
    else if |rest| >= 2 && rest[0] == '#' && rest[1] == '{' then ScanCode(rest[2..], Instant, [], 0)
    else if rest == [] then []
    else ScanIdle(rest[1..])
  }

  /**
   * The scanner inside a span of kind `kind` whose code so far is `code`
   * and whose count of open inner braces is `nested`. A span still open
   * at the end of the text yields nothing.
   */
  function ScanCode(rest: string, kind: Kind, code: string, nested: nat): seq<Span>
    decreases |rest|, 0
  {
    if rest == [] then []
    else if rest[0] == '}' then
      if nested > 0 then ScanCode(rest[1..], kind, code + "}", nested - 1)
      else [Span(kind, code)] + ScanIdle(rest[1..])
    else if rest[0] == '{' then ScanCode(rest[1..], kind, code + "{", nested + 1)
    else ScanCode(rest[1..], kind, code + [rest[0]], nested)
  }

  /** The spans the scanner closes, in the order it closes them. */
  function Spans(source: string): seq<Span> {
    ScanIdle(source)
  }

  /** The scanner's output from a given state onwards. */
  function Pending(rest: string, collect: Option<Kind>, code: string, nested: nat): seq<Span> {
    match collect
    case None => ScanIdle(rest)
    case Some(k) => ScanCode(rest, k, code, nested)
  }

  /**
   * `target.replace(`@{${code}}`, value || '')`: the first occurrence of the
   * delimited span in the current text gives way to the value's text. The
   * evaluation's throw escapes.
   */
  function ReplaceSpan(ev: Evaluator, scope: Scope, target: string, sp: Span): Result<string, Fault> {
    var v :- Run(Evaluate(ev, scope, sp));
    Ok(Text.ReplaceFirst(target, Delimited(sp), OrEmpty(v)))
  }

  /** Applies the spans' replacements to `source`, first span first. */
  function ApplySpans(ev: Evaluator, scope: Scope, source: string, spans: seq<Span>): Result<string, Fault>
    decreases |spans|
  {
    if spans == [] then Ok(source)
    else
      var sp := spans[|spans| - 1];
      var t :- ApplySpans(ev, scope, source, spans[..|spans| - 1]);
      ReplaceSpan(ev, scope, t, sp)
  }

  /** The text `processInjection` writes back as the document's markup. */
  function Inject(ev: Evaluator, scope: Scope, source: string): Result<string, Fault> {
    ApplySpans(ev, scope, source, Spans(source))
  }

  /**
   * The scanner loop's invariant: `nested` is the brace depth of the code
   * collected so far, `target` holds the replacements of the spans closed
   * so far, and those spans followed by what the rest of the text yields
   * are the spans of the whole text.
   */
  ghost predicate ScanInvariant(ev: Evaluator, scope: Scope, source: string, i: int, collect: Option<Kind>,
                                code: string, nested: nat, target: string, done: seq<Span>)
  {
    && 0 <= i <= |source|
    && (collect.None? ==> code == [] && nested == 0)
    && nested == Depth(code) && PrefixNonNegative(code)
    && ApplySpans(ev, scope, source, done) == Ok(target)
    && done + Pending(source[i..], collect, code, nested) == Spans(source)
  }

  /**
   * `processInjection`, written as the source's loop: the text it writes
   * back is the text with every span the scanner closes replaced in order;
   * the first expression that throws ends the pass with its error.
   */
  method ProcessInjection(ev: Evaluator, scope: Scope, source: string) returns (r: Result<string, Fault>)
    ensures r == Inject(ev, scope, source)
  {
    var target := source;
    var code: string := [];
    var collect: Option<Kind> := None;
    var nested: nat := 0;
    var i := 0;
    ghost var done: seq<Span> := [];
    while i < |source|
      invariant ScanInvariant(ev, scope, source, i, collect, code, nested, target, done)
      decreases |source| - i
    {
      if collect.None? {
        if i + 2 <= |source| && source[i..i + 2] == "@{" {
          OpenStep(ev, scope, source, i, Injection, target, done);
          collect := Some(Injection);
          i := i + 2;
        } else if i + 2 <= |source| && source[i..i + 2] == "#{" {
          OpenStep(ev, scope, source, i, Instant, target, done);
          collect := Some(Instant);
          i := i + 2;
        } else {
          IdleStep(ev, scope, source, i, target, done);
          i := i + 1;
        }
      } else if source[i] == '}' && nested == 0 {
        var sp := Span(collect.value, code);
        CloseStep(ev, scope, source, i, sp.kind, code, target, done);
        var replaced := ReplaceSpan(ev, scope, target, sp);
        if replaced.Err? {
          return replaced;
        }
        target := replaced.value;
        done := done + [sp];
        code := [];
        collect := None;
        i := i + 1;
      } else {
        var c := source[i];
        CodeStep(ev, scope, source, i, collect.value, code, nested, target, done);
        if c == '}' {
          nested := nested - 1;
        } else if c == '{' {
          nested := nested + 1;
        }
        code := code + [c];
        i := i + 1;
      }
    }
    EndStep(ev, scope, source, collect, code, nested, target, done);
    r := Ok(target);
  }

  lemma OpenStep(ev: Evaluator, scope: Scope, source: string, i: nat, k: Kind, target: string, done: seq<Span>)
    requires ScanInvariant(ev, scope, source, i, None, [], 0, target, done)
    requires i + 2 <= |source| && source[i..i + 2] == Opener(k)
    ensures ScanInvariant(ev, scope, source, i + 2, Some(k), [], 0, target, done)
  {
    var rest := source[i..];
    assert rest[0] == Opener(k)[0] && rest[1] == '{' by {
      assert rest[..2] == source[i..i + 2];
    }
    assert rest[2..] == source[i + 2..];
  }

  lemma IdleStep(ev: Evaluator, scope: Scope, source: string, i: nat, target: string, done: seq<Span>)
    requires ScanInvariant(ev, scope, source, i, None, [], 0, target, done)
    requires i < |source|
    requires !(i + 2 <= |source| && source[i..i + 2] == "@{")
    requires !(i + 2 <= |source| && source[i..i + 2] == "#{")
    ensures ScanInvariant(ev, scope, source, i + 1, None, [], 0, target, done)
  {
    var rest := source[i..];
    assert rest[1..] == source[i + 1..];
    if |rest| >= 2 {
      assert source[i..i + 2] == [rest[0], rest[1]];
    }
  }

  lemma CloseStep(ev: Evaluator, scope: Scope, source: string, i: nat, k: Kind, code: string,
                  target: string, done: seq<Span>)
    requires ScanInvariant(ev, scope, source, i, Some(k), code, 0, target, done)
    requires i < |source| && source[i] == '}'
    ensures var t := ReplaceSpan(ev, scope, target, Span(k, code));
            && (t.Ok? ==> ScanInvariant(ev, scope, source, i + 1, None, [], 0, t.value, done + [Span(k, code)]))
            && (t.Err? ==> Inject(ev, scope, source) == t)
  {
    var sp := Span(k, code);
    assert source[i..][1..] == source[i + 1..];
    assert ScanCode(source[i..], k, code, 0) == [sp] + ScanIdle(source[i + 1..]);
    assert (done + [sp])[..|done|] == done;
    assert done + [sp] + ScanIdle(source[i + 1..]) == Spans(source);
    var t := ReplaceSpan(ev, scope, target, sp);
    if t.Err? {
      FailureStays(ev, scope, source, done + [sp], ScanIdle(source[i + 1..]));
    }
  }

  /** Once a replacement has thrown, no later span changes the outcome. */
  lemma {:induction false} FailureStays(ev: Evaluator, scope: Scope, source: string, xs: seq<Span>, ys: seq<Span>)
    requires ApplySpans(ev, scope, source, xs).Err?
    ensures ApplySpans(ev, scope, source, xs + ys) == ApplySpans(ev, scope, source, xs)
    decreases |ys|
  {
    if ys != [] {
      var init := ys[..|ys| - 1];
      FailureStays(ev, scope, source, xs, init);
      assert (xs + ys)[..|xs + ys| - 1] == xs + init;
    } else {
      assert xs + ys == xs;
    }
  }

  lemma CodeStep(ev: Evaluator, scope: Scope, source: string, i: nat, k: Kind, code: string, nested: nat,
                 target: string, done: seq<Span>)
    requires ScanInvariant(ev, scope, source, i, Some(k), code, nested, target, done)
    requires i < |source| && !(source[i] == '}' && nested == 0)
    ensures var c := source[i];
            var n' := if c == '}' then nested - 1 else if c == '{' then nested + 1 else nested;
            && n' >= 0
            && ScanInvariant(ev, scope, source, i + 1, Some(k), code + [c], n', target, done)
  {
    var c := source[i];
    assert source[i..][1..] == source[i + 1..];
    DepthAppend(code, c);
  }

  lemma EndStep(ev: Evaluator, scope: Scope, source: string, collect: Option<Kind>, code: string, nested: nat,
                target: string, done: seq<Span>)
    requires ScanInvariant(ev, scope, source, |source|, collect, code, nested, target, done)
    ensures Inject(ev, scope, source) == Ok(target)
  {
    assert source[|source|..] == [];
    assert Pending([], collect, code, nested) == [];
    assert done + [] == done;
  }

  /** Appending one character moves the depth by that character's weight. */
  lemma DepthAppend(code: string, c: char)
    requires PrefixNonNegative(code)
    ensures Depth(code + [c]) == Depth(code) + (if c == '{' then 1 else if c == '}' then -1 else 0)
    ensures Depth(code + [c]) >= 0 ==> PrefixNonNegative(code + [c])
  {
    var code' := code + [c];
    assert code'[..|code'| - 1] == code;
    if Depth(code') >= 0 {
      forall k | 0 <= k <= |code'|
        ensures Depth(code'[..k]) >= 0
      {
        if k <= |code| {
          assert code'[..k] == code[..k];
        } else {
          assert code'[..k] == code';
        }
      }
    }
  }

  /** Text without `@{` or `#{` holds no span. */
  lemma {:induction false} NoOpenerNoSpans(s: string)
    requires NoOpener(s)
    ensures Spans(s) == []
    decreases |s|
  {
    if s != [] {
      assert NoOpener(s[1..]) by {
        forall j | 0 <= j < |s[1..]| - 1 && s[1..][j] in "@#"
          ensures s[1..][j + 1] != '{'
        {
          assert s[j + 1] in "@#";
        }
      }
      NoOpenerNoSpans(s[1..]);
    }
  }

  /** Injection is the identity on text without `@{` or `#{`. */
  lemma InjectIdentity(ev: Evaluator, scope: Scope, s: string)
    requires NoOpener(s)
    ensures Inject(ev, scope, s) == Ok(s)
  {
    NoOpenerNoSpans(s);
  }
  lemma {:induction false} DepthConcat(x: string, y: string)
    ensures Depth(x + y) == Depth(x) + Depth(y)
    decreases |y|
  {
    if y == [] {
      assert x + y == x;
    } else {
      var y' := y[..|y| - 1];
      assert (x + y)[..|x + y| - 1] == x + y';
      DepthConcat(x, y');
    }
  }

  /** Every `}` of `code` closes an inner brace when the depth starts at `n`. */
  predicate ClosesInner(code: string, n: nat) {
    forall j :: 0 <= j < |code| && code[j] == '}' ==> n + Depth(code[..j]) > 0
  }

  /** Code whose every `}` closes an inner brace is collected whole. */
  lemma {:induction false} CollectRun(code: string, rest: string, k: Kind, pre: string, n: nat)
    requires ClosesInner(code, n)
    ensures n + Depth(code) >= 0
    ensures ScanCode(code + rest, k, pre, n) == ScanCode(rest, k, pre + code, n + Depth(code))
    decreases |code|
  {
    if code == [] {
      assert code + rest == rest;
      assert pre + code == pre;
    } else {
      var c := code[0];
      var tail := code[1..];
      assert (code + rest)[0] == c;
      assert (code + rest)[1..] == tail + rest;
      assert code == [c] + tail;
      assert code[..0] == [];
      DepthConcat([c], tail);
      assert Depth([c]) == (if c == '{' then 1 else if c == '}' then -1 else 0) by {
        assert [c][..0] == [];
      }
      var n' := n + Depth([c]);
      assert n' >= 0;
      assert ClosesInner(tail, n') by {
        forall j | 0 <= j < |tail| && tail[j] == '}'
          ensures n' + Depth(tail[..j]) > 0
        {
          assert code[j + 1] == '}';
          assert code[..j + 1] == [c] + tail[..j];
          DepthConcat([c], tail[..j]);
        }
      }
      CollectRun(tail, rest, k, pre + [c], n');
      assert pre + [c] + tail == pre + code;
    }
  }

  /** Text free of openers is skipped over by the idle scanner. */
  lemma {:induction false} SkipIdle(a: string, r: string)
    requires NoOpener(a)
    requires r == [] || r[0] != '{'
    ensures ScanIdle(a + r) == ScanIdle(r)
    decreases |a|
  {
    if a == [] {
      assert a + r == r;
    } else {
      var s := a + r;
      assert s[0] == a[0];
      assert |s| >= 2 ==> s[1] != '{' || s[0] !in "@#" by {
        if |a| >= 2 {
          assert s[1] == a[1];
        }
      }
      assert s[1..] == a[1..] + r;
      assert NoOpener(a[1..]) by {
        forall j | 0 <= j < |a[1..]| - 1 && a[1..][j] in "@#"
          ensures a[1..][j + 1] != '{'
        {
          assert a[j + 1] in "@#";
        }
      }
      SkipIdle(a[1..], r);
    }
  }

  lemma BalancedClosesInner(code: string)
    requires Balanced(code)
    ensures ClosesInner(code, 0)
  {
    forall j | 0 <= j < |code| && code[j] == '}'
      ensures Depth(code[..j]) > 0
    {
      assert code[..j + 1][..j] == code[..j];
      assert Depth(code[..j + 1]) >= 0;
    }
  }

  lemma {:induction false} OpenCollectClose(k: Kind, code: string, b: string)
    requires Balanced(code)
    ensures ScanIdle(Opener(k) + code + "}" + b) == [Span(k, code)] + ScanIdle(b)
  {
    var tail := "}" + b;
    calc {
      ScanIdle(Opener(k) + code + "}" + b);
      { assert Opener(k) + code + "}" + b == Opener(k) + (code + tail); }
      ScanIdle(Opener(k) + (code + tail));
      { OpenerStarts(k, code + tail); }
      ScanCode(code + tail, k, [], 0);
      { CollectBalanced(k, code, tail); }
      ScanCode(tail, k, code, 0);
      { BraceCloses(k, code, b); }
      [Span(k, code)] + ScanIdle(b);
    }
  }

  /** Balanced code is collected whole, and the scanner still sits at depth 0 after it. */
  lemma {:induction false} CollectBalanced(k: Kind, code: string, tail: string)
    requires Balanced(code)
    ensures ScanCode(code + tail, k, [], 0) == ScanCode(tail, k, code, 0)
  {
    BalancedClosesInner(code);
    CollectRun(code, tail, k, [], 0);
    assert [] + code == code;
  }

  lemma {:induction false} OpenerStarts(k: Kind, rest: string)
    ensures ScanIdle(Opener(k) + rest) == ScanCode(rest, k, [], 0)
  {
    var r := Opener(k) + rest;
    assert r[0] == Opener(k)[0] && r[1] == '{';
    assert r[2..] == rest;
  }

  lemma {:induction false} BraceCloses(k: Kind, code: string, b: string)
    ensures ScanCode("}" + b, k, code, 0) == [Span(k, code)] + ScanIdle(b)
  {
    var t := "}" + b;
    assert t[0] == '}' && t[1..] == b;
  }

  /**
   * A balanced expression after opener-free text is extracted whole, inner
   * braces included, and scanning resumes after its closing brace.
   */
  lemma BalancedSpanExtracted(a: string, k: Kind, code: string, b: string)
    requires NoOpener(a) && Balanced(code)
    ensures Spans(a + Opener(k) + code + "}" + b) == [Span(k, code)] + Spans(b)
  {
    var r := Opener(k) + code + "}" + b;
    assert a + Opener(k) + code + "}" + b == a + r;
    assert r[0] != '{';
    SkipIdle(a, r);
    OpenCollectClose(k, code, b);
  }

  /** Every expression handed to the evaluator has balanced braces. */
  lemma SpansBalanced(s: string)
    ensures forall j :: 0 <= j < |Spans(s)| ==> Balanced(Spans(s)[j].code)
  {
    IdleBalanced(s);
  }

  lemma {:induction false} IdleBalanced(rest: string)
    ensures forall j :: 0 <= j < |ScanIdle(rest)| ==> Balanced(ScanIdle(rest)[j].code)
    decreases |rest|, 1
  {
    if |rest| >= 2 && rest[0] == '@' && rest[1] == '{' {
      CodeBalanced(rest[2..], Injection, [], 0);
    } else if |rest| >= 2 && rest[0] == '#' && rest[1] == '{' {
      CodeBalanced(rest[2..], Instant, [], 0);
    } else if rest != [] {
      IdleBalanced(rest[1..]);
    }
  }

  lemma {:induction false} CodeBalanced(rest: string, k: Kind, code: string, nested: nat)
    requires nested == Depth(code) && PrefixNonNegative(code)
    ensures forall j :: 0 <= j < |ScanCode(rest, k, code, nested)| ==> Balanced(ScanCode(rest, k, code, nested)[j].code)
    decreases |rest|, 0
  {
    if rest != [] {
      var c := rest[0];
      if c == '}' && nested == 0 {
        IdleBalanced(rest[1..]);
      } else {
        DepthAppend(code, c);
        var n' := if c == '}' then nested - 1 else if c == '{' then nested + 1 else nested;
        CodeBalanced(rest[1..], k, code + [c], n');
      }
    }
  }

  /**
   * An expression still open at the end of the text is never evaluated:
   * opener-free text, an opener, then code none of whose `}` closes it,
   * comes back unchanged.
   */
  lemma UnterminatedUnchanged(ev: Evaluator, scope: Scope, a: string, k: Kind, u: string)
    requires NoOpener(a) && ClosesInner(u, 0)
    ensures Spans(a + Opener(k) + u) == []
    ensures Inject(ev, scope, a + Opener(k) + u) == Ok(a + Opener(k) + u)
  {
    var r := Opener(k) + u;
    assert a + Opener(k) + u == a + r;
    SkipIdle(a, r);
    assert r[0] == Opener(k)[0] && r[1] == '{';
    assert r[2..] == u;
    CollectRun(u, [], k, [], 0);
    assert u + [] == u;
  }

  /** In opener-free text followed by a span, the span's first occurrence is right after the text. */
  lemma SpanFirstOccurs(a: string, sp: Span, b: string)
    requires NoOpener(a)
    ensures Text.FirstOccurrence(a + Delimited(sp) + b, Delimited(sp), |a|)
  {
    var d := Delimited(sp);
    var s := a + d + b;
    assert s[|a|..|a| + |d|] == d;
    forall j | 0 <= j < |a|
      ensures !Text.OccursAt(s, d, j)
    {
      if j + 1 < |a| {
        assert s[j] == a[j] && s[j + 1] == a[j + 1];
      } else {
        assert s[j + 1] == d[0];
      }
      assert s[j] != d[0] || s[j + 1] != d[1];
    }
  }

  /**
   * One balanced span in otherwise opener-free text is replaced by its
   * value's text; when its expression throws, so does the pass.
   */
  lemma SingleSpanReplaced(ev: Evaluator, scope: Scope, a: string, k: Kind, code: string, b: string)
    requires NoOpener(a) && Balanced(code) && NoOpener(b)
    ensures Evaluate(ev, scope, Span(k, code)).None? ==>
              Inject(ev, scope, a + Opener(k) + code + "}" + b) == Err(Threw)
    ensures Evaluate(ev, scope, Span(k, code)).Some? && '$' !in OrEmpty(Evaluate(ev, scope, Span(k, code)).value) ==>
              Inject(ev, scope, a + Opener(k) + code + "}" + b)
              == Ok(a + OrEmpty(Evaluate(ev, scope, Span(k, code)).value) + b)
  {
    var sp := Span(k, code);
    if Evaluate(ev, scope, sp).None? {
      SingleSpanOnly(ev, scope, a, k, code, b);
      ReplaceSpanValue(ev, scope, a + Delimited(sp) + b, sp);
    } else if '$' !in OrEmpty(Evaluate(ev, scope, sp).value) {
      SingleSpanValue(ev, scope, a, k, code, b);
    }
  }

  /** A falsy value (`undefined`, `null`, `false`, `0`, `''`) makes the span vanish. */
  lemma SingleSpanFalsy(ev: Evaluator, scope: Scope, a: string, k: Kind, code: string, b: string)
    requires NoOpener(a) && Balanced(code) && NoOpener(b)
    requires Evaluate(ev, scope, Span(k, code)).Some? && !Truthy(Evaluate(ev, scope, Span(k, code)).value)
    ensures Inject(ev, scope, a + Opener(k) + code + "}" + b) == Ok(a + b)
  {
    var v := Evaluate(ev, scope, Span(k, code)).value;
    assert OrEmpty(v) == [];
    SingleSpanValue(ev, scope, a, k, code, b);
    assert a + [] + b == a + b;
  }

  lemma SingleSpanValue(ev: Evaluator, scope: Scope, a: string, k: Kind, code: string, b: string)
    requires NoOpener(a) && Balanced(code) && NoOpener(b)
    requires Evaluate(ev, scope, Span(k, code)).Some? && '$' !in OrEmpty(Evaluate(ev, scope, Span(k, code)).value)
    ensures Inject(ev, scope, a + Opener(k) + code + "}" + b)
         == Ok(a + OrEmpty(Evaluate(ev, scope, Span(k, code)).value) + b)
  {
    var sp := Span(k, code);
    var v := OrEmpty(Evaluate(ev, scope, sp).value);
    SingleSpanOnly(ev, scope, a, k, code, b);
    ReplaceSpanValue(ev, scope, a + Delimited(sp) + b, sp);
    SpanFirstOccurs(a, sp, b);
    ReplaceFirstAround(a, Delimited(sp), b, v);
  }

  /** The first occurrence of `d`, right after `a`, replaced by a value free of `$` patterns. */
  lemma ReplaceFirstAround(a: string, d: string, b: string, v: string)
    requires Text.FirstOccurrence(a + d + b, d, |a|) && '$' !in v
    ensures Text.ReplaceFirst(a + d + b, d, v) == a + v + b
  {
    var s := a + d + b;
    Text.ReplaceFirstSpec(s, d, v, |a|);
    assert s[..|a|] == a;
    assert s[|a| + |d|..] == b;
  }

  /** The pass over opener-free text around one balanced span is that span's replacement. */
  lemma SingleSpanOnly(ev: Evaluator, scope: Scope, a: string, k: Kind, code: string, b: string)
    requires NoOpener(a) && Balanced(code) && NoOpener(b)
    ensures Inject(ev, scope, a + Opener(k) + code + "}" + b)
         == ReplaceSpan(ev, scope, a + Delimited(Span(k, code)) + b, Span(k, code))
  {
    var sp := Span(k, code);
    var s := a + Delimited(sp) + b;
    assert a + Opener(k) + code + "}" + b == s;
    SingleSpanScanned(a, k, code, b);
    ApplyOne(ev, scope, s, sp);
  }

  /** One replacement: the span's throw, or its value's text spliced in. */
  lemma ReplaceSpanValue(ev: Evaluator, scope: Scope, t: string, sp: Span)
    ensures Evaluate(ev, scope, sp).None? ==> ReplaceSpan(ev, scope, t, sp) == Err(Threw)
    ensures Evaluate(ev, scope, sp).Some? ==>
              ReplaceSpan(ev, scope, t, sp) == Ok(Text.ReplaceFirst(t, Delimited(sp), OrEmpty(Evaluate(ev, scope, sp).value)))
  {
  }

  /**
   * A value whose text is `$&` puts the span's own text back: the
   * replacement pattern, not the value, decides what is spliced in.
   */
  lemma DollarValueKeepsSpan(ev: Evaluator, scope: Scope, a: string, k: Kind, code: string, b: string)
    requires NoOpener(a) && Balanced(code) && NoOpener(b)
    requires Evaluate(ev, scope, Span(k, code)) == Some(Str("$&"))
    ensures Inject(ev, scope, a + Opener(k) + code + "}" + b) == Ok(a + Opener(k) + code + "}" + b)
  {
    var sp := Span(k, code);
    var d := Delimited(sp);
    var s := a + d + b;
    assert s == a + Opener(k) + code + "}" + b;
    calc {
      Inject(ev, scope, s);
      { SingleSpanOnly(ev, scope, a, k, code, b); }
      ReplaceSpan(ev, scope, s, sp);
      { ReplaceSpanValue(ev, scope, s, sp); assert OrEmpty(Str("$&")) == "$&"; }
      Ok(Text.ReplaceFirst(s, d, "$&"));
      { SpanFirstOccurs(a, sp, b); Text.ReplaceFirstPatterns(s, d, |a|); }
      Ok(s);
    }
  }

  /** Every span's expression evaluates without throwing. */
  predicate AllEvaluate(ev: Evaluator, scope: Scope, spans: seq<Span>) {
    forall j :: 0 <= j < |spans| ==> Evaluate(ev, scope, spans[j]).Some?
  }

  /**
   * The pass succeeds exactly when none of the spans the scanner closes
   * throws: whether a replacement throws depends on its span alone, not on
   * the text the earlier replacements left.
   */
  lemma InjectThrowsIff(ev: Evaluator, scope: Scope, s: string)
    ensures Inject(ev, scope, s).Ok? <==> AllEvaluate(ev, scope, Spans(s))
    ensures Inject(ev, scope, s).Err? ==> Inject(ev, scope, s) == Err(Threw)
  {
    ApplyThrowsIff(ev, scope, s, Spans(s));
  }

  lemma {:induction false} ApplyThrowsIff(ev: Evaluator, scope: Scope, s: string, spans: seq<Span>)
    ensures ApplySpans(ev, scope, s, spans).Ok? <==> AllEvaluate(ev, scope, spans)
    ensures ApplySpans(ev, scope, s, spans).Err? ==> ApplySpans(ev, scope, s, spans) == Err(Threw)
    decreases |spans|
  {
    if spans != [] {
      var init := spans[..|spans| - 1];
      var last := spans[|spans| - 1];
      ApplyThrowsIff(ev, scope, s, init);
      AllEvaluateSnoc(ev, scope, spans);
      var t := ApplySpans(ev, scope, s, init);
      if t.Ok? {
        ReplaceSpanValue(ev, scope, t.value, last);
      }
    }
  }

  lemma AllEvaluateSnoc(ev: Evaluator, scope: Scope, spans: seq<Span>)
    requires spans != []
    ensures AllEvaluate(ev, scope, spans) <==>
              AllEvaluate(ev, scope, spans[..|spans| - 1]) && Evaluate(ev, scope, spans[|spans| - 1]).Some?
  {
    var init := spans[..|spans| - 1];
    assert forall j :: 0 <= j < |init| ==> init[j] == spans[j];
  }

  /** The spans of opener-free text around one balanced span are that span alone. */
  lemma {:induction false} SingleSpanScanned(a: string, k: Kind, code: string, b: string)
    requires NoOpener(a) && Balanced(code) && NoOpener(b)
    ensures Spans(a + Delimited(Span(k, code)) + b) == [Span(k, code)]
  {
    assert a + Delimited(Span(k, code)) + b == a + Opener(k) + code + "}" + b;
    BalancedSpanExtracted(a, k, code, b);
    NoOpenerNoSpans(b);
  }

  lemma ApplyOne(ev: Evaluator, scope: Scope, s: string, sp: Span)
    ensures ApplySpans(ev, scope, s, [sp]) == ReplaceSpan(ev, scope, s, sp)
  {
    assert [sp][..0] == [];
  }

  /**
   * Replacement is textual: when an earlier span's value contains a later
   * span's text, the later replacement lands on that copy (the first
   * remaining occurrence) and the original span is left in place.
   */
  lemma ValueShadowsLaterSpan(ev: Evaluator, scope: Scope)
    requires ev("a", scope) == Some(Str("@{b}")) && ev("b", scope) == Some(Str("X"))
    ensures Inject(ev, scope, "@{a}@{b}") == Ok("X@{b}")
  {
    var s := "@{a}@{b}";
    var sa := Span(Injection, "a");
    var sb := Span(Injection, "b");
    TwoSpans();
    FirstReplaced(ev, scope);
    assert ApplySpans(ev, scope, s, [sa]) == Ok("@{b}@{b}") by {
      ApplyOne(ev, scope, s, sa);
    }
    assert [sa, sb][..1] == [sa];
    assert Inject(ev, scope, s) == ReplaceSpan(ev, scope, "@{b}@{b}", sb);
    SecondReplaced(ev, scope);
  }

  lemma TwoSpans()
    ensures Spans("@{a}@{b}") == [Span(Injection, "a"), Span(Injection, "b")]
  {
    assert Balanced("a") && Balanced("b") by {
      assert "a"[..0] == [] && "a"[..1] == "a";
      assert "b"[..0] == [] && "b"[..1] == "b";
    }
    assert NoOpener("");
    BalancedSpanExtracted([], Injection, "b", []);
    assert [] + "@{" + "b" + "}" + [] == "@{b}";
    NoOpenerNoSpans([]);
    BalancedSpanExtracted([], Injection, "a", "@{b}");
    assert [] + "@{" + "a" + "}" + "@{b}" == "@{a}@{b}";
  }

  lemma FirstReplaced(ev: Evaluator, scope: Scope)
    requires ev("a", scope) == Some(Str("@{b}"))
    ensures ReplaceSpan(ev, scope, "@{a}@{b}", Span(Injection, "a")) == Ok("@{b}@{b}")
  {
    var s := "@{a}@{b}";
    var sp := Span(Injection, "a");
    calc {
      ReplaceSpan(ev, scope, s, sp);
      { ReplaceSpanValue(ev, scope, s, sp); assert Delimited(sp) == "@{a}"; assert OrEmpty(Str("@{b}")) == "@{b}"; }
      Ok(Text.ReplaceFirst(s, "@{a}", "@{b}"));
      { ReplaceHead(s, "@{a}", "@{b}"); }
      Ok("@{b}" + s[4..]);
      { assert s[4..] == "@{b}"; assert "@{b}" + "@{b}" == "@{b}@{b}" by { assert |"@{b}" + "@{b}"| == 8; } }
      Ok("@{b}@{b}");
    }
  }

  lemma SecondReplaced(ev: Evaluator, scope: Scope)
    requires ev("b", scope) == Some(Str("X"))
    ensures ReplaceSpan(ev, scope, "@{b}@{b}", Span(Injection, "b")) == Ok("X@{b}")
  {
    var t := "@{b}@{b}";
    var sp := Span(Injection, "b");
    calc {
      ReplaceSpan(ev, scope, t, sp);
      { ReplaceSpanValue(ev, scope, t, sp); assert Delimited(sp) == "@{b}"; assert OrEmpty(Str("X")) == "X"; }
      Ok(Text.ReplaceFirst(t, "@{b}", "X"));
      { ReplaceHead(t, "@{b}", "X"); }
      Ok("X" + t[4..]);
      { assert t[4..] == "@{b}"; assert "X" + "@{b}" == "X@{b}" by { assert |"X" + "@{b}"| == 5; } }
      Ok("X@{b}");
    }
  }

  /** A pattern at the very start of the text is the one replaced. */
  lemma ReplaceHead(s: string, pat: string, rep: string)
    requires |pat| <= |s| && s[..|pat|] == pat && '$' !in rep
    ensures Text.ReplaceFirst(s, pat, rep) == rep + s[|pat|..]
  {
    assert Text.FirstOccurrence(s, pat, 0);
    Text.ReplaceFirstSpec(s, pat, rep, 0);
    assert s[..0] == [];
  }
}

=== FILE: nodes.dfy ===
/**
 * The document tree the directives rewrite, standing in for the HTML
 * parser's nodes. Tag names are kept upper-case, as `tagName` reports
 * them; attribute names are lower-case.
 */
module Nodes {
  import opened Wrappers

  datatype Node =
    | Element(tag: string, attrs: map<string, string>, children: seq<Node>)
    | Text(text: string)

  /** The number of nodes in a forest; the measure the tree passes decrease. */
  function Size(ns: seq<Node>): nat
    decreases ns
  {
    if ns == [] then 0 else NodeSize(ns[0]) + Size(ns[1..])
  }

  function NodeSize(n: Node): nat
    decreases n
  {
    match n
    case Text(_) => 1
    case Element(_, _, kids) => 1 + Size(kids)
  }

  lemma {:induction false} SizeConcat(a: seq<Node>, b: seq<Node>)
    ensures Size(a + b) == Size(a) + Size(b)
    decreases |a|
  {
    if a == [] {
      assert a + b == b;
    } else {
      assert (a + b)[0] == a[0];
      assert (a + b)[1..] == a[1..] + b;
      SizeConcat(a[1..], b);
    }
  }

  lemma SizeOfChildren(tag: string, attrs: map<string, string>, kids: seq<Node>, rest: seq<Node>)
    ensures Size([Element(tag, attrs, kids)] + rest) == 1 + Size(kids) + Size(rest)
  {
    assert ([Element(tag, attrs, kids)] + rest)[1..] == rest;
  }

  /** `element.getAttribute(name)`; a missing attribute is None. */
  function Attr(n: Node, name: string): Option<string> {
    match n
    case Text(_) => None
    case Element(_, attrs, _) => if name in attrs then Some(attrs[name]) else None
  }

  predicate IsElement(n: Node, tag: string) {
    n.Element? && n.tag == tag
  }

  /** `${code}` of a possibly missing attribute: JavaScript prints `undefined`. */
  function AttrCode(n: Node, name: string): string {
    match Attr(n, name)
    case Some(v) => v
    case None => "undefined"
  }

  /** No element anywhere in the forest has the tag. */
  predicate Lacks(ns: seq<Node>, tag: string)
    decreases ns
  {
    forall i :: 0 <= i < |ns| ==> NodeLacks(ns[i], tag)
  }

  predicate NodeLacks(n: Node, tag: string)
    decreases n
  {
    match n
    case Text(_) => true
    case Element(t, _, kids) => t != tag && Lacks(kids, tag)
  }

  lemma LacksConcat(a: seq<Node>, b: seq<Node>, tag: string)
    ensures Lacks(a + b, tag) <==> Lacks(a, tag) && Lacks(b, tag)
  {
    assert forall i :: 0 <= i < |a| ==> (a + b)[i] == a[i];
    assert forall i :: 0 <= i < |b| ==> (a + b)[|a| + i] == b[i];
    if Lacks(a, tag) && Lacks(b, tag) {
      forall i | 0 <= i < |a + b|
        ensures NodeLacks((a + b)[i], tag)
      {
        if i >= |a| {
          assert (a + b)[i] == b[i - |a|];
        }
      }
    }
  }
}

=== FILE: paths.dfy ===
/**
 * Path classification and resolution: `#isHTTP`, `#isAbsolute`, the parts
 * of `node:path` the engine uses (`resolve`, `parse(..).dir`,
 * `parse(..).ext`), the views-root rebasing the resolvers share, and the
 * `rel` computation `abs.substring(views.length)`.
 */
module Paths {
  import opened Wrappers
  import Text

  /** `#isHTTP`: a prefix test, so `http:foo` counts and `HTTP://x` does not. */
  predicate IsHTTP(url: string) {
    Text.StartsWith(url, "https:") || Text.StartsWith(url, "http:")
  }

  /** `#isAbsolute`: a leading slash. */
  predicate IsAbsolute(url: string) {
    Text.StartsWith(url, "/")
  }

  /** A segment that survives normalisation. */
  predicate NormalSegment(seg: string) {
    seg != [] && seg != "." && seg != ".." && '/' !in seg
  }

  predicate NormalSegments(segs: seq<string>) {
    forall i :: 0 <= i < |segs| ==> NormalSegment(segs[i])
  }

  /** An absolute path with no empty, `.` or `..` segment and no trailing slash. */
  predicate IsCanonical(p: string) {
    p == "/" || (IsAbsolute(p) && NormalSegments(Text.Split(p[1..], '/')))
  }

  /** Walks segments left to right: `''` and `.` are dropped, `..` pops. */
  function Walk(stack: seq<string>, segs: seq<string>): (r: seq<string>)
    requires forall i :: 0 <= i < |segs| ==> '/' !in segs[i]
    ensures NormalSegments(stack) ==> NormalSegments(r)
    decreases |segs|
  {
    if segs == [] then stack
    else
      var seg := segs[0];
      var next :=
        if seg == [] || seg == "." then stack
        else if seg == ".." then (if stack == [] then [] else stack[..|stack| - 1])
        else stack + [seg];
      Walk(next, segs[1..])
  }

  /** POSIX normalisation of a path treated as absolute. */
  function Normalize(p: string): (r: string)
    ensures IsCanonical(r)
  {
    var stack := Walk([], Text.Split(p, '/'));
    var r := "/" + Text.Join(stack, '/');
    assert IsCanonical(r) by {
      if stack != [] {
        Text.SplitJoin(stack, '/');
        assert r[1..] == Text.Join(stack, '/');
      }
    }
    r
  }

  /**
   * `nodepath.resolve(base, target)` for an absolute `base`: an absolute
   * target ignores `base`.
   */
  function Resolve(base: string, target: string): (r: string)
    ensures IsCanonical(r)
  {
    if IsAbsolute(target) then Normalize(target) else Normalize(base + "/" + target)
  }

  /**
   * The path step every resolver starts with: a target with a leading
   * slash is rebased on `views` (one slash stripped), anything else is
   * resolved against `from`.
   */
  function Locate(views: string, from: string, target: string): (r: string)
    ensures IsCanonical(r)
  {
    if IsAbsolute(target) then Resolve(views, target[1..]) else Resolve(from, target)
  }

  /** An absolute target is normalised on its own: the base plays no part. */
  lemma ResolveIgnoresBase(base: string, base': string, target: string)
    requires IsAbsolute(target)
    ensures Resolve(base, target) == Resolve(base', target) == Normalize(target)
  {
  }

  /**
   * A relative target made only of ordinary segments is appended to a
   * canonical base, with one separating slash.
   */
  lemma {:induction false} ResolveAppends(base: string, target: string)
    requires IsCanonical(base)
    requires NormalSegments(Text.Split(target, '/'))
    ensures Resolve(base, target) == (if base == "/" then "/" + target else base + "/" + target)
  {
    NotAbsolute(target);
    if base == "/" {
      AppendToRoot(target);
    } else {
      AppendToBase(base, target);
    }
  }

  lemma NotAbsolute(target: string)
    requires NormalSegments(Text.Split(target, '/'))
    ensures !IsAbsolute(target)
  {
    var tsegs := Text.Split(target, '/');
    assert NormalSegment(tsegs[0]);
    if IsAbsolute(target) {
      SplitConcat([], target[1..], '/');
    }
  }

  lemma {:induction false} AppendToRoot(target: string)
    requires NormalSegments(Text.Split(target, '/'))
    ensures Normalize("/" + "/" + target) == "/" + target
  {
    var tsegs := Text.Split(target, '/');
    var p := "/" + "/" + target;
    SplitConcat([], "/" + target, '/');
    SplitConcat([], target, '/');
    assert Text.Split([], '/') == [[]];
    assert [] + ['/'] + target == "/" + target;
    assert [] + ['/'] + ("/" + target) == p;
    assert Text.Split(p, '/') == [[]] + ([[]] + tsegs);
    WalkNormal([], tsegs);
    assert Walk([], [[]] + ([[]] + tsegs)) == Walk([], [[]] + tsegs) by {
      assert ([[]] + ([[]] + tsegs))[1..] == [[]] + tsegs;
    }
    assert Walk([], [[]] + tsegs) == Walk([], tsegs) by {
      assert ([[]] + tsegs)[1..] == tsegs;
    }
    assert Walk([], Text.Split(p, '/')) == tsegs;
    assert Text.Join(tsegs, '/') == target;
  }

  lemma {:induction false} AppendToBase(base: string, target: string)
    requires IsCanonical(base) && base != "/"
    requires NormalSegments(Text.Split(target, '/'))
    ensures Normalize(base + "/" + target) == base + "/" + target
  {
    var segs := Text.Split(base[1..], '/') + Text.Split(target, '/');
    var p := base + "/" + target;
    var x := base[1..] + "/" + target;
    SplitAppended(base, target);
    NormalConcat(Text.Split(base[1..], '/'), Text.Split(target, '/'));
    WalkNormal([], segs);
    assert Walk([], [[]] + segs) == Walk([], segs) by {
      assert ([[]] + segs)[1..] == segs;
    }
    assert Text.Join(segs, '/') == x by {
      SplitConcat(base[1..], target, '/');
    }
    assert Walk([], Text.Split(p, '/')) == segs;
    assert Normalize(p) == "/" + Text.Join(segs, '/');
    assert "/" + x == p by { assert base == [base[0]] + base[1..]; }
  }

  lemma NormalConcat(a: seq<string>, b: seq<string>)
    requires NormalSegments(a) && NormalSegments(b)
    ensures NormalSegments(a + b)
  {
    forall i | 0 <= i < |a + b|
      ensures NormalSegment((a + b)[i])
    {
      if i < |a| { assert (a + b)[i] == a[i]; }
      else { assert (a + b)[i] == b[i - |a|]; }
    }
  }

  /** The parts of `base/target`: the empty one before the root, then the base's, then the target's. */
  lemma SplitAppended(base: string, target: string)
    requires IsAbsolute(base)
    ensures Text.Split(base + "/" + target, '/')
         == [[]] + (Text.Split(base[1..], '/') + Text.Split(target, '/'))
  {
    var x := base[1..] + "/" + target;
    RootedShape(base, target);
    SplitCons('/', x, '/');
    SplitConcat(base[1..], target, '/');
  }

  lemma RootedShape(base: string, target: string)
    requires IsAbsolute(base)
    ensures base + "/" + target == ['/'] + (base[1..] + "/" + target)
  {
    assert base == [base[0]] + base[1..];
  }



  /**
   * A rooted target is looked up under `views`, whatever directory the
   * reference came from; one made of ordinary segments lands directly
   * below `views`.
   */
  lemma LocateRooted(views: string, from: string, from': string, rest: string)
    requires IsCanonical(views) && views != "/"
    requires NormalSegments(Text.Split(rest, '/'))
    ensures Locate(views, from, "/" + rest) == Locate(views, from', "/" + rest)
    ensures Locate(views, from, "/" + rest) == views + "/" + rest
  {
    assert ("/" + rest)[1..] == rest;
    ResolveAppends(views, rest);
  }

  /** A relative target of ordinary segments lands below the referring directory. */
  lemma LocateRelative(views: string, from: string, target: string)
    requires IsCanonical(from) && from != "/"
    requires NormalSegments(Text.Split(target, '/'))
    ensures Locate(views, from, target) == from + "/" + target
  {
    ResolveAppends(from, target);
  }

  /** `abs.substring(views.length)`. */
  function Rel(views: string, abs: string): string {
    if |views| <= |abs| then abs[|views|..] else []
  }

  lemma {:induction false} WalkNormal(stack: seq<string>, segs: seq<string>)
    requires NormalSegments(segs)
    ensures Walk(stack, segs) == stack + segs
    decreases |segs|
  {
    if segs != [] {
      WalkNormal(stack + [segs[0]], segs[1..]);
      assert stack + [segs[0]] + segs[1..] == stack + segs;
    }
  }

  /** Canonical paths are fixed points of normalisation. */
  lemma NormalizeCanonical(p: string)
    requires IsCanonical(p)
    ensures Normalize(p) == p
  {
    if p == "/" {
      assert Text.Split(p, '/') == [[], []] by {
        assert Text.Split(p[1..], '/') == [[]];
      }
    } else {
      var segs := Text.Split(p[1..], '/');
      assert Text.Split(p, '/') == [[]] + segs by {
        assert p[0] == '/';
      }
      WalkNormal([], segs);
      assert Walk([], [[]] + segs) == Walk([], segs) by {
        assert ([[]] + segs)[1..] == segs;
      }
      assert Walk([], Text.Split(p, '/')) == segs;
      assert "/" + Text.Join(segs, '/') == p by {
        assert Text.Join(segs, '/') == p[1..];
      }
    }
  }

  /** Splitting at a separator splits the two sides independently. */
  lemma {:induction false} SplitConcat(x: string, y: string, sep: char)
    ensures Text.Split(x + [sep] + y, sep) == Text.Split(x, sep) + Text.Split(y, sep)
    decreases |x|
  {
    if x == [] {
      assert x + [sep] + y == [sep] + y;
      SplitCons(sep, y, sep);
      assert Text.Split(x, sep) == [[]];
    } else {
      var rest := x[1..] + [sep] + y;
      SplitConcat(x[1..], y, sep);
      assert x + [sep] + y == [x[0]] + rest;
      assert x == [x[0]] + x[1..];
      SplitCons(x[0], rest, sep);
      SplitCons(x[0], x[1..], sep);
      PushConcat(x[0], sep, Text.Split(x[1..], sep), Text.Split(y, sep));
    }
  }

  /** How `Split` extends the parts of the rest by one leading character. */
  function Push(c: char, sep: char, parts: seq<string>): seq<string>
    requires |parts| >= 1
  {
    if c == sep then [[]] + parts else [[c] + parts[0]] + parts[1..]
  }

  lemma PushConcat(c: char, sep: char, a: seq<string>, b: seq<string>)
    requires |a| >= 1
    ensures Push(c, sep, a + b) == Push(c, sep, a) + b
  {
    if c != sep {
      assert (a + b)[0] == a[0];
      assert (a + b)[1..] == a[1..] + b;
    }
  }

  /** One step of `Split`: a separator opens a new part, any other character joins the first. */
  lemma SplitCons(c: char, rest: string, sep: char)
    ensures Text.Split([c] + rest, sep) == Push(c, sep, Text.Split(rest, sep))
  {
    var s := [c] + rest;
    assert s[0] == c && s[1..] == rest;
  }



  /**
   * The `rel` of a canonical path under a canonical `views`, fed back
   * through the resolvers' path step from any directory, is the path
   * itself: the relative paths the engine writes into markup lead back to
   * the same file and so to the same cache key.
   */
  lemma {:induction false} RelLocatesBack(views: string, from: string, abs: string)
    requires IsCanonical(views) && views != "/"
    requires IsCanonical(abs) && Text.StartsWith(abs, views + "/")
    ensures views + Rel(views, abs) == abs
    ensures IsAbsolute(Rel(views, abs))
    ensures Locate(views, from, Rel(views, abs)) == abs
  {
    var rest := abs[|views| + 1..];
    assert abs == views + "/" + rest;
    var rel := Rel(views, abs);
    assert rel == "/" + rest;
    assert abs != "/";
    assert abs[1..] == views[1..] + "/" + rest;
    SplitConcat(views[1..], rest, '/');
    var a := Text.Split(views[1..], '/');
    var b := Text.Split(rest, '/');
    assert Text.Split(abs[1..], '/') == a + b;
    assert NormalSegment(b[0]) by {
      assert (a + b)[|a|] == b[0];
    }
    assert !IsAbsolute(rest);
    assert rel[1..] == rest;
    NormalizeCanonical(abs);
  }

  /** A canonical path other than the root does not end in a slash. */
  lemma NoTrailingSlash(p: string)
    requires IsCanonical(p) && p != "/"
    ensures p[|p| - 1] != '/'
  {
    var segs := Text.Split(p[1..], '/');
    assert segs[0] != [];
    assert Text.Split([], '/') == [[]];
    if p[|p| - 1] == '/' {
      assert |p| >= 2;
      var q := p[1..|p| - 1];
      assert q + ['/'] == p[1..];
      SplitTrailing(q);
      assert false;
    }
  }

  /** A trailing separator leaves an empty last part. */
  lemma SplitTrailing(q: string)
    ensures var parts := Text.Split(q + ['/'], '/'); parts[|parts| - 1] == []
  {
    SplitConcat(q, [], '/');
    assert q + ['/'] + [] == q + ['/'];
    assert Text.Split([], '/') == [[]];
  }

  /** A path cut at an inner slash, both ways round. */
  lemma CutAt(p: string, k: nat)
    requires 0 < k < |p| && p[k] == '/'
    ensures p == p[..k] + "/" + p[k + 1..]
    ensures p[1..k] + ['/'] + p[k + 1..] == p[1..]
  {
  }

  lemma CanonicalPrefix(p: string, k: nat)
    requires IsCanonical(p) && 0 < k < |p| && p[k] == '/'
    ensures IsCanonical(p[..k]) && k > 1
  {
    var segs := Text.Split(p[1..], '/');
    var a := Text.Split(p[1..k], '/');
    CutAt(p, k);
    SplitConcat(p[1..k], p[k + 1..], '/');
    assert NormalSegments(a) by {
      forall i | 0 <= i < |a| ensures NormalSegment(a[i]) {
        assert segs[i] == a[i];
      }
    }
    assert p[1..k] != [] by {
      assert Text.Split([], '/') == [[]];
    }
    assert p[..k][1..] == p[1..k];
  }

  /** The last slash of `p[..end]` is the one at `k` when none follows it. */
  lemma {:induction false} LastSlashAt(p: string, k: nat, end: nat)
    requires k < end <= |p| && p[k] == '/'
    requires forall j :: k < j < end ==> p[j] != '/'
    ensures LastSlash(p, end) == Some(k)
    decreases end
  {
    if end - 1 != k {
      LastSlashAt(p, k, end - 1);
    }
  }

  /**
   * For a canonical path other than the root, `dir` and `base` split it at
   * its last slash, and the directory is canonical again.
   */
  lemma DirBasename(p: string)
    requires IsCanonical(p) && p != "/"
    ensures IsCanonical(Dir(p))
    ensures Dir(p) == "/" ==> p == "/" + Basename(p)
    ensures Dir(p) != "/" ==> p == Dir(p) + "/" + Basename(p)
  {
    NoTrailingSlash(p);
    assert p[..|p|][0] == '/';
    assert LastSlash(p, |p|).Some?;
    var k := LastSlash(p, |p|).value;
    assert Basename(p) == p[k + 1..];
    if k > 0 {
      CanonicalPrefix(p, k);
      CutAt(p, k);
    } else {
      assert p == "/" + p[1..];
    }
  }

  /** `nodepath.parse(p).dir` for an absolute path without trailing slash. */
  function Dir(p: string): (r: string)
    ensures |r| <= |p|
  {
    match LastSlash(p, |p|)
    case None => []
    case Some(k) => if k == 0 then "/" else p[..k]
  }

  /** The index of the last '/' in `p[..end]`. */
  function LastSlash(p: string, end: nat): (r: Option<nat>)
    requires end <= |p|
    ensures r.Some? ==> r.value < end && p[r.value] == '/' && '/' !in p[r.value + 1..end]
    ensures r.None? ==> '/' !in p[..end]
    decreases end
  {
    if end == 0 then None
    else if p[end - 1] == '/' then Some(end - 1)
    else
      var r := LastSlash(p, end - 1);
      assert r.None? ==> p[..end] == p[..end - 1] + [p[end - 1]];
      assert r.Some? ==> p[r.value + 1..end] == p[r.value + 1..end - 1] + [p[end - 1]];
      r
  }

  /** The last segment of `p`, trailing slashes ignored. */
  function Basename(p: string): (r: string)
    ensures '/' !in r
    decreases |p|
  {
    if p != [] && p[|p| - 1] == '/' then Basename(p[..|p| - 1])
    else
      match LastSlash(p, |p|)
      case None => assert p[..|p|] == p; p
      case Some(k) => p[k + 1..]
  }

  /** The index of the last '.' in `s[..end]`. */
  function LastDot(s: string, end: nat): (r: Option<nat>)
    requires end <= |s|
    ensures r.Some? ==> r.value < end && s[r.value] == '.'
                        && forall j :: r.value < j < end ==> s[j] != '.'
    ensures r.None? ==> forall j :: 0 <= j < end ==> s[j] != '.'
    decreases end
  {
    if end == 0 then None
    else if s[end - 1] == '.' then Some(end - 1)
    else LastDot(s, end - 1)
  }

  /**
   * `nodepath.parse(p).ext`: from the last dot of the base name, except for
   * a base name whose only dot leads it (`.env`) and for `..`.
   */
  function Ext(p: string): (r: string)
    ensures var b := Basename(p);
              r != [] ==> |r| < |b| && b[|b| - |r|..] == r && r[0] == '.' && '.' !in r[1..]
    ensures var b := Basename(p);
              r == [] <==> (b == ".." || forall j :: 0 < j < |b| ==> b[j] != '.')
  {
    var base := Basename(p);
    match LastDot(base, |base|)
    case None => []
    case Some(k) =>
      if k == 0 || base == ".." then [] else base[k..]
  }

  /**
   * The test `/^.*\.[^\.]+$/` the import directive uses: a dot followed by
   * at least one character up to the end, with no dot after it and no line
   * terminator before it.
   */
  predicate HasExtension(src: string) {
    match LastDot(src, |src|)
    case None => false
    case Some(k) =>
      k < |src| - 1 && forall j :: 0 <= j < k ==> !Text.IsLineTerminator(src[j])
  }

  /** A single ordinary segment after a slash is canonical, and resolves to itself from any base. */
  lemma RootedSegment(f: string)
    requires NormalSegment(f)
    ensures IsCanonical("/" + f)
    ensures forall base :: Resolve(base, "/" + f) == "/" + f
  {
    assert ("/" + f)[1..] == f;
    assert Text.Join([f], '/') == f;
    Text.SplitJoin([f], '/');
    NormalizeCanonical("/" + f);
  }

  /** `//f` has one slash stripped and is resolved as `/f` from the views root: it lands at `/f`. */
  lemma LocateDoubleSlash(views: string, from: string, f: string)
    requires NormalSegment(f)
    ensures Locate(views, from, "//" + f) == "/" + f
  {
    assert ("//" + f)[1..] == "/" + f;
    RootedSegment(f);
  }

  /**
   * The resolvers rebase a leading slash on the views root, so `/f` is
   * looked up as `views/f`: another file than `/f`.
   */
  lemma RebasedAgain(views: string, f: string)
    requires IsCanonical(views) && views != "/" && NormalSegment(f)
    ensures Locate(views, views, "/" + f) == views + "/" + f
    ensures Locate(views, views, "/" + f) != "/" + f
  {
    assert Text.Join([f], '/') == f;
    Text.SplitJoin([f], '/');
    LocateRooted(views, views, views, f);
    assert |views + "/" + f| > |"/" + f|;
  }

  /** The last segment of a path is what follows its last slash. */
  lemma BasenameLast(x: string, f: string)
    requires f != [] && '/' !in f
    ensures Basename(x + "/" + f) == f
  {
    var p := x + "/" + f;
    assert p[|p| - 1] == f[|f| - 1];
    forall j | |x| < j < |p| ensures p[j] != '/' {
      assert p[j] == f[j - |x| - 1];
    }
    LastSlashAt(p, |x|, |p|);
    assert p[|x| + 1..] == f;
  }

  /**
   * The extension test looks at the whole path, so a dot in a directory
   * name (`a.b/c`) counts as an extension while the file itself has none.
   */
  lemma DottedDirectoryCountsAsExtension(d: string, e: string, f: string)
    requires '.' !in e && '.' !in f && '/' !in f && f != []
    requires forall j :: 0 <= j < |d| ==> !Text.IsLineTerminator(d[j])
    ensures HasExtension(d + "." + e + "/" + f)
    ensures Ext(d + "." + e + "/" + f) == []
  {
    var src := d + "." + e + "/" + f;
    var r := LastDot(src, |src|);
    assert src[|d|] == '.';
    assert r.Some?;
    forall j | |d| < j < |src| ensures src[j] != '.' {
      if j <= |d| + |e| { assert src[j] == e[j - |d| - 1]; }
      else if j > |d| + |e| + 1 { assert src[j] == f[j - |d| - |e| - 2]; }
    }
    assert r.value == |d|;
    assert forall j :: 0 <= j < |d| ==> src[j] == d[j];
    assert src == (d + "." + e) + "/" + f;
    BasenameLast(d + "." + e, f);
    assert LastDot(f, |f|).None?;
  }
}

=== FILE: patterns.dfy ===
/**
 * The three regular expressions the content rewriters match statements
 * against, written out as the backtracking matcher decides them:
 *
 *   scripts:  /^import (?:.*) from (.*)$/
 *   styles:   /url\(['"]?([^'")]+)['"]?\)/      (leftmost match)
 *             /^@import ['"]([^'" ]+)['"].*$/
 *
 * Each function returns capture group 1, or None when the test fails.
 */
module Patterns {
  import opened Wrappers
  import opened Text

  /** `.` matches every character of `s`. */
  predicate OneLine(s: string) {
    forall i :: 0 <= i < |s| ==> !IsLineTerminator(s[i])
  }

  predicate IsQuote(c: char) {
    c == '\'' || c == '"'
  }

  /** The largest `j` in `lo..hi` at which `pat` occurs in `s`. */
  function LastOccurrence(s: string, pat: string, lo: nat, hi: nat): (r: Option<nat>)
    ensures r.Some? ==> lo <= r.value <= hi && OccursAt(s, pat, r.value)
    ensures r.Some? ==> forall j :: r.value < j <= hi ==> !OccursAt(s, pat, j)
    ensures r.None? ==> forall j :: lo <= j <= hi ==> !OccursAt(s, pat, j)
    decreases hi
  {
    if hi < lo then None
    else if OccursAt(s, pat, hi) then Some(hi)
    else if hi == 0 then None
    else LastOccurrence(s, pat, lo, hi - 1)
  }

  const ImportHead := "import "
  const FromWord := " from "

  /**
   * `^import (?:.*) from (.*)$`: the greedy first group makes the capture
   * start after the LAST ` from ` that follows `import `; the capture runs
   * to the end of the statement, quotes included.
   */
  function ScriptImport(trim: string): (r: Option<string>)
    ensures r.Some? <==> StartsWith(trim, ImportHead) && OneLine(trim)
                         && exists j :: |ImportHead| <= j <= |trim| && OccursAt(trim, FromWord, j)
    ensures r.Some? ==> exists j :: |ImportHead| <= j <= |trim| && OccursAt(trim, FromWord, j)
                                    && r.value == trim[j + |FromWord|..]
                                    && forall j' :: j < j' <= |trim| ==> !OccursAt(trim, FromWord, j')
  {
    if StartsWith(trim, ImportHead) && OneLine(trim) then
      var found := LastOccurrence(trim, FromWord, |ImportHead|, |trim|);
      if found.None? then None
      else
        var j := found.value;
        assert |ImportHead| <= j <= |trim| && OccursAt(trim, FromWord, j);
        Some(trim[j + |FromWord|..])
    else None
  }

  /** The end of the run of characters from `k` that are neither quotes nor in `stop`. */
  function RunEnd(s: string, k: nat, stop: char): (e: nat)
    requires k <= |s|
    ensures k <= e <= |s|
    ensures forall i :: k <= i < e ==> !IsQuote(s[i]) && s[i] != stop
    ensures e < |s| ==> IsQuote(s[e]) || s[e] == stop
    decreases |s| - k
  {
    if k == |s| || IsQuote(s[k]) || s[k] == stop then k else RunEnd(s, k + 1, stop)
  }

  /** The capture of `url\(['"]?([^'")]+)['"]?\)` when the match starts at `p`. */
  function UrlAt(s: string, p: nat): (r: Option<string>)
    ensures r.Some? ==> OccursAt(s, "url(", p) && r.value != []
    ensures r.Some? ==> forall i :: 0 <= i < |r.value| ==> !IsQuote(r.value[i]) && r.value[i] != ')'
  {
    if !OccursAt(s, "url(", p) then None
    else
      var q := p + 4;
      var start := if q < |s| && IsQuote(s[q]) then q + 1 else q;
      var e := RunEnd(s, start, ')');
      if e == start then None
      else if e < |s| && s[e] == ')' then Some(s[start..e])
      else if e + 1 < |s| && IsQuote(s[e]) && s[e + 1] == ')' then Some(s[start..e])
      else None
  }

  /** The position of the leftmost match at or after `p`. */
  function UrlFrom(s: string, p: nat): (r: Option<nat>)
    ensures r.Some? ==> p <= r.value <= |s| && UrlAt(s, r.value).Some?
    ensures r.Some? ==> forall k :: p <= k < r.value ==> UrlAt(s, k).None?
    ensures r.None? ==> forall k :: p <= k <= |s| ==> UrlAt(s, k).None?
    decreases |s| - p
  {
    if p > |s| then None
    else if UrlAt(s, p).Some? then Some(p)
    else if p == |s| then None
    else UrlFrom(s, p + 1)
  }

  /** `trim.match(/url\(['"]?([^'")]+)['"]?\)/)[1]`: the capture of the leftmost match. */
  function Url(trim: string): (r: Option<string>)
    ensures r.Some? ==> exists k :: 0 <= k <= |trim| && UrlAt(trim, k) == r
                                    && forall k' :: 0 <= k' < k ==> UrlAt(trim, k').None?
    ensures r.None? ==> forall k :: 0 <= k <= |trim| ==> UrlAt(trim, k).None?
  {
    match UrlFrom(trim, 0)
    case None => None
    case Some(k) => UrlAt(trim, k)
  }

  const AtImportHead := "@import "

  /** `^@import ['"]([^'" ]+)['"].*$`. */
  function AtImport(trim: string): (r: Option<string>)
    ensures r.Some? ==> StartsWith(trim, AtImportHead) && |trim| > |AtImportHead| && IsQuote(trim[|AtImportHead|])
    ensures r.Some? ==> r.value != [] && forall i :: 0 <= i < |r.value| ==> !IsQuote(r.value[i]) && r.value[i] != ' '
  {
    var h := |AtImportHead|;
    if StartsWith(trim, AtImportHead) && h < |trim| && IsQuote(trim[h]) then
      var e := RunEnd(trim, h + 1, ' ');
      if e > h + 1 && e < |trim| && IsQuote(trim[e]) && OneLine(trim[e + 1..]) then Some(trim[h + 1..e])
      else None
    else None
  }

  /**
   * A statement `import <names> from <path>` yields `<path>` verbatim when
   * no later ` from ` follows; with a quoted path the quotes are part of
   * the capture.
   */
  lemma ScriptImportCapture(names: string, path: string)
    requires OneLine(names) && OneLine(path)
    requires forall j :: 0 < j ==> !OccursAt(FromWord + path, FromWord, j)
    ensures ScriptImport(ImportHead + names + FromWord + path) == Some(path)
  {
    var s := ImportHead + names + FromWord + path;
    var j := |ImportHead| + |names|;
    assert s[..|ImportHead|] == ImportHead;
    assert s[j..j + |FromWord|] == FromWord;
    assert s[j..] == FromWord + path;
    assert s[j + |FromWord|..] == path;
    forall i | 0 <= i < |s|
      ensures !IsLineTerminator(s[i])
    {
      if i < |ImportHead| {
        assert s[i] == ImportHead[i];
      } else if i < j {
        assert s[i] == names[i - |ImportHead|];
      } else if i < j + |FromWord| {
        assert s[i] == FromWord[i - j];
      } else {
        assert s[i] == path[i - j - |FromWord|];
      }
    }
    forall j' | j < j' <= |s|
      ensures !OccursAt(s, FromWord, j')
    {
      if OccursAt(s, FromWord, j') {
        assert s[j'..j' + |FromWord|] == (FromWord + path)[j' - j..j' - j + |FromWord|];
        assert OccursAt(FromWord + path, FromWord, j' - j);
      }
    }
    assert OccursAt(s, FromWord, j);
    var r := LastOccurrence(s, FromWord, |ImportHead|, |s|);
    assert r.Some?;
    assert r.value == j;
  }

  /** `url(<path>)` and `url('<path>')` at the start of a statement capture `<path>`. */
  lemma UrlCapture(path: string, quote: string, rest: string)
    requires path != [] && forall i :: 0 <= i < |path| ==> !IsQuote(path[i]) && path[i] != ')'
    requires quote == "" || quote == "'" || quote == "\""
    ensures Url("url(" + quote + path + quote + ")" + rest) == Some(path)
  {
    var s := "url(" + quote + path + quote + ")" + rest;
    var start := 4 + |quote|;
    assert s[..4] == "url(";
    assert start < |s| && s[start..start + |path|] == path;
    assert forall i :: 0 <= i < |path| ==> s[start + i] == path[i];
    assert 4 < |s| && (IsQuote(s[4]) <==> quote != "");
    var e := RunEnd(s, start, ')');
    assert e == start + |path| by {
      assert s[start + |path|] == (if quote == "" then ')' else quote[0]);
    }
    if quote != "" {
      assert s[e + 1] == ')';
    }
    assert s[start..e] == path;
  }

  /** `@import '<path>'<rest>` captures `<path>`, whichever quotes close it. */
  lemma AtImportCapture(open: char, path: string, close: char, rest: string)
    requires IsQuote(open) && IsQuote(close) && OneLine(rest)
    requires path != [] && forall i :: 0 <= i < |path| ==> !IsQuote(path[i]) && path[i] != ' '
    ensures AtImport(AtImportHead + [open] + path + [close] + rest) == Some(path)
  {
    var s := AtImportHead + [open] + path + [close] + rest;
    var h := |AtImportHead|;
    assert s[..h] == AtImportHead;
    assert s[h] == open;
    assert forall i :: 0 <= i < |path| ==> s[h + 1 + i] == path[i];
    var e := RunEnd(s, h + 1, ' ');
    assert e == h + 1 + |path| by {
      assert s[h + 1 + |path|] == close;
    }
    assert s[e + 1..] == rest;
    assert s[h + 1..e] == path;
  }
}

=== FILE: resolvers.dfy ===
/**
 * The memoising resolvers: `getTemplate`, the file-path branches of
 * `resolveScript`, `resolveStyle` and `resolveResource`, the content
 * rewriters `resolveScriptContent` and `resolveStyleContent`, and
 * `getPublicFile`. The engine's four private maps are one `Cache` record
 * threaded through every call; keys are the paths themselves (the source
 * keys by their base64 encoding, which is injective).
 */
module Resolvers {
  import opened Wrappers
  import opened Faults
  import opened Text
  import opened Paths
  import Patterns

  /** A resolved script or style: its absolute path, its path under the views root, its rewritten text. */
  datatype Asset = Asset(abs: string, rel: string, content: string)

  /** A resolved image or other linked file; only its paths are recorded. */
  datatype Resource = Resource(abs: string, rel: string)

  datatype Cache = Cache(
    templates: map<string, string>,
    scripts: map<string, Asset>,
    styles: map<string, Asset>,
    resources: map<string, Resource>)

  /** The views root (absolute, normalised, no trailing slash) and the files under it. */
  datatype Site = Site(views: string, files: map<string, string>)

  const Empty := Cache(map[], map[], map[], map[])

  /** `readFileSync(path).toString()`. */
  function Read(site: Site, path: string): (r: Result<string, Fault>)
    ensures r.Ok? <==> path in site.files
    ensures r.Ok? ==> r.value == site.files[path]
  {
    if path in site.files then Ok(site.files[path]) else Err(NotFound(path))
  }

  /**
   * Resolving only adds cache entries: every record already stored stays
   * as it was, and the templates are not touched.
   */
  predicate Grows(c: Cache, c': Cache) {
    && c'.templates == c.templates
    && (forall k :: k in c.scripts ==> k in c'.scripts && c'.scripts[k] == c.scripts[k])
    && (forall k :: k in c.styles ==> k in c'.styles && c'.styles[k] == c.styles[k])
    && (forall k :: k in c.resources ==> k in c'.resources && c'.resources[k] == c.resources[k])
  }

  /**
   * Every stored record sits under its own path (for resources, the path
   * without its query) and carries that path's `rel`.
   */
  predicate WellKeyed(views: string, c: Cache) {
    && (forall k :: k in c.scripts ==> c.scripts[k].abs == k && c.scripts[k].rel == Rel(views, k))
    && (forall k :: k in c.styles ==> c.styles[k].abs == k && c.styles[k].rel == Rel(views, k))
    && (forall k :: k in c.resources ==>
          StripQuery(c.resources[k].abs) == k && c.resources[k].rel == Rel(views, c.resources[k].abs))
  }

  /**
   * `abs.replace(/\?(.*)/, '')`: from the first `?` up to the next line
   * terminator. On a one-line path that is the longest prefix without a `?`.
   */
  function StripQuery(abs: string): (r: string)
    ensures '?' !in abs ==> r == abs
    ensures |r| <= |abs|
    ensures Patterns.OneLine(abs) ==>
              |r| <= |abs| && r == abs[..|r|] && '?' !in r && (|r| < |abs| ==> abs[|r|] == '?')
  {
    match IndexOf(abs, "?")
    case None =>
      assert forall k :: 0 <= k < |abs| ==> abs[k] != '?' by {
        forall k | 0 <= k < |abs| ensures abs[k] != '?' {
          assert abs[k..k + 1] == [abs[k]];
          assert !OccursAt(abs, "?", k);
        }
      }
      abs
    case Some(k) =>
      assert abs[k] == abs[k..k + 1][0] == '?';
      assert '?' !in abs[..k] by {
        forall j | 0 <= j < k ensures abs[j] != '?' {
          assert abs[j..j + 1] == [abs[j]];
          assert !OccursAt(abs, "?", j);
        }
      }
      assert Patterns.OneLine(abs) ==> LineEnd(abs, k + 1) == |abs| by {
        if Patterns.OneLine(abs) { LineEndOneLine(abs, k + 1); }
      }
      abs[..k] + abs[LineEnd(abs, k + 1)..]
  }

  lemma {:induction false} LineEndOneLine(s: string, k: nat)
    requires k <= |s| && Patterns.OneLine(s)
    ensures LineEnd(s, k) == |s|
    decreases |s| - k
  {
    if k < |s| {
      LineEndOneLine(s, k + 1);
    }
  }

  /** A query on a one-line path is dropped whole, so `p?x` and `p?y` share the key `p`. */
  lemma QueryDropped(p: string, q: string)
    requires '?' !in p && Patterns.OneLine(p + "?" + q)
    ensures StripQuery(p + "?" + q) == p
  {
    var s := p + "?" + q;
    var r := StripQuery(s);
    assert s[|p|] == '?';
    assert s[..|p|] == p;
  }

  /** The index of the first line terminator at or after `k`, or the length. */
  function LineEnd(s: string, k: nat): (e: nat)
    requires k <= |s|
    ensures k <= e <= |s|
    decreases |s| - k
  {
    if k == |s| || IsLineTerminator(s[k]) then k else LineEnd(s, k + 1)
  }

  /**
   * `getTemplate`: the cache is consulted with `!templates[key]`, so an
   * empty template counts as a miss and is read again.
   */
  function GetTemplate(site: Site, c: Cache, path: string): (r: Result<(string, Cache), Fault>)
    ensures r.Ok? ==> path in r.value.1.templates && r.value.1.templates[path] == r.value.0
    ensures r.Ok? ==> r.value.1 == c.(templates := c.templates[path := r.value.0])
    ensures r.Err? ==> path !in site.files && (path !in c.templates || c.templates[path] == [])
    ensures path in c.templates && c.templates[path] != [] ==> r == Ok((c.templates[path], c))
    ensures r.Ok? && (path !in c.templates || c.templates[path] == []) ==> path in site.files && r.value.0 == site.files[path]
    ensures r.Err? ==> r.error == NotFound(path)
  {
    if path in c.templates && c.templates[path] != [] then Ok((c.templates[path], c))
    else
      var data :- Read(site, path);
      Ok((data, c.(templates := c.templates[path := data])))
  }

  /** A second read of a non-empty template is served from the cache. */
  lemma TemplateCached(site: Site, c: Cache, path: string)
    requires GetTemplate(site, c, path).Ok?
    ensures var (data, c') := GetTemplate(site, c, path).value;
            data != [] ==> GetTemplate(site, c', path) == Ok((data, c'))
  {
  }

  /**
   * `resolveResource`: no file is read; the record is keyed by the path
   * with its query dropped, so `a.png?x` and `a.png?y` share the first
   * record stored.
   */
  function ResolveResource(views: string, c: Cache, from: string, target: string): (r: (Resource, Cache))
    ensures var abs := Locate(views, from, target);
            StripQuery(abs) in r.1.resources && r.1.resources[StripQuery(abs)] == r.0
    ensures Grows(c, r.1) && r.1.scripts == c.scripts && r.1.styles == c.styles
    ensures WellKeyed(views, c) ==> WellKeyed(views, r.1) && StripQuery(r.0.abs) == StripQuery(Locate(views, from, target))
  {
    var abs := Locate(views, from, target);
    var key := StripQuery(abs);
    if key in c.resources then (c.resources[key], c)
    else
      var rec := Resource(abs, Rel(views, abs));
      (rec, c.(resources := c.resources[key := rec]))
  }

  /**
   * A second resolve of a target that differs at most in its query
   * returns the stored record and leaves the cache as it was.
   */
  lemma ResourceQueryShared(views: string, c: Cache, from: string, target: string, from': string, target': string)
    requires StripQuery(Locate(views, from', target')) == StripQuery(Locate(views, from, target))
    ensures var (rec, c') := ResolveResource(views, c, from, target);
            ResolveResource(views, c', from', target') == (rec, c')
  {
  }

  /**
   * The rel a resource was given leads `getPublicFile` back to its file
   * when the path carries no query, lies under the views root and exists.
   */
  lemma ResourceServedBack(views: string, c: Cache, from: string, target: string, exists_: set<string>)
    requires IsCanonical(views) && views != "/"
    requires WellKeyed(views, c)
    requires '?' !in Locate(views, from, target)
    requires StartsWith(Locate(views, from, target), views + "/")
    requires Locate(views, from, target) in exists_
    ensures var (rec, c') := ResolveResource(views, c, from, target);
            GetPublicFile(views, exists_, c', Rel(views, Locate(views, from, target))) == Some(Locate(views, from, target))
            && (rec.abs == Locate(views, from, target) ==> GetPublicFile(views, exists_, c', rec.rel) == Some(rec.abs))
  {
    var abs := Locate(views, from, target);
    RelLocatesBack(views, views, abs);
    var rel := Rel(views, abs);
    assert StartsWith(rel, "/");
    assert StartsWith(abs, views) by {
      assert abs[..|views|] == (views + "/")[..|views|];
    }
  }

  /** The outcome of resolving a script or a style: the record and the cache after it. */
  type Resolved = Result<(Asset, Cache), Fault>

  /** What a successful resolve of `abs` guarantees about the returned record and cache. */
  predicate Stores(views: string, c: Cache, r: Resolved, abs: string, style: bool) {
    r.Ok? ==>
      var (a, c') := r.value;
      && (if style then abs in c'.styles && c'.styles[abs] == a else abs in c'.scripts && c'.scripts[abs] == a)
      && Grows(c, c')
      && (WellKeyed(views, c) ==> WellKeyed(views, c') && a.abs == abs && a.rel == Rel(views, abs))
  }

  /**
   * `resolveScript(from, target)` on the file-path branch: the record
   * stored under the resolved path, or the file read, its `import`
   * statements rewritten (recursively resolving each imported script),
   * and stored. An empty target yields `undefined`, which every caller
   * dereferences.
   */
  function ResolveScript(site: Site, fuel: nat, c: Cache, from: string, target: string): (r: Resolved)
    ensures Stores(site.views, c, r, Locate(site.views, from, target), false)
    decreases fuel, 1, 0
  {
    var stripped := if IsAbsolute(target) then target[1..] else target;
    if stripped == [] then Err(TypeError("resolveScript returned undefined"))
    else
      var abs := Locate(site.views, from, target);
      if abs in c.scripts then Ok((c.scripts[abs], c))
      else
        var raw :- Read(site, abs);
        var rewritten :- ScriptLines(site, fuel, c, Dir(abs), Split(raw, ';'));
        var a := Asset(abs, Rel(site.views, abs), Join(rewritten.0, ';'));
        Ok((a, rewritten.1.(scripts := rewritten.1.scripts[abs := a])))
  }

  /** The outcome of rewriting a list of statements. */
  type Rewritten = Result<(seq<string>, Cache), Fault>

  /** What every content rewrite guarantees: one output statement per input statement, and a growing cache. */
  predicate Rewrites(views: string, c: Cache, lines: seq<string>, r: Rewritten) {
    r.Ok? ==>
      && |r.value.0| == |lines|
      && Grows(c, r.value.1)
      && (WellKeyed(views, c) ==> WellKeyed(views, r.value.1))
  }

  /**
   * `resolveScriptContent` over the statements split on `;`: a statement
   * whose trimmed text matches `import ... from <path>` with a non-HTTP
   * path has the first occurrence of `<path>` replaced by the resolved
   * script's `rel`; every other statement is kept as it is.
   */
  function ScriptLines(site: Site, fuel: nat, c: Cache, from: string, lines: seq<string>): (r: Rewritten)
    ensures Rewrites(site.views, c, lines, r)
    ensures r.Ok? ==> forall i :: 0 <= i < |lines| && ScriptTarget(lines[i]).None? ==> r.value.0[i] == lines[i]
    decreases fuel, 0, |lines|
  {
    if lines == [] then Ok(([], c))
    else
      var first :- ScriptLine(site, fuel, c, from, lines[0]);
      var rest :- ScriptLines(site, fuel, first.1, from, lines[1..]);
      ScriptLinesCons(site.views, c, lines, first, rest);
      Ok(([first.0] + rest.0, rest.1))
  }

  /** The path a script statement imports, when it is one the rewriter resolves. */
  function ScriptTarget(line: string): (r: Option<string>)
    ensures r.Some? ==> !IsHTTP(r.value)
  {
    match Patterns.ScriptImport(Trim(line))
    case Some(path) => if IsHTTP(path) then None else Some(path)
    case None => None
  }

  function ScriptLine(site: Site, fuel: nat, c: Cache, from: string, line: string): (r: Result<(string, Cache), Fault>)
    ensures r.Ok? ==> Grows(c, r.value.1) && (WellKeyed(site.views, c) ==> WellKeyed(site.views, r.value.1))
    ensures ScriptTarget(line).None? ==> r == Ok((line, c))
    decreases fuel, 0, 0
  {
    match ScriptTarget(line)
    case None => Ok((line, c))
    case Some(path) =>
      if fuel == 0 then Err(RecursionLimit)
      else
        var res :- ResolveScript(site, fuel - 1, c, from, path);
        Ok((ReplaceFirst(line, path, res.0.rel), res.1))
  }

  /**
   * `resolveStyle(from, target)` on the file-path branch: as
   * `ResolveScript`, with the style rewriter and the style map.
   */
  function ResolveStyle(site: Site, fuel: nat, c: Cache, from: string, target: string): (r: Resolved)
    ensures Stores(site.views, c, r, Locate(site.views, from, target), true)
    decreases fuel, 1, 0
  {
    var stripped := if IsAbsolute(target) then target[1..] else target;
    if stripped == [] then Err(TypeError("resolveStyle returned undefined"))
    else
      var abs := Locate(site.views, from, target);
      if abs in c.styles then Ok((c.styles[abs], c))
      else
        var raw :- Read(site, abs);
        var rewritten :- StyleLines(site, fuel, c, Dir(abs), Split(raw, ';'));
        var a := Asset(abs, Rel(site.views, abs), Join(rewritten.0, ';'));
        Ok((a, rewritten.1.(styles := rewritten.1.styles[abs := a])))
  }

  /** Which reference, if any, the style rewriter resolves in a statement. */
  datatype StyleRef = UrlRef(path: string) | ImportRef(path: string)

  /**
   * The first `url(...)` of the trimmed statement if there is one (a
   * `.css` one is a style, anything else a resource), otherwise an
   * `@import '...'` at its start; HTTP references are left alone.
   */
  function StyleTarget(line: string): (r: Option<StyleRef>)
    ensures r.Some? ==> !IsHTTP(r.value.path)
    ensures r.Some? && r.value.ImportRef? ==> Patterns.Url(Trim(line)).None?
  {
    var trim := Trim(line);
    match Patterns.Url(trim)
    case Some(path) => if IsHTTP(path) then None else Some(UrlRef(path))
    case None =>
      match Patterns.AtImport(trim)
      case Some(path) => if IsHTTP(path) then None else Some(ImportRef(path))
      case None => None
  }

  /** `resolveStyleContent` over the statements split on `;`. */
  function StyleLines(site: Site, fuel: nat, c: Cache, from: string, lines: seq<string>): (r: Rewritten)
    ensures Rewrites(site.views, c, lines, r)
    ensures r.Ok? ==> forall i :: 0 <= i < |lines| && StyleTarget(lines[i]).None? ==> r.value.0[i] == lines[i]
    decreases fuel, 0, |lines|
  {
    if lines == [] then Ok(([], c))
    else
      var first :- StyleLine(site, fuel, c, from, lines[0]);
      var rest :- StyleLines(site, fuel, first.1, from, lines[1..]);
      StyleLinesCons(site.views, c, lines, first, rest);
      Ok(([first.0] + rest.0, rest.1))
  }

  function StyleLine(site: Site, fuel: nat, c: Cache, from: string, line: string): (r: Result<(string, Cache), Fault>)
    ensures r.Ok? ==> Grows(c, r.value.1) && (WellKeyed(site.views, c) ==> WellKeyed(site.views, r.value.1))
    ensures StyleTarget(line).None? ==> r == Ok((line, c))
    decreases fuel, 0, 0
  {
    match StyleTarget(line)
    case None => Ok((line, c))
    case Some(ref) =>
      if ref.UrlRef? && Ext(ref.path) != ".css" then
        var res := ResolveResource(site.views, c, from, ref.path);
        Ok((ReplaceFirst(line, ref.path, res.0.rel), res.1))
      else if fuel == 0 then Err(RecursionLimit)
      else
        var res :- ResolveStyle(site, fuel - 1, c, from, ref.path);
        Ok((ReplaceFirst(line, ref.path, res.0.rel), res.1))
  }

  /** Prepending one rewritten statement to rewritten ones keeps every statement `keep` holds of. */
  lemma KeptCons(keep: string -> bool, lines: seq<string>, y: string, ys: seq<string>)
    requires lines != [] && |ys| == |lines| - 1
    requires keep(lines[0]) ==> y == lines[0]
    requires forall i :: 0 <= i < |ys| && keep(lines[1..][i]) ==> ys[i] == lines[1..][i]
    ensures forall i :: 0 <= i < |lines| && keep(lines[i]) ==> ([y] + ys)[i] == lines[i]
  {
    forall i | 0 <= i < |lines| && keep(lines[i])
      ensures ([y] + ys)[i] == lines[i]
    {
      if i > 0 {
        assert lines[i] == lines[1..][i - 1];
      }
    }
  }

  /** One statement's rewrite followed by the rest's keeps what `ScriptLines` promises. */
  lemma ScriptLinesCons(views: string, c: Cache, lines: seq<string>,
                       first: (string, Cache), rest: (seq<string>, Cache))
    requires lines != []
    requires Grows(c, first.1) && (WellKeyed(views, c) ==> WellKeyed(views, first.1))
    requires ScriptTarget(lines[0]).None? ==> first.0 == lines[0]
    requires Rewrites(views, first.1, lines[1..], Ok(rest))
    requires forall i :: 0 <= i < |lines[1..]| && ScriptTarget(lines[1..][i]).None? ==> rest.0[i] == lines[1..][i]
    ensures Rewrites(views, c, lines, Ok(([first.0] + rest.0, rest.1)))
    ensures forall i :: 0 <= i < |lines| && ScriptTarget(lines[i]).None? ==> ([first.0] + rest.0)[i] == lines[i]
  {
    GrowsTrans(c, first.1, rest.1);
    KeptCons(line => ScriptTarget(line).None?, lines, first.0, rest.0);
  }

  /** The same for `StyleLines`. */
  lemma StyleLinesCons(views: string, c: Cache, lines: seq<string>,
                      first: (string, Cache), rest: (seq<string>, Cache))
    requires lines != []
    requires Grows(c, first.1) && (WellKeyed(views, c) ==> WellKeyed(views, first.1))
    requires StyleTarget(lines[0]).None? ==> first.0 == lines[0]
    requires Rewrites(views, first.1, lines[1..], Ok(rest))
    requires forall i :: 0 <= i < |lines[1..]| && StyleTarget(lines[1..][i]).None? ==> rest.0[i] == lines[1..][i]
    ensures Rewrites(views, c, lines, Ok(([first.0] + rest.0, rest.1)))
    ensures forall i :: 0 <= i < |lines| && StyleTarget(lines[i]).None? ==> ([first.0] + rest.0)[i] == lines[i]
  {
    GrowsTrans(c, first.1, rest.1);
    KeptCons(line => StyleTarget(line).None?, lines, first.0, rest.0);
  }

  lemma GrowsTrans(a: Cache, b: Cache, c: Cache)
    requires Grows(a, b) && Grows(b, c)
    ensures Grows(a, c)
  {
  }

  /**
   * A second resolve of a script whose path resolves to the same file,
   * from any directory and with any fuel, returns the stored record and
   * leaves every cache as it was.
   */
  lemma ScriptResolvedOnce(site: Site, fuel: nat, c: Cache, from: string, target: string,
                           fuel': nat, from': string, target': string)
    requires ResolveScript(site, fuel, c, from, target).Ok?
    requires Locate(site.views, from', target') == Locate(site.views, from, target)
    requires target' != [] && target' != "/"
    ensures var (a, c') := ResolveScript(site, fuel, c, from, target).value;
            ResolveScript(site, fuel', c', from', target') == Ok((a, c'))
  {
  }

  /** The same for styles. */
  lemma StyleResolvedOnce(site: Site, fuel: nat, c: Cache, from: string, target: string,
                          fuel': nat, from': string, target': string)
    requires ResolveStyle(site, fuel, c, from, target).Ok?
    requires Locate(site.views, from', target') == Locate(site.views, from, target)
    requires target' != [] && target' != "/"
    ensures var (a, c') := ResolveStyle(site, fuel, c, from, target).value;
            ResolveStyle(site, fuel', c', from', target') == Ok((a, c'))
  {
  }

  /**
   * Content with no statement the script rewriter resolves comes back
   * unchanged, and nothing is cached.
   */
  lemma ScriptContentUntouched(site: Site, fuel: nat, c: Cache, from: string, content: string)
    requires forall i :: 0 <= i < |Split(content, ';')| ==> ScriptTarget(Split(content, ';')[i]).None?
    ensures var r := ScriptLines(site, fuel, c, from, Split(content, ';'));
            r.Ok? && Join(r.value.0, ';') == content && r.value.1 == c
  {
    ScriptLinesUntouched(site, fuel, c, from, Split(content, ';'));
  }

  /** The same for styles. */
  lemma StyleContentUntouched(site: Site, fuel: nat, c: Cache, from: string, content: string)
    requires forall i :: 0 <= i < |Split(content, ';')| ==> StyleTarget(Split(content, ';')[i]).None?
    ensures var r := StyleLines(site, fuel, c, from, Split(content, ';'));
            r.Ok? && Join(r.value.0, ';') == content && r.value.1 == c
  {
    StyleLinesUntouched(site, fuel, c, from, Split(content, ';'));
  }

  lemma {:induction false} ScriptLinesUntouched(site: Site, fuel: nat, c: Cache, from: string, lines: seq<string>)
    requires forall i :: 0 <= i < |lines| ==> ScriptTarget(lines[i]).None?
    ensures ScriptLines(site, fuel, c, from, lines) == Ok((lines, c))
    decreases |lines|
  {
    if lines != [] {
      var first := ScriptLine(site, fuel, c, from, lines[0]);
      assert first == Ok((lines[0], c));
      assert forall i :: 0 <= i < |lines[1..]| ==> lines[1..][i] == lines[i + 1];
      ScriptLinesUntouched(site, fuel, c, from, lines[1..]);
      assert [lines[0]] + lines[1..] == lines;
      assert ScriptLines(site, fuel, c, from, lines) == Ok(([lines[0]] + lines[1..], c));
    }
  }

  lemma {:induction false} StyleLinesUntouched(site: Site, fuel: nat, c: Cache, from: string, lines: seq<string>)
    requires forall i :: 0 <= i < |lines| ==> StyleTarget(lines[i]).None?
    ensures StyleLines(site, fuel, c, from, lines) == Ok((lines, c))
    decreases |lines|
  {
    if lines != [] {
      var first := StyleLine(site, fuel, c, from, lines[0]);
      assert first == Ok((lines[0], c));
      assert forall i :: 0 <= i < |lines[1..]| ==> lines[1..][i] == lines[i + 1];
      StyleLinesUntouched(site, fuel, c, from, lines[1..]);
      assert [lines[0]] + lines[1..] == lines;
      assert StyleLines(site, fuel, c, from, lines) == Ok(([lines[0]] + lines[1..], c));
    }
  }

  /**
   * `getPublicFile`: one leading slash is dropped and the path resolved
   * against the views root; it is served only if some script, style or
   * resource record is stored under it, it starts with the views root and
   * it exists.
   */
  function GetPublicFile(views: string, exists_: set<string>, c: Cache, target: string): (r: Option<string>)
    ensures r.Some? <==>
      var p := Resolve(views, if StartsWith(target, "/") then target[1..] else target);
      (p in c.scripts || p in c.styles || p in c.resources) && StartsWith(p, views) && p in exists_
    ensures r.Some? ==> r.value == Resolve(views, if StartsWith(target, "/") then target[1..] else target)
  {
    var t := if StartsWith(target, "/") then target[1..] else target;
    var p := Resolve(views, t);
    if (p in c.scripts || p in c.styles || p in c.resources) && StartsWith(p, views) && p in exists_ then Some(p)
    else None
  }

  /**
   * The `rel` a resolved script was given leads `getPublicFile` back to the
   * script's file, when that file lies under the views root and exists.
   */
  lemma ScriptServedBack(site: Site, fuel: nat, c: Cache, from: string, target: string, exists_: set<string>)
    requires IsCanonical(site.views) && site.views != "/"
    requires WellKeyed(site.views, c)
    requires ResolveScript(site, fuel, c, from, target).Ok?
    requires StartsWith(Locate(site.views, from, target), site.views + "/")
    requires Locate(site.views, from, target) in exists_
    ensures var (a, c') := ResolveScript(site, fuel, c, from, target).value;
            GetPublicFile(site.views, exists_, c', a.rel) == Some(a.abs)
  {
    var abs := Locate(site.views, from, target);
    RelLocatesBack(site.views, site.views, abs);
    var rel := Rel(site.views, abs);
    assert StartsWith(rel, "/");
    assert StartsWith(abs, site.views) by {
      assert abs[..|site.views|] == (site.views + "/")[..|site.views|];
    }
  }

  /** The same for styles. */
  lemma StyleServedBack(site: Site, fuel: nat, c: Cache, from: string, target: string, exists_: set<string>)
    requires IsCanonical(site.views) && site.views != "/"
    requires WellKeyed(site.views, c)
    requires ResolveStyle(site, fuel, c, from, target).Ok?
    requires StartsWith(Locate(site.views, from, target), site.views + "/")
    requires Locate(site.views, from, target) in exists_
    ensures var (a, c') := ResolveStyle(site, fuel, c, from, target).value;
            GetPublicFile(site.views, exists_, c', a.rel) == Some(a.abs)
  {
    var abs := Locate(site.views, from, target);
    RelLocatesBack(site.views, site.views, abs);
    var rel := Rel(site.views, abs);
    assert StartsWith(rel, "/");
    assert StartsWith(abs, site.views) by {
      assert abs[..|site.views|] == (site.views + "/")[..|site.views|];
    }
  }
}

=== FILE: text.dfy ===
/**
 * The JavaScript string operations the engine relies on: `startsWith`,
 * `indexOf`, `replace` with a string pattern, `split`/`join` on one
 * character, and the whitespace trim written as a regular expression.
 */
module Text {
  import opened Wrappers

  predicate StartsWith(s: string, prefix: string) {
    |prefix| <= |s| && s[..|prefix|] == prefix
  }

  /** `pat` occurs in `s` starting at index `k`. */
  predicate OccursAt(s: string, pat: string, k: int) {
    0 <= k && k + |pat| <= |s| && s[k..k + |pat|] == pat
  }

  /** `k` is the index `s.indexOf(pat)` returns. */
  predicate FirstOccurrence(s: string, pat: string, k: int) {
    OccursAt(s, pat, k) && forall j :: 0 <= j < k ==> !OccursAt(s, pat, j)
  }

  predicate Contains(s: string, pat: string) {
    exists k :: 0 <= k <= |s| && OccursAt(s, pat, k)
  }

  /** `s.indexOf(pat)`, with JavaScript's -1 written as None. */
  function IndexOf(s: string, pat: string): (r: Option<nat>)
    ensures r.Some? ==> FirstOccurrence(s, pat, r.value)
    ensures r.None? <==> !Contains(s, pat)
  {
    IndexFrom(s, pat, 0)
  }

  function IndexFrom(s: string, pat: string, from: nat): (r: Option<nat>)
    requires forall j :: 0 <= j < from ==> !OccursAt(s, pat, j)
    ensures r.Some? ==> FirstOccurrence(s, pat, r.value)
    ensures r.None? ==> forall k :: from <= k ==> !OccursAt(s, pat, k)
    decreases |s| - from
  {
    if from + |pat| > |s| then None
    else if s[from..from + |pat|] == pat then Some(from)
    else IndexFrom(s, pat, from + 1)
  }

  /**
   * The replacement text JavaScript's `replace` inserts for a string
   * replacement `rep` when the pattern has no capture groups: `$$`, `$&`,
   * `` $` `` and `$'` are expanded and every other character is copied.
   */
  function Substitute(rep: string, matched: string, before: string, after: string): string
    decreases |rep|
  {
    if rep == [] then []
    else if rep[0] == '$' && |rep| >= 2 && rep[1] == '$' then "$" + Substitute(rep[2..], matched, before, after)
    else if rep[0] == '$' && |rep| >= 2 && rep[1] == '&' then matched + Substitute(rep[2..], matched, before, after)
    else if rep[0] == '$' && |rep| >= 2 && rep[1] == '`' then before + Substitute(rep[2..], matched, before, after)
    else if rep[0] == '$' && |rep| >= 2 && rep[1] == '\'' then after + Substitute(rep[2..], matched, before, after)
    else [rep[0]] + Substitute(rep[1..], matched, before, after)
  }

  lemma {:induction false} SubstitutePlain(rep: string, matched: string, before: string, after: string)
    requires '$' !in rep
    ensures Substitute(rep, matched, before, after) == rep
    decreases |rep|
  {
    if rep != [] {
      assert rep[0] != '$';
      assert '$' !in rep[1..];
      SubstitutePlain(rep[1..], matched, before, after);
      assert rep == [rep[0]] + rep[1..];
    }
  }

  /** `s.replace(pat, rep)`: only the first occurrence of `pat` is replaced. */
  function ReplaceFirst(s: string, pat: string, rep: string): string {
    match IndexOf(s, pat)
    case None => s
    case Some(k) => s[..k] + Substitute(rep, pat, s[..k], s[k + |pat|..]) + s[k + |pat|..]
  }

  /**
   * Replacing changes nothing when the pattern is absent, and otherwise
   * splices the replacement in at the first occurrence and only there.
   */
  lemma ReplaceFirstSpec(s: string, pat: string, rep: string, k: nat)
    ensures !Contains(s, pat) ==> ReplaceFirst(s, pat, rep) == s
    ensures FirstOccurrence(s, pat, k) && '$' !in rep ==>
              ReplaceFirst(s, pat, rep) == s[..k] + rep + s[k + |pat|..]
  {
    if FirstOccurrence(s, pat, k) && '$' !in rep {
      var r := IndexOf(s, pat);
      assert r.Some?;
      assert r.value == k;
      SubstitutePlain(rep, pat, s[..k], s[k + |pat|..]);
    }
  }

  /**
   * The `$` patterns at work on the first occurrence at `k`: `$&` puts the
   * match back, `$$` inserts one dollar sign, `` $` `` and `$'` insert the
   * text before and after the match, and a lone `$` or one followed by any
   * other character (here a digit, as there are no capture groups) is literal.
   */
  lemma ReplaceFirstPatterns(s: string, pat: string, k: nat)
    requires FirstOccurrence(s, pat, k)
    ensures ReplaceFirst(s, pat, "$&") == s
    ensures ReplaceFirst(s, pat, "$$") == s[..k] + "$" + s[k + |pat|..]
    ensures ReplaceFirst(s, pat, "$`") == s[..k] + s[..k] + s[k + |pat|..]
    ensures ReplaceFirst(s, pat, "$'") == s[..k] + s[k + |pat|..] + s[k + |pat|..]
    ensures ReplaceFirst(s, pat, "$") == s[..k] + "$" + s[k + |pat|..]
    ensures ReplaceFirst(s, pat, "$1") == s[..k] + "$1" + s[k + |pat|..]
  {
    var r := IndexOf(s, pat);
    assert r.Some? && r.value == k;
    var before, after := s[..k], s[k + |pat|..];
    assert s[..k] + pat + after == s;
    assert Substitute("$&", pat, before, after) == pat + Substitute([], pat, before, after);
    assert Substitute("$$", pat, before, after) == "$" + Substitute([], pat, before, after);
    assert Substitute("$`", pat, before, after) == before + Substitute([], pat, before, after);
    assert Substitute("$'", pat, before, after) == after + Substitute([], pat, before, after);
    assert Substitute("$", pat, before, after) == "$" + Substitute([], pat, before, after);
    assert Substitute("1", pat, before, after) == "1" + Substitute([], pat, before, after);
    assert Substitute("$1", pat, before, after) == "$" + Substitute("1", pat, before, after);
  }

  /** `parts.join([sep])` */
  function Join(parts: seq<string>, sep: char): string
  {
    if parts == [] then []
    else if |parts| == 1 then parts[0]
    else parts[0] + [sep] + Join(parts[1..], sep)
  }

  /** `s.split(sep)` for a one-character separator. */
  function Split(s: string, sep: char): (parts: seq<string>)
    ensures |parts| >= 1
    ensures forall i :: 0 <= i < |parts| ==> sep !in parts[i]
    ensures Join(parts, sep) == s
    decreases |s|
  {
    if s == [] then [[]]
    else
      var tail := Split(s[1..], sep);
      if s[0] == sep then
        assert Join([[]] + tail, sep) == [sep] + Join(tail, sep);
        assert s == [s[0]] + s[1..];
        [[]] + tail
      else
        var r := [[s[0]] + tail[0]] + tail[1..];
        assert Join(r, sep) == [s[0]] + Join(tail, sep) by {
          if |tail| > 1 {
            assert Join(tail, sep) == tail[0] + [sep] + Join(tail[1..], sep);
          }
        }
        assert s == [s[0]] + s[1..];
        r
  }

  /** Splitting undoes joining when no part contains the separator. */
  lemma {:induction false} SplitJoin(parts: seq<string>, sep: char)
    requires |parts| >= 1
    requires forall i :: 0 <= i < |parts| ==> sep !in parts[i]
    ensures Split(Join(parts, sep), sep) == parts
    decreases |Join(parts, sep)|
  {
    var s := Join(parts, sep);
    if s == [] {
      assert |parts| == 1;
    } else if parts[0] == [] {
      assert |parts| > 1;
      assert s == [sep] + Join(parts[1..], sep);
      assert s[1..] == Join(parts[1..], sep);
      SplitJoin(parts[1..], sep);
      assert parts == [[]] + parts[1..];
    } else {
      var p0 := parts[0];
      var parts' := [p0[1..]] + parts[1..];
      assert forall i :: 0 <= i < |parts'| ==> sep !in parts'[i] by {
        assert forall c :: c in p0[1..] ==> c in p0;
      }
      assert s == [p0[0]] + Join(parts', sep) by {
        if |parts| > 1 {
          assert Join(parts', sep) == p0[1..] + [sep] + Join(parts[1..], sep);
        }
        assert p0 == [p0[0]] + p0[1..];
      }
      assert s[1..] == Join(parts', sep);
      SplitJoin(parts', sep);
      assert p0[0] != sep;
      assert [p0[0]] + parts'[0] == p0;
      assert parts'[1..] == parts[1..];
      assert parts == [p0] + parts[1..];
    }
  }

  /** The characters JavaScript's `\s` matches. */
  predicate IsSpace(c: char) {
    c == ' ' || c == '\t' || c == '\n' || c == '\r' || c == '\U{000B}' || c == '\U{000C}'
    || c == '\U{00A0}' || c == '\U{1680}' || ('\U{2000}' <= c <= '\U{200A}')
    || c == '\U{2028}' || c == '\U{2029}' || c == '\U{202F}' || c == '\U{205F}'
    || c == '\U{3000}' || c == '\U{FEFF}'
  }

  /** The characters JavaScript's `.` does not match. */
  predicate IsLineTerminator(c: char) {
    c == '\n' || c == '\r' || c == '\U{2028}' || c == '\U{2029}'
  }

  function TrimStart(s: string): (r: string)
    ensures |r| <= |s| && r == s[|s| - |r|..]
    ensures r == [] || !IsSpace(r[0])
    ensures forall k :: 0 <= k < |s| - |r| ==> IsSpace(s[k])
    decreases |s|
  {
    if s != [] && IsSpace(s[0]) then TrimStart(s[1..]) else s
  }

  function TrimEnd(s: string): (r: string)
    ensures |r| <= |s| && r == s[..|r|]
    ensures r == [] || !IsSpace(r[|r| - 1])
    ensures forall k :: |r| <= k < |s| ==> IsSpace(s[k])
    decreases |s|
  {
    if s != [] && IsSpace(s[|s| - 1]) then TrimEnd(s[..|s| - 1]) else s
  }

  /** `r` is `s` with only whitespace before index `i` and after `r` dropped. */
  predicate TrimmedAt(s: string, r: string, i: int) {
    && 0 <= i && i + |r| <= |s| && s[i..i + |r|] == r
    && (forall k :: 0 <= k < i ==> IsSpace(s[k]))
    && (forall k :: i + |r| <= k < |s| ==> IsSpace(s[k]))
  }

  /**
   * `str.replace(/^[\s\r\n]*|[\s\r\n]*$/g, '')`: the longest run of
   * whitespace at each end is removed and nothing else.
   */
  function Trim(s: string): (r: string)
    ensures exists i :: TrimmedAt(s, r, i)
    ensures r == [] || (!IsSpace(r[0]) && !IsSpace(r[|r| - 1]))
  {
    var a := TrimStart(s);
    var r := TrimEnd(a);
    var i := |s| - |a|;
    assert TrimmedAt(s, r, i);
    r
  }
}

=== FILE: values.dfy ===
/**
 * The JavaScript values an expression can evaluate to, as far as the engine
 * looks at them: truthiness (`||`, `if`), string conversion (template
 * literals, `String.replace`) and numeric conversion (loop bounds).
 */
module Values {
  import opened Wrappers
  import Text

  /** `Obj` is any object or function; `text` is what `String(v)` gives for it. */
  datatype Value =
    | Undefined
    | Null
    | Bool(b: bool)
    | Num(n: int)
    | Str(s: string)
    | Obj(text: string)

  /** The variables expressions see; written by `repeat` index attributes. */
  type Scope = map<string, Value>

  /** JavaScript's ToBoolean. */
  predicate Truthy(v: Value) {
    match v
    case Undefined => false
    case Null => false
    case Bool(b) => b
    case Num(n) => n != 0
    case Str(s) => s != []
    case Obj(_) => true
  }

  function DigitChar(d: nat): char
    requires d < 10
  {
    "0123456789"[d]
  }

  /** Decimal digits of `n`, most significant first, no leading zeros. */
  function NatToDecimal(n: nat): (r: string)
    ensures |r| >= 1
    ensures forall i :: 0 <= i < |r| ==> '0' <= r[i] <= '9'
    decreases n
  {
    if n < 10 then [DigitChar(n)] else NatToDecimal(n / 10) + [DigitChar(n % 10)]
  }

  /** JavaScript's ToString, for integral numbers. */
  function ToText(v: Value): string {
    match v
    case Undefined => "undefined"
    case Null => "null"
    case Bool(b) => if b then "true" else "false"
    case Num(n) => if n < 0 then "-" + NatToDecimal(-n) else NatToDecimal(n)
    case Str(s) => s
    case Obj(t) => t
  }

  /** The text `v || ''` contributes when it is spliced into markup. */
  function OrEmpty(v: Value): (r: string)
    ensures !Truthy(v) ==> r == []
    ensures Truthy(v) ==> r == ToText(v)
    ensures Truthy(v) && !v.Obj? ==> r != []
  {
    if Truthy(v) then ToText(v) else []
  }

  function DigitValue(c: char): nat
    requires '0' <= c <= '9'
  {
    (c as int - '0' as int) as nat
  }

  predicate AllDigits(s: string) {
    forall i :: 0 <= i < |s| ==> '0' <= s[i] <= '9'
  }

  function DecimalValue(s: string): nat
    requires AllDigits(s)
    decreases |s|
  {
    if s == [] then 0 else DecimalValue(s[..|s| - 1]) * 10 + DigitValue(s[|s| - 1])
  }

  /** Reading back the decimal text of a natural number gives the number. */
  lemma {:induction false} DecimalRoundTrip(n: nat)
    ensures AllDigits(NatToDecimal(n)) && DecimalValue(NatToDecimal(n)) == n
    decreases n
  {
    var r := NatToDecimal(n);
    if n >= 10 {
      DecimalRoundTrip(n / 10);
      assert r[..|r| - 1] == NatToDecimal(n / 10);
      assert DigitValue(r[|r| - 1]) == n % 10;
    } else {
      assert DigitValue(r[0]) == n;
    }
  }

  /**
   * JavaScript's ToNumber for integral values; None stands for NaN.
   * Strings are read as optionally signed decimal integers after trimming.
   * An object is converted through its text (`valueOf` of a plain object,
   * an array or a function returns the object itself), so `[3]` reads as 3.
   */
  function ToNumber(v: Value): Option<int> {
    match v
    case Undefined => None
    case Null => Some(0)
    case Bool(b) => Some(if b then 1 else 0)
    case Num(n) => Some(n)
    case Str(s) => StringToNumber(Text.Trim(s))
    case Obj(t) => StringToNumber(Text.Trim(t))
  }

  function StringToNumber(t: string): Option<int> {
    if t == [] then Some(0)
    else if t[0] == '-' && |t| > 1 && AllDigits(t[1..]) then Some(0 - DecimalValue(t[1..]) as int)
    else if t[0] == '+' && |t| > 1 && AllDigits(t[1..]) then Some(DecimalValue(t[1..]))
    else if AllDigits(t) then Some(DecimalValue(t))
    else None
  }
}

=== FILE: wrappers.dfy ===
/** Option and Result types shared by the model, both usable with `:-`. */
module Wrappers {

  datatype Option<+T> = None | Some(value: T) {

    predicate IsFailure() {
      None?
    }

    function PropagateFailure<U>(): Option<U>
      requires None?
    {
      None
    }

    function Extract(): T
      requires Some?
    {
      value
    }
  }

  /** The outcome of an operation that can throw: the thrown error is `Err`. */
  datatype Result<+T, +E> = Ok(value: T) | Err(error: E) {

    predicate IsFailure() {
      Err?
    }

    function PropagateFailure<U>(): Result<U, E>
      requires Err?
    {
      Err(error)
    }

    function Extract(): T
      requires Ok?
    {
      value
    }
  }
}
